=== FILE: README.md ===
# openclaw agent tools, hive planner and mission-control queries in Dafny

This project models ten small pieces of the openclaw gateway and agent runtime
and proves properties of them:

- the hive goal decomposition: the prompt, the reply post-processing and the
  greedy tiering of a task graph;
- the `agent_send` tool: the protocol of one agent-to-agent send;
- the rule-based intelligence extractor and its capped-confidence upsert;
- the three scheduling tools over the `scheduled_tasks` table;
- the workspace store;
- prompt audio detection and loading for the embedded runner;
- the two mission-control gateway queries;
- the `modify_config`, `voice_message` and `speak` tools.

Everything is modelled as pure functions over immutable values:

- A database table is a sequence of rows, or a map from id to row for
  `workspaces`.
- The calls a tool makes (gateway calls, inserts, the detached agent-to-agent
  flow) are an ordered trace of `Effect` values.
- Whatever the tools do not compute themselves is a parameter of the operation
  that uses it: fresh UUIDs, the clock, gateway replies and failures, the
  cron engine, `JSON.parse`, `resolveUserPath`, sandbox path resolution,
  `path.resolve` and `loadWebMedia`.
- A thrown error is a `Result.Err` carrying the error's message.

| file | module | models |
|---|---|---|
| base.dfy | Base | `Option`, `Result`, truthiness of optional strings, `||`, template rendering of `undefined`, JSON values |
| strings.dfy | Strings | `startsWith`, `includes`, ASCII `toLowerCase`, ECMAScript `trim` |
| seqs.dfy | Seqs | subsequences, `filter`, `slice(0, n)` |
| sorting.dfy | Sorting | `ORDER BY … LIMIT` as a stable insertion sort |
| audit_log.dfy | AuditLog | the `audit_log` row |
| goal_decomposition.dfy | GoalDecomposition | src/hive/goal-decomposition.ts |
| agent_send.dfy | AgentSend | src/agents/tools/agent-send-tool.ts |
| intelligence_extractor.dfy | IntelligenceExtractor | src/agents/intelligence-extractor.ts |
| scheduling_tools.dfy | SchedulingTools | src/agents/tools/scheduling-tools.ts |
| workspace_manager.dfy | WorkspaceManager | src/agents/workspace-manager.ts |
| audio_markers.dfy | AudioMarkers | the two regular expressions of src/agents/pi-embedded-runner/run/audio.ts |
| audio.dfy | Audio | the rest of src/agents/pi-embedded-runner/run/audio.ts |
| mission_control.dfy | MissionControl | src/gateway/server-methods/mission-control.ts |
| runtime_config.dfy | RuntimeConfig | src/agents/tools/runtime-config-tool.ts |
| voice_message.dfy | VoiceMessage | src/agents/tools/voice-message-tool.ts |
| speak.dfy | Speak | src/agents/tools/speak-tool.ts |

Some behaviours worth knowing, all modelled as the code has them:

- `agent_send` mints a fresh idempotency key on every invocation.
- The hive text of `agent_send` interpolates the caller's session key with a
  template literal, so a missing key prints as `undefined`.
- `resolveExecutionOrder` filters `remaining` by id. When two tasks share an
  id and only one of them is ready, scheduling it also drops the other.
- `speak` defaults the target with `??`. An empty target string that reaches
  that default is kept, so it gets a delivery message rather than the
  directive. Whether `readStringParam` ever lets an empty string through is
  not part of this model.
- `detectAndLoadPromptAudio` returns no audio at all for a provider other than
  "google". This drops the audio the caller already attached.
- The marker expression's `\s*` gives back one character when only white space
  precedes the closing `]`, and that character becomes the capture.

## Model

| member | source | states |
|---|---|---|
| GoalDecomposition.DecomposeRequest | src/hive/goal-decomposition.ts:28-49 | The request is an "agent" call on lane "main" that is not delivered, with timeout 30 and a 60000 ms deadline. Its prompt carries the goal right after the fixed "Goal: " head. |
| GoalDecomposition.StripFencesLeavesNoFence | src/hive/goal-decomposition.ts:52 | After every "```json" and "```" is removed, no "```" is left anywhere. This holds even where a removal brings back-ticks together. |
| GoalDecomposition.StripFencesIdentity | src/hive/goal-decomposition.ts:52 | Text that contains no fence is unchanged by the replacement. |
| GoalDecomposition.StripFencesIdempotent | src/hive/goal-decomposition.ts:52 | Removing fences a second time changes nothing. |
| GoalDecomposition.ParserInput | src/hive/goal-decomposition.ts:52-53 | What reaches `JSON.parse` is never empty, because missing or blank text becomes "{}". Text that came from the reply holds no fence. |
| GoalDecomposition.AsPending | src/hive/goal-decomposition.ts:56 | The task keeps every parsed field except status, which becomes pending. |
| GoalDecomposition.Decompose | src/hive/goal-decomposition.ts:40-61 | A gateway failure propagates; any reply gives a graph whose tasks are all pending. The parsed goal replaces the input goal when it is truthy, unless `tasks` is a truthy non-array, whose `map` throws into the catch. Tasks are empty unless `tasks` parsed as an array, and then they keep that array's length, ids and dependencies in order. |
| GoalDecomposition.EmptyReplyGivesNoTasks | src/hive/goal-decomposition.ts:52-57 | A reply with no text, or with only fences and white space, gives exactly the input goal with no tasks. |
| GoalDecomposition.ParseFailureGivesEmptyGraph | src/hive/goal-decomposition.ts:51-61 | When parsing throws, the result is exactly `{goal, tasks: []}`. |
| GoalDecomposition.ReadyTasks | src/hive/goal-decomposition.ts:71-73 | The tier holds exactly the remaining tasks whose dependencies are all completed, in both directions. |
| GoalDecomposition.Unscheduled | src/hive/goal-decomposition.ts:82 | A task stays in `remaining` exactly when its id is not completed. |
| GoalDecomposition.UnscheduledShrinks | src/hive/goal-decomposition.ts:80-83 | A productive iteration strictly shrinks `remaining`, which is the loop's termination measure. |
| GoalDecomposition.ResolveExecutionOrder | src/hive/goal-decomposition.ts:64-86 | The imperative loop returns tiers that fit the graph. Each tier is non-empty and is exactly the next ready batch. The loop stops with nothing left or nothing ready. |
| GoalDecomposition.TiersAreWellFormed | src/hive/goal-decomposition.ts:70-85 | The tiers computed for any graph fit it in the sense above. |
| GoalDecomposition.TiersKeepGraphOrder | src/hive/goal-decomposition.ts:71-80 | Every tier is non-empty and a subsequence of the graph's tasks, so it keeps their order and comes from the graph. |
| GoalDecomposition.TiersRespectDependencies | src/hive/goal-decomposition.ts:71-81 | Every dependency of a task in tier i is the id of a task in tiers 0..i-1. |
| GoalDecomposition.TiersDisjoint | src/hive/goal-decomposition.ts:81-82 | No id appears in two tiers. |
| GoalDecomposition.AcyclicRemainderHasReadyTask | src/hive/goal-decomposition.ts:71-78 | In an acyclic graph whose dependencies all exist, any non-empty remainder has a ready task, so the cycle branch is never taken. |
| GoalDecomposition.AcyclicGraphFullyScheduled | src/hive/goal-decomposition.ts:70-85 | For an acyclic graph with existing dependencies, every id is scheduled. With unique ids, every task is in some tier. |
| GoalDecomposition.FullyScheduledGraphIsAcyclic | src/hive/goal-decomposition.ts:70-85 | Conversely, when every task of a graph with unique ids is scheduled, every dependency exists and the tier index ranks the graph, so it has no cycle. |
| GoalDecomposition.ExampleTiers | src/hive/goal-decomposition.ts:64-86 | Worked example: A; B and C after A; D after B and C give the tiers [A], [B, C], [D]. |
| AgentSend.TimeoutSeconds | src/agents/tools/agent-send-tool.ts:45-48 | A finite number gives `max(0, floor(x))`: the floor for x ≥ 0 and 0 for x < 1. Anything else gives 30. |
| AgentSend.AnnounceTimeoutMs | src/agents/tools/agent-send-tool.ts:49-50 | The announce timeout is always positive. When the tool waits, it equals the wait's `timeoutMs`; with a timeout of 0 it is 30000. |
| AgentSend.TargetSessionKey | src/agents/tools/agent-send-tool.ts:53 | The key equals the agent id exactly when that id already contains ':'. Otherwise it is "main:" followed by the agent id. |
| AgentSend.TargetSessionKeyQualified | src/agents/tools/agent-send-tool.ts:53 | Every target key contains the ':' namespace separator and ends with the agent id. |
| AgentSend.TargetSessionKeyIdempotent | src/agents/tools/agent-send-tool.ts:53 | Qualifying a qualified key changes nothing. |
| AgentSend.BuildEnvelope | src/agents/tools/agent-send-tool.ts:62-87 | The envelope carries the message, the qualified key and the fresh idempotency key. It is not delivered and uses the internal channel and nested lane with inter_session provenance from "agent_send". The extra system prompt is the context, or "", then a blank line and the hive text. |
| AgentSend.Send | src/agents/tools/agent-send-tool.ts:81-122 | The first effect is the "agent" call with the envelope and a 10000 ms deadline. At most one wait follows it. The flow launch can only be the last effect, and it happens exactly on success. On success the wait and the launch both use the reported run id. |
| AgentSend.WaitIffPositiveTimeout | src/agents/tools/agent-send-tool.ts:92-98 | "agent.wait" is called if and only if the timeout is positive and the run was accepted. It waits for the run id with `timeoutMs` and a deadline 2000 ms longer. |
| AgentSend.ResultReflectsGateway | src/agents/tools/agent-send-tool.ts:81-122 | The result is an error exactly when a gateway call threw, and then no flow is launched. Otherwise it reports the response's run id (or the fresh one) and the agent id. |
| AgentSend.LaunchedFlowContext | src/agents/tools/agent-send-tool.ts:100-110 | The launched flow targets the qualified key, shows the agent id and carries the message and the run id to wait on. It also carries the turn budget, the announce timeout and the caller's key and channel. |
| AgentSend.FreshKeyPerInvocation | src/agents/tools/agent-send-tool.ts:51-68 | Invocations minting different keys send envelopes with different idempotency keys. |
| IntelligenceExtractor.FindRow | src/agents/intelligence-extractor.ts:35-37 | The lookup finds the first row matching (user, category, key), and none when no row matches. |
| IntelligenceExtractor.Raised | src/agents/intelligence-extractor.ts:40 | The raised confidence is at most 1 and never below a confidence that was at most 1. It is old + 0.1 whenever that is at most 1, and exactly 1 otherwise. |
| IntelligenceExtractor.UpdateWhereId | src/agents/intelligence-extractor.ts:41-45 | Rows with the id get the new value, confidence and both timestamps; all other rows are unchanged. |
| IntelligenceExtractor.UpsertInsertsWhenAbsent | src/agents/intelligence-extractor.ts:47-55 | An absent triple appends exactly one row with confidence 0.5, source "conversation" and all three timestamps now. |
| IntelligenceExtractor.UpsertUpdatesWhenPresent | src/agents/intelligence-extractor.ts:39-46 | A present triple keeps the row count. Its row gets the value, `min(1, old + 0.1)` and `last_observed_at = updated_at = now`, and every other row is unchanged. |
| IntelligenceExtractor.UpsertTouchesOnlyItsTriple | src/agents/intelligence-extractor.ts:35-45 | No row of another (user, category, key) changes. |
| IntelligenceExtractor.UpsertKeepsWellFormed | src/agents/intelligence-extractor.ts:35-55 | Ids and triples stay unique, so no duplicate row is ever created for a triple. |
| IntelligenceExtractor.UpsertKeepsConfidenceInRange | src/agents/intelligence-extractor.ts:40-53 | Confidence stays within [0.5, 1]. |
| IntelligenceExtractor.UpsertThenFind | src/agents/intelligence-extractor.ts:27-56 | After an upsert the triple is found with the new value and a confidence of at most 1 that did not decrease. |
| IntelligenceExtractor.ExtractWithoutPhrasesIsNoOp | src/agents/intelligence-extractor.ts:18-25 | A message with neither phrase leaves the table unchanged. |
| IntelligenceExtractor.ExtractRecordsPhrases | src/agents/intelligence-extractor.ts:18-24 | "i like concise" records response_style = "concise" and "every morning" records morning_routine = "active". The table stays well formed and in range. |
| IntelligenceExtractor.PreservesOtherLookup | src/agents/intelligence-extractor.ts:35-45 | An upsert of one triple does not change what a lookup of another finds. |
| SchedulingTools.EffectiveCron | src/agents/tools/scheduling-tools.ts:35 | The cron is the given expression when truthy, "0 9 * * *" otherwise. |
| SchedulingTools.Schedule | src/agents/tools/scheduling-tools.ts:21-57 | The result is the error status exactly when neither schedule is truthy. A row is appended exactly when a schedule is given, the cron engine accepts the effective cron and the INSERT succeeds. Otherwise the table is unchanged, and a rejected cron or failed INSERT surfaces as the thrown error. On success exactly one row is appended, and the returned task id and next run are that row's id and the engine's next run for the row's cron. |
| SchedulingTools.ScheduledRowContents | src/agents/tools/scheduling-tools.ts:26-55 | The row a successful schedule appends is "active", with owner defaulting to "main" and the effective cron. It keeps the natural-language schedule when non-empty, else null. Its payload is `{description}` and `created_at = updated_at`. |
| SchedulingTools.List | src/agents/tools/scheduling-tools.ts:69-71 | The listing is every row, whatever its status. |
| SchedulingTools.Cancel | src/agents/tools/scheduling-tools.ts:83-86 | When the DELETE succeeds the status is "ok", exactly the rows with the id are gone and every other row survives. When it throws, the table is unchanged and the error surfaces. |
| SchedulingTools.CancelKeepsOrder | src/agents/tools/scheduling-tools.ts:83-86 | Surviving rows keep their order, and an absent id leaves the table as it was. |
| SchedulingTools.CancelUndoesSchedule | src/agents/tools/scheduling-tools.ts:38-55 | A successful cancel of a task just scheduled under a fresh id restores the table, whether or not the schedule went through. |
| SchedulingTools.ListShowsScheduled | src/agents/tools/scheduling-tools.ts:57-85 | After a successful schedule the listing shows the task with the reported id and next run, and a successful cancel removes it. |
| WorkspaceManager.CreateWorkspace | src/agents/workspace-manager.ts:18-42 | A failing `fs.mkdir` or INSERT throws its error and stores nothing. Otherwise the workspace gets the fresh id, the name, root path "./workspaces/" + id and the default permissions {web search, coding: true; telephony: false}. Its stored row holds that name, that configuration, and the two clock readings as created and updated times. Exactly that id is added, and other workspaces are unchanged. |
| WorkspaceManager.GetWorkspace | src/agents/workspace-manager.ts:57-60 | The lookup gives the stored configuration exactly when the id is stored, null otherwise. |
| WorkspaceManager.GetAfterCreate | src/agents/workspace-manager.ts:36-41 | After a successful creation, looking the workspace up returns the configuration the creation returned. |
| WorkspaceManager.Merge | src/agents/workspace-manager.ts:66 | The merge covers both key sets. Supplied keys take the supplied value, and others keep the old one. |
| WorkspaceManager.SetPermissions | src/agents/workspace-manager.ts:62-72 | A missing id fails with "Workspace <id> not found", and a failing UPDATE throws its error; neither writes anything. Otherwise only that workspace changes: the permissions are merged and the updated time is the new one. Its name and created time are kept. |
| WorkspaceManager.SetPermissionsMerges | src/agents/workspace-manager.ts:63-71 | An update of an existing workspace whose UPDATE succeeds keeps the id, name and root path. Supplied keys override, and unsupplied keys keep their values. |
| WorkspaceManager.SetPermissionsTwice | src/agents/workspace-manager.ts:66 | Two updates amount to one with the second permissions laid over the first. |
| WorkspaceManager.CloneWorkspace | src/agents/workspace-manager.ts:44-55 | A missing source fails with "Source workspace <id> not found" before anything is created. Otherwise it is exactly the creation of a workspace under the new name, failures included. |
| WorkspaceManager.CloneIgnoresSourcePermissions | src/agents/workspace-manager.ts:44-55 | When the directory and the INSERT succeed, a clone of an existing source succeeds with a new id, the new name and the default permissions, whatever the source's were. The source is left untouched. |
| Audio.AudioPathIffNamed | src/agents/pi-embedded-runner/run/audio.ts:8-27 | For a path ending in an audio extension (any case), `isAudioExtension` holds exactly when something other than a slash precedes the dot. |
| Audio.KeepFirst | src/agents/pi-embedded-runner/run/audio.ts:33-47 | Every kept value is accepted and its key was not seen before; no two kept values share a key. |
| Audio.AddPathRefs | src/agents/pi-embedded-runner/run/audio.ts:33-47 | Every reference has type path. Its resolved value equals the raw value unless the raw value starts with "~". |
| Audio.RefsAcceptable | src/agents/pi-embedded-runner/run/audio.ts:34-43 | Each raw value is trimmed, non-empty, not an http(s) address and has an audio extension. |
| Audio.RefsDistinct | src/agents/pi-embedded-runner/run/audio.ts:35-44 | No two references have the same lower-cased raw value. |
| Audio.RefsFirstOccurrence | src/agents/pi-embedded-runner/run/audio.ts:35-46 | A reference's raw value occurs no later than any acceptable capture with the same lower-cased form, so the first spelling wins. |
| Audio.RefsComplete | src/agents/pi-embedded-runner/run/audio.ts:33-46 | Every acceptable capture has a reference with its lower-cased form. |
| Audio.RefsKeepOrder | src/agents/pi-embedded-runner/run/audio.ts:46 | References appear in the order of their captures in the prompt. |
| Audio.NoMarkerNoAudio | src/agents/pi-embedded-runner/run/audio.ts:49-61 | A prompt without a "[media attached" head, in any case, yields no reference. |
| Audio.TargetPath | src/agents/pi-embedded-runner/run/audio.ts:73-93 | Under a sandbox the path is resolved through it; otherwise an absolute path is kept and a relative one is resolved against the workspace. |
| Audio.LoadAudioFromRef | src/agents/pi-embedded-runner/run/audio.ts:64-112 | Audio is returned exactly for a path reference whose resolution and load succeed with media of kind "audio". Its bytes are the media's, and its type is the media's content type or "audio/wav". |
| Audio.LoadAll | src/agents/pi-embedded-runner/run/audio.ts:131-139 | At most one entry per reference, each with a non-empty mime type. |
| Audio.LoadAllKeepsSuccesses | src/agents/pi-embedded-runner/run/audio.ts:131-139 | The entries are exactly the audio of the references that load, one each, in reference order. None remain when no load succeeds. |
| Audio.LoadAllAppend | src/agents/pi-embedded-runner/run/audio.ts:131-139 | Loading a concatenation loads each part in turn. |
| Audio.DetectAndLoadPromptAudio | src/agents/pi-embedded-runner/run/audio.ts:114-142 | A provider other than "google" gets nothing. "google" gets the attached audio first, followed by exactly the loads of the detected references. |
| Audio.GoogleWithoutMarkersKeepsExisting | src/agents/pi-embedded-runner/run/audio.ts:124-141 | With "google" and no marker, the attached audio passes through unchanged. |
| AudioMarkers.MarkerAt | src/agents/pi-embedded-runner/run/audio.ts:49 | A marker match starts at the head and ends just after a ']'. Its capture is non-empty, holds no ']', and is the text between a point after the head and that ']'. |
| AudioMarkers.Markers | src/agents/pi-embedded-runner/run/audio.ts:49-52 | Every content the scanning loop yields is non-empty and holds no ']'. |
| AudioMarkers.MarkersAreInsideMarkers | src/agents/pi-embedded-runner/run/audio.ts:49-52 | Every content the loop yields is prompt text lying inside a marker whose head is at or after the scan start, between the head and the marker's ']'. |
| AudioMarkers.NoHeadNoMarkers | src/agents/pi-embedded-runner/run/audio.ts:49-51 | Without the head, in any case, there is no marker. |
| AudioMarkers.MarkerRoundTrip | src/agents/pi-embedded-runner/run/audio.ts:49 | Scanning "[media attached: d]" yields exactly d. This holds when d is non-empty, holds no ']' and does not start with white space. |
| AudioMarkers.CountedMarkerRoundTrip | src/agents/pi-embedded-runner/run/audio.ts:49 | The same holds with an "N/M" counter of digits. |
| AudioMarkers.CloseAt | src/agents/pi-embedded-runner/run/audio.ts:49 | The capture ends at the first ']'. |
| AudioMarkers.ExtensionAt | src/agents/pi-embedded-runner/run/audio.ts:54 | The first alternative that matches, case-insensitively, or none when no alternative matches. |
| AudioMarkers.LazyIsFirst | src/agents/pi-embedded-runner/run/audio.ts:54 | `.+?` stops at the first place the rest matches without crossing a line terminator, and fails only when there is no such place. |
| AudioMarkers.BacktrackIsFirst | src/agents/pi-embedded-runner/run/audio.ts:54 | The leading `\s*` backtracks to the longest prefix that has a match, and fails only when none has. |
| AudioMarkers.PathGroupIffCandidate | src/agents/pi-embedded-runner/run/audio.ts:53-56 | The path expression matches exactly when some match exists. The capture is then the shortest one from the longest leading white space that allows a match. |
| AudioMarkers.PathGroupShape | src/agents/pi-embedded-runner/run/audio.ts:54 | Every capture ends, case-insensitively, with an audio extension and has something before it. |
| MissionControl.RecentTasks | src/gateway/server-methods/mission-control.ts:8 | At most 50 rows (all when fewer), drawn from the table, newest first. |
| MissionControl.RecentTasksAreLatest | src/gateway/server-methods/mission-control.ts:8 | No task left out is newer than a task shown. |
| MissionControl.TopIntel | src/gateway/server-methods/mission-control.ts:9 | At most 10 memories, drawn from the table, most confident first. |
| MissionControl.TopIntelIsMostConfident | src/gateway/server-methods/mission-control.ts:9 | No memory left out is more confident than a memory shown. |
| MissionControl.RecentAudit | src/gateway/server-methods/mission-control.ts:10 | At most 20 entries, drawn from the table, newest first. |
| MissionControl.RecentAuditIsLatest | src/gateway/server-methods/mission-control.ts:10 | No entry left out is newer than an entry shown. |
| MissionControl.ActiveSchedule | src/gateway/server-methods/mission-control.ts:11 | A permutation of the active rows, soonest next run first, with no limit. |
| MissionControl.ActiveScheduleMembers | src/gateway/server-methods/mission-control.ts:11 | A row is listed if and only if it is in the table with status "active". |
| MissionControl.ScheduledTaskIsListed | src/gateway/server-methods/mission-control.ts:11 | A task just scheduled successfully is listed with its reported next run, and after a successful cancel it is not. |
| MissionControl.GetData | src/gateway/server-methods/mission-control.ts:5-19 | The response respects the three limits, draws from the tables, and lists exactly the active schedule. |
| MissionControl.TaskStatsCounts | src/gateway/server-methods/mission-control.ts:24-28 | There is one group per status present, each counting exactly the tasks with that status, so no group is empty. |
| MissionControl.Truncate | src/gateway/server-methods/mission-control.ts:32 | `CAST` of a real truncates toward zero. |
| MissionControl.CastTextOfDigits | src/gateway/server-methods/mission-control.ts:32 | `CAST` of a run of digits gives its value, and after '-' its negation. |
| MissionControl.TokensOf | src/gateway/server-methods/mission-control.ts:32 | A row gives NULL exactly when its diff, its `tokens` member or that member's value is missing or JSON null. Otherwise `true` gives 1 and `false` gives 0. A number gives its value truncated toward zero, so an integral number gives itself. A string gives its integer `CAST`, and an array or object gives 0. |
| MissionControl.TokensOfDigitString | src/gateway/server-methods/mission-control.ts:32 | A `tokens` string of digits counts as the number it spells. |
| MissionControl.TokensAdditive | src/gateway/server-methods/mission-control.ts:31-37 | The total over two logs is the sum of their totals. |
| MissionControl.TokensIgnoreOtherActions | src/gateway/server-methods/mission-control.ts:34 | Only "token_usage" rows count. |
| MissionControl.NoUsageNoTokens | src/gateway/server-methods/mission-control.ts:34-37 | A log without token-usage rows reports 0. |
| MissionControl.GetStats | src/gateway/server-methods/mission-control.ts:21-49 | Online 5, busy 2 and heartbeat "1m 45s". Task stats have one key per status with its count, and tokens are the `Tokens` total of the audit log: the sum of the usage rows' token counts, NULLs skipped, which is 0 without usage rows. |
| Sorting.SortBy | src/gateway/server-methods/mission-control.ts:11 | `ORDER BY … ASC` is a permutation in ascending key order. |
| Sorting.SmallestBy | src/gateway/server-methods/mission-control.ts:8-10 | `ORDER BY … LIMIT n` gives min(n, rows) rows, drawn from the table, in ascending key order. |
| Sorting.SmallestByIsSmallest | src/gateway/server-methods/mission-control.ts:8-10 | No row the limit leaves out has a smaller key than a row kept. |
| Sorting.SortSorted | src/gateway/server-methods/mission-control.ts:11 | Sorting sorted rows changes nothing. |
| RuntimeConfig.Diff | src/agents/tools/runtime-config-tool.ts:41 | The diff has "old" = "unknown" and the reason, and "new" exactly when a value is given. |
| RuntimeConfig.ConfigAuditRow | src/agents/tools/runtime-config-tool.ts:33-44 | The row has actor "agent", action "modify_config", resource key, status "pending_confirmation", the diff and now. |
| RuntimeConfig.KeyOfPendingMessage | src/agents/tools/runtime-config-tool.ts:54 | The success message names exactly its key. |
| RuntimeConfig.ModifyConfig | src/agents/tools/runtime-config-tool.ts:21-63 | The insert comes first, and the patch `{key: value}` follows only after a successful insert. A failed insert leaves the table unchanged and reports its error. A success is pending confirmation with the new row's id, and a patch failure reports the patch's error. |
| RuntimeConfig.AuditRowSurvivesPatchFailure | src/agents/tools/runtime-config-tool.ts:33-62 | After a successful insert the pending row remains last and the earlier rows are untouched, whatever the patch does. |
| RuntimeConfig.PatchMatchesAudit | src/agents/tools/runtime-config-tool.ts:41-50 | The patch key is the row's resource, and the patch value is the diff's "new" member. |
| RuntimeConfig.ModifyConfigKeepsTokens | src/agents/tools/runtime-config-tool.ts:33-44 | A configuration request never changes the token total mission control reports. |
| VoiceMessage.VoiceSegment | src/agents/tools/voice-message-tool.ts:33 | The voice segment is empty exactly when the voice is not truthy. |
| VoiceMessage.Directive | src/agents/tools/voice-message-tool.ts:33 | The directive starts with "[[tts:text]]", ends with "[[tts:audio:as-voice]]", and its length is the sum of its parts. |
| VoiceMessage.DirectiveRoundTrip | src/agents/tools/voice-message-tool.ts:33 | The text can be read back from the directive, and the voice too exactly when it is non-empty. |
| VoiceMessage.EmptyVoiceIsNoVoice | src/agents/tools/voice-message-tool.ts:22-33 | An empty voice and a missing voice give the same directive. |
| VoiceMessage.VoiceAuditRow | src/agents/tools/voice-message-tool.ts:26-29 | The row has actor "agent", action "voice_message", resource "user", status "ok", no diff, and now. |
| VoiceMessage.SendVoiceMessage | src/agents/tools/voice-message-tool.ts:19-42 | The result is ok exactly when the insert succeeds; it then appends the row and returns the directive, from which text and voice are read back. An insert failure returns its error with no directive and no row. |
| VoiceMessage.OneRowPerMessage | src/agents/tools/voice-message-tool.ts:26-34 | A success appends exactly one "voice_message" row, after the existing rows; a failure appends none. |
| Speak.EffectiveTarget | src/agents/tools/speak-tool.ts:19 | Only a missing target becomes "user". |
| Speak.TargetOfSentMessage | src/agents/tools/speak-tool.ts:26 | The delivery message names exactly its target. |
| Speak.SpeakText | src/agents/tools/speak-tool.ts:16-35 | The status is always "ok". The user gets the voice directive without a voice; any other target gets a message naming it, with the text echoed. |
| Speak.SpeakToUserIsVoiceDirective | src/agents/tools/speak-tool.ts:19-34 | For the user, named or by default, the text is read back from the directive and there is no voice. |
| Speak.EmptyTargetGetsMessage | src/agents/tools/speak-tool.ts:19-29 | An empty target string that has already been read is not defaulted by `??`, so it gets a delivery message. |

## Left out

- Argument reading (`readStringParam`, the parameter schemas) is not modelled. Tool arguments arrive already read, and how `readStringParam` treats an empty or blank string is not part of this model. A missing required argument throws outside the `try` blocks, and that path is not modelled.
- JSON text is not modelled. Stored JSON columns and gateway payloads are `JsonValue` documents, `JSON.stringify` followed by parsing is taken to round-trip, and `JSON.parse` in `decompose` is a parameter. Malformed JSON in `audit_log.diff`, on which `json_extract` raises an error, is not modelled.
- GoalDecomposition.Decompose: the parser parameter must read "{}" as an empty object, as `JSON.parse` does.
- GoalDecomposition.Decompose: parsed task elements are taken to have the sub-task shape: a string id and a string-array `dependencies`. The source passes any element through its spread. An element without `dependencies` makes `resolveExecutionOrder` throw a TypeError at `t.dependencies.every`, outside any try, and that path is not modelled.
- GoalDecomposition.Decompose: a parsed `goal` is either absent or a string. A truthy non-string `goal`, which the source would return as is, is not representable.
- Strings.Lower: lower-cases ASCII letters only. `toLowerCase` also maps other letters, and the model does not cover how that could create or hide the extractor's phrases.
- IntelligenceExtractor.UpsertUpdatesWhenPresent: stated for tables with unique ids and triples, the invariant `UpsertKeepsWellFormed` maintains. With duplicate ids, the source's `UPDATE … WHERE id = ?` would update several rows.
- IntelligenceExtractor.UpsertTouchesOnlyItsTriple: stated for tables with unique ids, for the same reason.
- Confidence is an exact `real`. The IEEE rounding of repeated `+ 0.1` is not modelled.
- GoalDecomposition.AcyclicGraphFullyScheduled: task coverage is stated for unique ids. With duplicate ids, a not-ready twin is dropped when its id is scheduled, so only id coverage holds.
- WorkspaceManager.CreateWorkspace: requires the fresh UUID not to be stored already. An id collision is not modelled.
- WorkspaceManager.CloneWorkspace: requires the fresh UUID not to be stored already, for the same reason.
- `fs.mkdir` in `createWorkspace` is not modelled beyond its outcome, which is a parameter; it is I/O.
- IntelligenceExtractor.Upsert: the SELECT, UPDATE and INSERT are taken to succeed. A throwing statement would propagate out of `extract`, which does not catch it, and that path is not modelled.
- Audio.AddPathRefs: duplicates are detected by ASCII lower-casing. Two spellings that differ only in the case of a non-ASCII letter count as one reference in the source and as two in the model.
- Audio.RefsDistinct: distinctness holds under ASCII lower-casing only, for the same reason.
- Logging is not modelled.
- `ORDER BY` ties are kept in input order; SQL leaves their order unspecified.
- NULL ordering is not modelled, because the sorted columns are non-null numbers.
- MissionControl.GetStats: the `cost` float (`tokens * 0.00001`) is left out.
- MissionControl.GetStats: the `GROUP BY` result is a map from status to count, without SQLite's row order.
- MissionControl.TokensOf: integers are unbounded. SQLite's 64-bit saturation in `CAST` and its overflow error in `SUM` are not modelled.
- MissionControl.CastTextOfDigits: the `CAST` of text is stated for plain runs of digits. Leading white space and a sign are modelled in `CastText`, but no lemma states them.
- Audio.TargetPath: `path.resolve`, `resolveUserPath`, the sandbox bridge and `loadWebMedia` are parameters. `resolveUserPath` is total, and the `maxBytes` option is folded into the loader.
- Audio.Extname: POSIX `path.extname` only, not the Windows variant.
- The detached agent-to-agent flow is an event in the trace. Its asynchrony, and the ping-pong conversation it runs, are not modelled.
- `buildAgentToAgentMessageContext`, `resolvePingPongTurns` and `loadConfig` are parameters.
- The UI views are not part of this model; they are presentation only.
- The ElevenLabs provider is not part of this model; it is an HTTP client.
- The sandbox tester is not part of this model; it executes arbitrary code.
- The database handle (src/infra/db.ts) is not part of this model. Tables are abstract sequences and maps.
- `HiveManager` and `ForgeEngine` are not part of this model, because their source is not available.

=== FILE: agent_send.dfy ===
/** The `agent_send` tool (src/agents/tools/agent-send-tool.ts): timeout
    normalisation, session-key qualification, the message envelope, and the
    ordered gateway calls of one send, ending in an ok or error result. */
module AgentSend {
  import opened Base
  import opened Strings

  /** The `timeoutSeconds` argument: absent or not a number, a non-finite
      number (NaN or an infinity), or a finite number. */
  datatype TimeoutArg = NotANumber | NonFinite | Finite(x: real)

  /** Message channels: the internal agent-to-agent channel, or a named external one. */
  datatype Channel = InternalChannel | ExternalChannel(name: string)

  /** Traffic lanes; agent-to-agent traffic runs on the nested lane. */
  datatype Lane = MainLane | NestedLane

  datatype Provenance = Provenance(
    kind: string,
    sourceSessionKey: Option<string>,
    sourceChannel: Option<Channel>,
    sourceTool: string)

  /** The params of the "agent" gateway call. */
  datatype Envelope = Envelope(
    message: string,
    sessionKey: string,
    idempotencyKey: string,
    deliver: bool,
    channel: Channel,
    lane: Lane,
    extraSystemPrompt: string,
    provenance: Provenance)

  /** The context handed to the detached agent-to-agent flow. */
  datatype A2AFlow = A2AFlow(
    targetSessionKey: string,
    displayKey: string,
    message: string,
    announceTimeoutMs: int,
    maxPingPongTurns: int,
    requesterSessionKey: Option<string>,
    requesterChannel: Option<Channel>,
    waitRunId: string)

  datatype GatewayCall =
    | AgentCall(envelope: Envelope, timeoutMs: int)
    | WaitCall(runId: string, waitTimeoutMs: int, timeoutMs: int)

  /** One observable effect of a send, in the order it happens. */
  datatype Effect =
    | Gateway(call: GatewayCall)
    | LaunchA2A(flow: A2AFlow)

  datatype SendResult = SendOk(runId: string, agentId: string) | SendError(error: string)

  datatype SendOutcome = SendOutcome(effects: seq<Effect>, result: SendResult)

  /** The calling session, as the tool was created with it. */
  datatype Caller = Caller(sessionKey: Option<string>, channel: Option<Channel>)

  /** What the unseen collaborators contribute to one send: the agent-to-agent
      context text, the configured ping-pong budget, two fresh UUIDs, and the
      gateway's answers to the "agent" and "agent.wait" calls. */
  datatype SendWorld = SendWorld(
    context: Option<string>,
    maxPingPongTurns: int,
    idempotencyKey: string,
    fallbackRunId: string,
    acceptReply: Result<Option<string>>,
    waitReply: Result<()>)

  const AcceptTimeoutMs: int := 10000
  const WaitGraceMs: int := 2000
  const DefaultTimeoutSeconds: nat := 30
  const FallbackAnnounceTimeoutMs: int := 30000
  /** The default namespace "main" with its separator. */
  const DefaultPrefix: string := "main:"

  /** `Math.max(0, Math.floor(x))` for a finite number, 30 otherwise. */
  function TimeoutSeconds(arg: TimeoutArg): (r: nat)
    ensures arg.Finite? && arg.x >= 0.0 ==> r as real <= arg.x < r as real + 1.0
    ensures arg.Finite? && arg.x < 1.0 ==> r == 0
    ensures !arg.Finite? ==> r == DefaultTimeoutSeconds
  {
    match arg
    case Finite(x) => if x.Floor < 0 then 0 else x.Floor
    case _ => DefaultTimeoutSeconds
  }

  /** The deadline of the completion wait, in milliseconds. */
  function TimeoutMs(seconds: nat): nat {
    seconds * 1000
  }

  /** The announce timeout of the detached flow: the wait deadline, or 30 s when not waiting. */
  function AnnounceTimeoutMs(seconds: nat): (r: int)
    ensures r > 0
    ensures seconds > 0 ==> r == TimeoutMs(seconds)
    ensures seconds == 0 ==> r == FallbackAnnounceTimeoutMs
  {
    if seconds == 0 then FallbackAnnounceTimeoutMs else TimeoutMs(seconds)
  }

  /** A bare agent id is qualified under the default namespace; a key that
      already has a namespace separator is used verbatim. */
  function TargetSessionKey(agentId: string): (r: string)
    ensures r == agentId <==> ':' in agentId
    ensures ':' !in agentId ==> r == DefaultPrefix + agentId
  {
    if ':' in agentId then agentId else DefaultPrefix + agentId
  }

  /** Every target key is namespaced and ends with the agent id it was made from. */
  lemma TargetSessionKeyQualified(agentId: string)
    ensures ':' in TargetSessionKey(agentId)
    ensures IsSuffix(agentId, TargetSessionKey(agentId))
  {
    if ':' !in agentId {
      var r := DefaultPrefix + agentId;
      assert r[4] == ':';
      assert r[|r| - |agentId|..] == agentId;
    }
  }

  /** Qualifying an already qualified key changes nothing. */
  lemma TargetSessionKeyIdempotent(agentId: string)
    ensures TargetSessionKey(TargetSessionKey(agentId)) == TargetSessionKey(agentId)
  {
  }

  lemma TargetSessionKeyExample()
    ensures TargetSessionKey("coder-agent") == "main:coder-agent"
    ensures TargetSessionKey("ops:coder-agent") == "ops:coder-agent"
  {
    assert ':' !in "coder-agent";
    assert "ops:coder-agent"[3] == ':';
  }

  const HiveIntro: string := "You are part of a Hive collaboration mesh.\nCollaborate effectively with the requester agent ("

  function HiveContext(requester: Option<string>): string {
    HiveIntro + Show(requester) + ")."
  }

  /** The envelope of the "agent" call: the agent-to-agent context (empty when
      missing) followed by the hive text as extra system prompt. */
  function BuildEnvelope(agentId: string, message: string, caller: Caller, world: SendWorld): (e: Envelope)
    ensures e.sessionKey == TargetSessionKey(agentId) && e.message == message
    ensures e.idempotencyKey == world.idempotencyKey
    ensures !e.deliver && e.channel == InternalChannel && e.lane == NestedLane
    ensures e.provenance == Provenance("inter_session", caller.sessionKey, caller.channel, "agent_send")
    ensures e.extraSystemPrompt == OrElse(world.context, "") + "\n\n" + HiveContext(caller.sessionKey)
  {
    Envelope(
      message,
      TargetSessionKey(agentId),
      world.idempotencyKey,
      false,
      InternalChannel,
      NestedLane,
      OrElse(world.context, "") + "\n\n" + HiveContext(caller.sessionKey),
      Provenance("inter_session", caller.sessionKey, caller.channel, "agent_send"))
  }

  predicate IsWait(e: Effect) {
    e.Gateway? && e.call.WaitCall?
  }

  /** The send protocol, stated independently of `Send`: one acceptance call
      first; then at most one wait, for the run the result reports; a detached
      launch only as the very last effect, and exactly when the send succeeds. */
  ghost predicate FollowsProtocol(effects: seq<Effect>, result: SendResult) {
    && 1 <= |effects| <= 3
    && effects[0].Gateway? && effects[0].call.AgentCall?
    && (forall i :: 1 <= i < |effects| ==> IsWait(effects[i]) || effects[i].LaunchA2A?)
    && (forall i :: 0 <= i < |effects| - 1 ==> !effects[i].LaunchA2A?)
    && (forall i :: 2 <= i < |effects| ==> !IsWait(effects[i]))
    && (result.SendOk? <==> effects[|effects| - 1].LaunchA2A?)
    && (result.SendOk? ==>
          && effects[|effects| - 1].flow.waitRunId == result.runId
          && forall i :: 0 <= i < |effects| && IsWait(effects[i]) ==> effects[i].call.runId == result.runId)
  }

  /** The `execute` body of the tool: the acceptance call always comes first,
      and the effects follow the send protocol. */
  function Send(agentId: string, message: string, timeout: TimeoutArg, caller: Caller, world: SendWorld): (out: SendOutcome)
    ensures FollowsProtocol(out.effects, out.result)
    ensures out.effects[0] == Gateway(AgentCall(BuildEnvelope(agentId, message, caller, world), AcceptTimeoutMs))
  {
    var seconds := TimeoutSeconds(timeout);
    var accept := Gateway(AgentCall(BuildEnvelope(agentId, message, caller, world), AcceptTimeoutMs));
    match world.acceptReply
    case Err(e) =>
      ProtocolOfFailure(accept, [], e);
      SendOutcome([accept], SendError(e))
    case Ok(reply) =>
      var runId := OrElse(reply, world.fallbackRunId);
      var flow := A2AFlow(
        TargetSessionKey(agentId), agentId, message, AnnounceTimeoutMs(seconds), world.maxPingPongTurns,
        caller.sessionKey, caller.channel, runId);
      if seconds == 0 then
        ProtocolOfSuccess(accept, [], flow, agentId);
        SendOutcome([accept] + [] + [LaunchA2A(flow)], SendOk(runId, agentId))
      else
        var wait := Gateway(WaitCall(runId, TimeoutMs(seconds), TimeoutMs(seconds) + WaitGraceMs));
        if world.waitReply.Err? then
          ProtocolOfFailure(accept, [wait], world.waitReply.error);
          SendOutcome([accept] + [wait], SendError(world.waitReply.error))
        else
          ProtocolOfSuccess(accept, [wait], flow, agentId);
          SendOutcome([accept] + [wait] + [LaunchA2A(flow)], SendOk(runId, agentId))
  }

  /** Effects that stop after the acceptance call or its wait follow the
      protocol for an error. */
  lemma ProtocolOfFailure(accept: Effect, wait: seq<Effect>, error: string)
    requires accept.Gateway? && accept.call.AgentCall?
    requires |wait| <= 1 && forall i :: 0 <= i < |wait| ==> IsWait(wait[i])
    ensures FollowsProtocol([accept] + wait, SendError(error))
  {
  }

  /** Effects that end in the launch of a flow for the waited run follow the
      protocol for a success. */
  lemma ProtocolOfSuccess(accept: Effect, wait: seq<Effect>, flow: A2AFlow, agentId: string)
    requires accept.Gateway? && accept.call.AgentCall?
    requires |wait| <= 1 && forall i :: 0 <= i < |wait| ==> IsWait(wait[i]) && wait[i].call.runId == flow.waitRunId
    ensures FollowsProtocol([accept] + wait + [LaunchA2A(flow)], SendOk(flow.waitRunId, agentId))
  {
    var effects := [accept] + wait + [LaunchA2A(flow)];
    assert effects[|effects| - 1] == LaunchA2A(flow);
    assert forall i :: 1 <= i < |effects| - 1 ==> effects[i] == wait[i - 1];
  }

  /** The completion wait happens if and only if the timeout is positive and the
      run was accepted; it waits for that run with the timeout in milliseconds,
      under a call deadline two seconds longer. */
  lemma WaitIffPositiveTimeout(agentId: string, message: string, timeout: TimeoutArg, caller: Caller, world: SendWorld)
    ensures var out := Send(agentId, message, timeout, caller, world);
      var seconds := TimeoutSeconds(timeout);
      && ((exists i :: 0 <= i < |out.effects| && IsWait(out.effects[i])) <==> seconds > 0 && world.acceptReply.Ok?)
      && forall i :: 0 <= i < |out.effects| && IsWait(out.effects[i]) ==>
           && out.effects[i].call.runId == OrElse(world.acceptReply.value, world.fallbackRunId)
           && out.effects[i].call.waitTimeoutMs == seconds * 1000
           && out.effects[i].call.timeoutMs == seconds * 1000 + 2000
  {
    var out := Send(agentId, message, timeout, caller, world);
    var seconds := TimeoutSeconds(timeout);
    if world.acceptReply.Err? {
      assert |out.effects| == 1;
    } else if seconds == 0 {
      assert |out.effects| == 2 && out.effects[1].LaunchA2A?;
    } else {
      var runId := OrElse(world.acceptReply.value, world.fallbackRunId);
      assert out.effects[1] == Gateway(WaitCall(runId, TimeoutMs(seconds), TimeoutMs(seconds) + WaitGraceMs));
      assert IsWait(out.effects[1]);
      assert |out.effects| == 3 ==> out.effects[2].LaunchA2A?;
    }
  }

  /** The result is an error exactly when one of the gateway calls threw, and
      then no flow is launched; otherwise it reports the gateway's run id (or
      the fresh one when the gateway gave none) and the agent id. */
  lemma ResultReflectsGateway(agentId: string, message: string, timeout: TimeoutArg, caller: Caller, world: SendWorld)
    ensures var out := Send(agentId, message, timeout, caller, world);
      var seconds := TimeoutSeconds(timeout);
      && (out.result.SendError? <==> world.acceptReply.Err? || (seconds > 0 && world.waitReply.Err?))
      && (out.result.SendError? ==> forall i :: 0 <= i < |out.effects| ==> !out.effects[i].LaunchA2A?)
      && (world.acceptReply.Err? ==> out.result == SendError(world.acceptReply.error) && |out.effects| == 1)
      && (out.result.SendOk? ==>
            out.result == SendOk(OrElse(world.acceptReply.value, world.fallbackRunId), agentId))
  {
    var out := Send(agentId, message, timeout, caller, world);
    if world.acceptReply.Ok? {
      var runId := OrElse(world.acceptReply.value, world.fallbackRunId);
      if TimeoutSeconds(timeout) > 0 && world.waitReply.Err? {
        assert out.result == SendError(world.waitReply.error) && |out.effects| == 2;
      } else {
        assert out.result == SendOk(runId, agentId);
      }
    }
  }

  /** The launched flow targets the qualified session, carries the run id, the
      configured turn budget and the announce timeout, and names the caller. */
  lemma LaunchedFlowContext(agentId: string, message: string, timeout: TimeoutArg, caller: Caller, world: SendWorld)
    requires Send(agentId, message, timeout, caller, world).result.SendOk?
    ensures var out := Send(agentId, message, timeout, caller, world);
      var flow := out.effects[|out.effects| - 1].flow;
      && out.effects[|out.effects| - 1].LaunchA2A?
      && flow.targetSessionKey == TargetSessionKey(agentId) && flow.displayKey == agentId
      && flow.message == message
      && flow.waitRunId == out.result.runId
      && flow.maxPingPongTurns == world.maxPingPongTurns
      && flow.announceTimeoutMs == AnnounceTimeoutMs(TimeoutSeconds(timeout))
      && flow.requesterSessionKey == caller.sessionKey && flow.requesterChannel == caller.channel
  {
    var out := Send(agentId, message, timeout, caller, world);
    var seconds := TimeoutSeconds(timeout);
    var runId := OrElse(world.acceptReply.value, world.fallbackRunId);
    var flow := A2AFlow(
      TargetSessionKey(agentId), agentId, message, AnnounceTimeoutMs(seconds), world.maxPingPongTurns,
      caller.sessionKey, caller.channel, runId);
    assert out.effects[|out.effects| - 1] == LaunchA2A(flow);
  }

  /** Each invocation carries the idempotency key minted for it, so two
      invocations with different fresh keys send different envelopes. */
  lemma FreshKeyPerInvocation(agentId: string, message: string, timeout: TimeoutArg, caller: Caller, w1: SendWorld, w2: SendWorld)
    requires w1.idempotencyKey != w2.idempotencyKey
    ensures Send(agentId, message, timeout, caller, w1).effects[0].call.envelope.idempotencyKey
         != Send(agentId, message, timeout, caller, w2).effects[0].call.envelope.idempotencyKey
  {
  }
}

=== FILE: audio.dfy ===
/** Prompt audio (src/agents/pi-embedded-runner/run/audio.ts): which audio
    files a prompt's media markers name, how each reference is loaded, and
    what audio goes to the model. */
module Audio {
  import opened Base
  import opened Strings
  import opened Seqs
  import opened AudioMarkers

  // ---------------------------------------------------------------------
  // `path.extname` (POSIX) and `isAudioExtension`
  // ---------------------------------------------------------------------

  /** `p` without its trailing slashes. */
  function DropTrailingSlashes(p: string): (r: string)
    ensures IsPrefix(r, p)
    ensures r == [] || r[|r| - 1] != '/'
    ensures forall i :: |r| <= i < |p| ==> p[i] == '/'
  {
    if p != [] && p[|p| - 1] == '/' then DropTrailingSlashes(p[..|p| - 1]) else p
  }

  /** What follows the last slash of `p` (all of `p` when it has none). */
  function AfterLastSlash(p: string): (r: string)
    ensures IsSuffix(r, p)
    ensures '/' !in r
    ensures |r| == |p| || p[|p| - |r| - 1] == '/'
  {
    if p == [] || p[|p| - 1] == '/' then []
    else AfterLastSlash(p[..|p| - 1]) + [p[|p| - 1]]
  }

  /** The index of the last dot of `b`. */
  function LastDot(b: string): (r: Option<nat>)
    ensures r.Some? ==> r.value < |b| && b[r.value] == '.' && forall i :: r.value < i < |b| ==> b[i] != '.'
    ensures r.None? ==> '.' !in b
  {
    if b == [] then None
    else if b[|b| - 1] == '.' then Some(|b| - 1)
    else LastDot(b[..|b| - 1])
  }

  /** POSIX `path.extname`: from the last dot of the last path segment
      (trailing slashes ignored) to its end; empty when that segment has no
      dot, starts with its only leading dot, or is `..`. */
  function Extname(p: string): string {
    var b := AfterLastSlash(DropTrailingSlashes(p));
    match LastDot(b)
    case None => ""
    case Some(d) => if d == 0 || b == ".." then "" else b[d..]
  }

  /** `isAudioExtension`: the lower-cased extension is one of the audio
      extensions. (The only non-ASCII character that lower-cases into ASCII
      is the Kelvin sign, to `k`, which no audio extension contains, so ASCII
      lower-casing decides membership exactly.) */
  predicate IsAudioExtension(p: string) {
    Lower(Extname(p)) in AudioExtensions
  }

  /** A path ending (in any case) with an audio extension has an audio
      extension exactly when something other than a slash precedes the dot. */
  lemma AudioPathIffNamed(p: string, i: nat)
    requires i < |AudioExtensions|
    requires |AudioExtensions[i]| <= |p| && Lower(p[|p| - |AudioExtensions[i]|..]) == AudioExtensions[i]
    ensures IsAudioExtension(p) <==> |p| > |AudioExtensions[i]| && p[|p| - |AudioExtensions[i]| - 1] != '/'
  {
    var n := |AudioExtensions[i]|;
    AudioTailShape(p[|p| - n..], i);
    TailAtEnd(p, n);
    ExtnameOfTail(p, n);
    if !(|p| > n && p[|p| - n - 1] != '/') {
      assert Lower("") == "";
      assert "" !in AudioExtensions;
    }
  }

  /** The last `n` characters of `p` are a dot followed by at least one
      character, none of them a dot or a slash. */
  predicate DotTailAt(p: string, n: nat) {
    2 <= n <= |p| && p[|p| - n] == '.' && forall j :: |p| - n < j < |p| ==> p[j] != '.' && p[j] != '/'
  }

  /** Whatever lower-cases to an audio extension is a dot tail as a whole. */
  lemma AudioTailShape(t: string, i: nat)
    requires i < |AudioExtensions| && Lower(t) == AudioExtensions[i]
    ensures DotTailAt(t, |t|)
  {
    var e := AudioExtensions[i];
    assert |e| >= 4 && e[0] == '.';
    assert LowerChar(t[0]) == e[0];
    forall j | 0 < j < |t|
      ensures t[j] != '.' && t[j] != '/'
    {
      assert LowerChar(t[j]) == e[j];
      assert ('a' <= e[j] <= 'z') || IsDigit(e[j]);
    }
  }

  lemma TailAtEnd(p: string, n: nat)
    requires n <= |p| && DotTailAt(p[|p| - n..], n)
    ensures DotTailAt(p, n)
  {
    var t := p[|p| - n..];
    assert p[|p| - n] == t[0];
    forall j | |p| - n < j < |p|
      ensures p[j] != '.' && p[j] != '/'
    {
      assert p[j] == t[j - (|p| - n)];
    }
  }

  /** The extension of a path ending with a dot tail is that tail, unless
      the tail is the whole last segment. */
  lemma ExtnameOfTail(p: string, n: nat)
    requires DotTailAt(p, n)
    ensures Extname(p) == if |p| > n && p[|p| - n - 1] != '/' then p[|p| - n..] else ""
  {
    NoTrailingSlash(p, n);
    var b := AfterLastSlash(p);
    SegmentOfTail(p, b, n);
    DotOfTail(b, n);
  }

  lemma NoTrailingSlash(p: string, n: nat)
    requires DotTailAt(p, n)
    ensures DropTrailingSlashes(p) == p
  {
    assert p[|p| - 1] != '/';
  }

  /** A slash-free suffix of `p` that is all of `p` or follows a slash (the
      last segment) ends with the same dot tail, and is exactly that tail
      when nothing but a slash precedes it. */
  lemma SegmentOfTail(p: string, b: string, n: nat)
    requires DotTailAt(p, n)
    requires IsSuffix(b, p) && '/' !in b && (|b| == |p| || p[|p| - |b| - 1] == '/')
    ensures DotTailAt(b, n) && b[|b| - n..] == p[|p| - n..]
    ensures |b| == n <==> |p| == n || p[|p| - n - 1] == '/'
  {
    var off := |p| - |b|;
    assert forall k :: 0 <= k < |b| ==> b[k] == p[off + k];
    if |b| < n {
      assert false;
    }
    if |p| > n && p[|p| - n - 1] == '/' && |b| > n {
      assert false;
    }
    assert b[|b| - n..] == p[|p| - n..];
  }

  /** The only dot of a dot tail is its first character. */
  lemma DotOfTail(b: string, n: nat)
    requires DotTailAt(b, n)
    ensures LastDot(b) == Some(|b| - n) && b != ".."
  {
    LastDotAt(b, |b| - n);
    assert b[|b| - 1] != '.';
  }

  /** A dot with no dot after it is the last dot. */
  lemma {:induction false} LastDotAt(b: string, k: nat)
    requires k < |b| && b[k] == '.'
    requires forall j :: k < j < |b| ==> b[j] != '.'
    ensures LastDot(b) == Some(k)
  {
    if k < |b| - 1 {
      var c := b[..|b| - 1];
      assert c[k] == b[k];
      LastDotAt(c, k);
    }
  }

  // ---------------------------------------------------------------------
  // `detectAudioReferences`
  // ---------------------------------------------------------------------

  datatype RefType = PathRef | UrlRef

  datatype AudioRef = AudioRef(raw: string, refType: RefType, resolved: string)

  /** What `addPathRef` accepts, apart from the seen set: non-empty, not a
      web address, with an audio extension. */
  predicate Acceptable(t: string) {
    t != "" && !IsPrefix("http://", t) && !IsPrefix("https://", t) && IsAudioExtension(t)
  }

  /** The `seen` discipline of `addPathRef`: keep a value when `ok` accepts
      it and its `key` has not been seen, then mark the key as seen. */
  function KeepFirst(ts: seq<string>, seen: set<string>, ok: string -> bool, key: string -> string): (r: seq<string>)
    ensures |r| <= |ts|
    ensures forall i :: 0 <= i < |r| ==> ok(r[i]) && key(r[i]) !in seen
    ensures forall i, j :: 0 <= i < j < |r| ==> key(r[i]) != key(r[j])
  {
    if ts == [] then []
    else if ok(ts[0]) && key(ts[0]) !in seen then [ts[0]] + KeepFirst(ts[1..], seen + {key(ts[0])}, ok, key)
    else KeepFirst(ts[1..], seen, ok, key)
  }

  /** The kept values keep their order. */
  lemma {:induction false} KeepFirstIsSubseq(ts: seq<string>, seen: set<string>, ok: string -> bool, key: string -> string)
    ensures IsSubseq(KeepFirst(ts, seen, ok, key), ts)
  {
    if ts != [] {
      var r := KeepFirst(ts, seen, ok, key);
      if ok(ts[0]) && key(ts[0]) !in seen {
        KeepFirstIsSubseq(ts[1..], seen + {key(ts[0])}, ok, key);
        assert r[0] == ts[0] && r[1..] == KeepFirst(ts[1..], seen + {key(ts[0])}, ok, key);
      } else {
        KeepFirstIsSubseq(ts[1..], seen, ok, key);
      }
    }
  }

  /** `x` is `ts[j]`, and no value before it was accepted with the same key. */
  predicate FirstWithKey(ts: seq<string>, j: int, x: string, ok: string -> bool, key: string -> string) {
    0 <= j < |ts| && x == ts[j] && forall j' :: 0 <= j' < j ==> !(ok(ts[j']) && key(ts[j']) == key(x))
  }

  lemma FirstWithKeyShift(ts: seq<string>, j: int, x: string, ok: string -> bool, key: string -> string)
    requires ts != [] && FirstWithKey(ts[1..], j, x, ok, key)
    requires !(ok(ts[0]) && key(ts[0]) == key(x))
    ensures FirstWithKey(ts, j + 1, x, ok, key)
  {
    forall j' | 1 <= j' < j + 1
      ensures !(ok(ts[j']) && key(ts[j']) == key(x))
    {
      assert ts[j'] == ts[1..][j' - 1];
    }
  }

  /** Each kept value is the first accepted value with its key: the witness
      is its position among the inputs. */
  lemma {:induction false} KeepFirstOrigin(ts: seq<string>, seen: set<string>, ok: string -> bool,
                                           key: string -> string, i: int) returns (j: int)
    requires 0 <= i < |KeepFirst(ts, seen, ok, key)|
    ensures FirstWithKey(ts, j, KeepFirst(ts, seen, ok, key)[i], ok, key)
  {
    var r := KeepFirst(ts, seen, ok, key);
    if ok(ts[0]) && key(ts[0]) !in seen {
      var seen' := seen + {key(ts[0])};
      var rest := KeepFirst(ts[1..], seen', ok, key);
      assert r == [ts[0]] + rest;
      if i == 0 {
        j := 0;
      } else {
        assert r[i] == rest[i - 1];
        var j' := KeepFirstOrigin(ts[1..], seen', ok, key, i - 1);
        assert key(rest[i - 1]) !in seen';
        FirstWithKeyShift(ts, j', r[i], ok, key);
        j := j' + 1;
      }
    } else {
      var rest := KeepFirst(ts[1..], seen, ok, key);
      assert r == rest;
      var j' := KeepFirstOrigin(ts[1..], seen, ok, key, i);
      assert key(rest[i]) !in seen;
      FirstWithKeyShift(ts, j', r[i], ok, key);
      j := j' + 1;
    }
  }

  /** Each kept value is the first accepted value with its key: it occurs
      among the inputs at or before any accepted input with the same key. */
  lemma KeepFirstWins(ts: seq<string>, seen: set<string>, ok: string -> bool, key: string -> string)
    ensures forall i, j ::
      (0 <= i < |KeepFirst(ts, seen, ok, key)| && 0 <= j < |ts| && ok(ts[j])
       && key(ts[j]) == key(KeepFirst(ts, seen, ok, key)[i]))
      ==> KeepFirst(ts, seen, ok, key)[i] in ts[..j + 1]
  {
    var r := KeepFirst(ts, seen, ok, key);
    forall i, j | 0 <= i < |r| && 0 <= j < |ts| && ok(ts[j]) && key(ts[j]) == key(r[i])
      ensures r[i] in ts[..j + 1]
    {
      var j0 := KeepFirstOrigin(ts, seen, ok, key, i);
      assert ts[..j + 1][j0] == r[i];
    }
  }

  /** Every accepted value whose key was not already seen has its key kept:
      the witness is the position of the kept value. */
  lemma {:induction false} KeepFirstKeepsKey(ts: seq<string>, seen: set<string>, ok: string -> bool,
                                             key: string -> string, j: int) returns (i: int)
    requires 0 <= j < |ts| && ok(ts[j]) && key(ts[j]) !in seen
    ensures 0 <= i < |KeepFirst(ts, seen, ok, key)| && key(KeepFirst(ts, seen, ok, key)[i]) == key(ts[j])
  {
    var r := KeepFirst(ts, seen, ok, key);
    if ok(ts[0]) && key(ts[0]) !in seen {
      var seen' := seen + {key(ts[0])};
      var rest := KeepFirst(ts[1..], seen', ok, key);
      assert r == [ts[0]] + rest;
      if key(ts[j]) == key(ts[0]) {
        i := 0;
      } else {
        assert ts[j] == ts[1..][j - 1];
        var i' := KeepFirstKeepsKey(ts[1..], seen', ok, key, j - 1);
        i := i' + 1;
        assert r[i] == rest[i'];
      }
    } else {
      var rest := KeepFirst(ts[1..], seen, ok, key);
      assert r == rest;
      assert j != 0;
      assert ts[j] == ts[1..][j - 1];
      i := KeepFirstKeepsKey(ts[1..], seen, ok, key, j - 1);
    }
  }

  function Trims(cands: seq<string>): (r: seq<string>)
    ensures |r| == |cands| && forall i :: 0 <= i < |cands| ==> r[i] == Trim(cands[i])
  {
    seq(|cands|, i requires 0 <= i < |cands| => Trim(cands[i]))
  }

  /** A recorded path: resolved from the home directory when it starts with `~`. */
  function PathRefOf(t: string, resolveUserPath: string -> string): (r: AudioRef)
    ensures r.raw == t && r.refType == PathRef
    ensures !IsPrefix("~", t) ==> r.resolved == t
  {
    AudioRef(t, PathRef, if IsPrefix("~", t) then resolveUserPath(t) else t)
  }

  /** `addPathRef` over a sequence of captures, from an empty `seen` set:
      each capture is trimmed; it is skipped when empty, already seen
      (ignoring case), a web address or not audio, and otherwise recorded.
      Every check only skips, so their order does not matter. */
  function AddPathRefs(cands: seq<string>, resolveUserPath: string -> string): (refs: seq<AudioRef>)
    ensures forall i :: 0 <= i < |refs| ==> refs[i].refType == PathRef
    ensures forall i :: 0 <= i < |refs| ==> !IsPrefix("~", refs[i].raw) ==> refs[i].resolved == refs[i].raw
  {
    var kept := KeepFirst(Trims(cands), {}, Acceptable, Lower);
    seq(|kept|, i requires 0 <= i < |kept| => PathRefOf(kept[i], resolveUserPath))
  }

  /** Each recorded reference is acceptable and already trimmed. */
  lemma RefsAcceptable(cands: seq<string>, resolveUserPath: string -> string)
    ensures var refs := AddPathRefs(cands, resolveUserPath);
      forall i :: 0 <= i < |refs| ==> Acceptable(refs[i].raw) && Trim(refs[i].raw) == refs[i].raw
  {
    var ts := Trims(cands);
    var kept := KeepFirst(ts, {}, Acceptable, Lower);
    var refs := AddPathRefs(cands, resolveUserPath);
    forall i | 0 <= i < |refs|
      ensures Acceptable(refs[i].raw) && Trim(refs[i].raw) == refs[i].raw
    {
      assert refs[i].raw == kept[i];
      var j := KeepFirstOrigin(ts, {}, Acceptable, Lower, i);
      TrimIdempotent(cands[j]);
    }
  }

  /** No two recorded references differ only in case. */
  lemma RefsDistinct(cands: seq<string>, resolveUserPath: string -> string)
    ensures var refs := AddPathRefs(cands, resolveUserPath);
      forall i, j :: 0 <= i < j < |refs| ==> Lower(refs[i].raw) != Lower(refs[j].raw)
  {
    var kept := KeepFirst(Trims(cands), {}, Acceptable, Lower);
    var refs := AddPathRefs(cands, resolveUserPath);
    assert forall i :: 0 <= i < |refs| ==> refs[i].raw == kept[i];
  }

  /** Each recorded reference is the first trimmed capture with its
      lower-cased form among the acceptable ones. */
  lemma RefsFirstOccurrence(cands: seq<string>, resolveUserPath: string -> string)
    ensures var ts := Trims(cands);
      var refs := AddPathRefs(cands, resolveUserPath);
      forall i, j :: 0 <= i < |refs| && 0 <= j < |ts| && Acceptable(ts[j]) && Lower(ts[j]) == Lower(refs[i].raw)
        ==> refs[i].raw in ts[..j + 1]
  {
    var kept := KeepFirst(Trims(cands), {}, Acceptable, Lower);
    KeepFirstWins(Trims(cands), {}, Acceptable, Lower);
    assert forall i :: 0 <= i < |kept| ==> AddPathRefs(cands, resolveUserPath)[i].raw == kept[i];
  }

  /** No acceptable capture is lost: some reference has its lower-cased form. */
  lemma RefsComplete(cands: seq<string>, resolveUserPath: string -> string)
    ensures forall j :: 0 <= j < |cands| && Acceptable(Trim(cands[j])) ==>
      exists i :: 0 <= i < |AddPathRefs(cands, resolveUserPath)|
        && Lower(AddPathRefs(cands, resolveUserPath)[i].raw) == Lower(Trim(cands[j]))
  {
    var ts := Trims(cands);
    var kept := KeepFirst(ts, {}, Acceptable, Lower);
    var refs := AddPathRefs(cands, resolveUserPath);
    forall j | 0 <= j < |cands| && Acceptable(Trim(cands[j]))
      ensures exists i :: 0 <= i < |refs| && Lower(refs[i].raw) == Lower(Trim(cands[j]))
    {
      assert ts[j] == Trim(cands[j]);
      var i := KeepFirstKeepsKey(ts, {}, Acceptable, Lower, j);
      assert refs[i].raw == kept[i];
    }
  }

  lemma TrimIdempotent(s: string)
    ensures Trim(Trim(s)) == Trim(s)
  {
    TrimFixed(Trim(s));
  }

  /** The references keep the order of the captures they come from. */
  lemma RefsKeepOrder(cands: seq<string>, resolveUserPath: string -> string)
    ensures IsSubseq(Raws(AddPathRefs(cands, resolveUserPath)), Trims(cands))
  {
    var kept := KeepFirst(Trims(cands), {}, Acceptable, Lower);
    KeepFirstIsSubseq(Trims(cands), {}, Acceptable, Lower);
    assert Raws(AddPathRefs(cands, resolveUserPath)) == kept;
  }

  function Raws(refs: seq<AudioRef>): (r: seq<string>)
    ensures |r| == |refs| && forall i :: 0 <= i < |refs| ==> r[i] == refs[i].raw
  {
    seq(|refs|, i requires 0 <= i < |refs| => refs[i].raw)
  }

  /** The trimmed captures of the path expression over the markers' contents. */
  function Captures(contents: seq<string>): (r: seq<string>)
    ensures |r| <= |contents|
  {
    if contents == [] then []
    else
      var here := match PathGroup(contents[0])
        case Some(g) => if g != "" then [Trim(g)] else []
        case None => [];
      here + Captures(contents[1..])
  }

  /** `detectAudioReferences`. */
  function DetectAudioReferences(prompt: string, resolveUserPath: string -> string): (refs: seq<AudioRef>)
  {
    AddPathRefs(Captures(Markers(prompt, 0)), resolveUserPath)
  }

  /** A prompt without any marker head names no audio. */
  lemma NoMarkerNoAudio(prompt: string, resolveUserPath: string -> string)
    requires forall p :: 0 <= p <= |prompt| ==> !MatchesAt(MarkerHead, prompt, p)
    ensures DetectAudioReferences(prompt, resolveUserPath) == []
  {
    NoHeadNoMarkers(prompt, 0);
  }

  // ---------------------------------------------------------------------
  // `loadAudioFromRef` and `detectAndLoadPromptAudio`
  // ---------------------------------------------------------------------

  /** What the media loader returns. */
  datatype Media = Media(kind: string, buffer: seq<bv8>, contentType: Option<string>)

  datatype AudioData = AudioData(data: seq<bv8>, mimeType: string)

  /** The collaborators of a load: the sandbox root (when running sandboxed),
      the sandbox's path resolution (which may throw), `path.resolve`, and
      `loadWebMedia` (told whether the path was sandbox-validated; it may throw). */
  datatype LoadEnv = LoadEnv(
    sandboxRoot: Option<string>,
    resolveInSandbox: (string, string) -> Result<string>,
    resolveAgainst: (string, string) -> string,
    loadMedia: (string, bool) -> Result<Media>)

  const DefaultMimeType: string := "audio/wav"

  /** POSIX `path.isAbsolute`. */
  predicate IsAbsolute(p: string) {
    p != [] && p[0] == '/'
  }

  /** The path a path reference is loaded from: resolved through the sandbox
      when there is one, else against the workspace when relative. */
  function TargetPath(ref: AudioRef, workspaceDir: string, env: LoadEnv): (r: Result<string>)
    ensures env.sandboxRoot.Some? ==> r == env.resolveInSandbox(ref.resolved, env.sandboxRoot.value)
    ensures env.sandboxRoot.None? && IsAbsolute(ref.resolved) ==> r == Ok(ref.resolved)
    ensures env.sandboxRoot.None? && !IsAbsolute(ref.resolved) ==> r == Ok(env.resolveAgainst(workspaceDir, ref.resolved))
  {
    match env.sandboxRoot
    case Some(root) => env.resolveInSandbox(ref.resolved, root)
    case None => Ok(if IsAbsolute(ref.resolved) then ref.resolved else env.resolveAgainst(workspaceDir, ref.resolved))
  }

  /** `loadAudioFromRef`: null for a URL reference, when the sandbox refuses
      the path, when loading throws, or when the media is not audio; else
      the bytes with the content type, or "audio/wav" when there is none. */
  function LoadAudioFromRef(ref: AudioRef, workspaceDir: string, env: LoadEnv): (r: Option<AudioData>)
    ensures r.Some? <==>
      && ref.refType == PathRef
      && TargetPath(ref, workspaceDir, env).Ok?
      && env.loadMedia(TargetPath(ref, workspaceDir, env).value, env.sandboxRoot.Some?).Ok?
      && env.loadMedia(TargetPath(ref, workspaceDir, env).value, env.sandboxRoot.Some?).value.kind == "audio"
    ensures r.Some? ==>
      var media := env.loadMedia(TargetPath(ref, workspaceDir, env).value, env.sandboxRoot.Some?).value;
      r.value.data == media.buffer
      && (Truthy(media.contentType) ==> r.value.mimeType == media.contentType.value)
      && (!Truthy(media.contentType) ==> r.value.mimeType == "audio/wav")
  {
    if ref.refType.UrlRef? then None
    else
      var target := TargetPath(ref, workspaceDir, env);
      if target.Err? then None
      else
        var loaded := env.loadMedia(target.value, env.sandboxRoot.Some?);
        if loaded.Err? || loaded.value.kind != "audio" then None
        else Some(AudioData(loaded.value.buffer, OrElse(loaded.value.contentType, DefaultMimeType)))
  }

  /** The loaded audio of each reference, in order, skipping the nulls. */
  function LoadAll(refs: seq<AudioRef>, workspaceDir: string, env: LoadEnv): (r: seq<AudioData>)
    ensures |r| <= |refs|
    ensures forall i :: 0 <= i < |r| ==> r[i].mimeType != ""
  {
    if refs == [] then []
    else
      var here := match LoadAudioFromRef(refs[0], workspaceDir, env)
        case Some(a) => [a]
        case None => [];
      here + LoadAll(refs[1..], workspaceDir, env)
  }

  /** Loading a concatenation loads each part. */
  lemma {:induction false} LoadAllAppend(a: seq<AudioRef>, b: seq<AudioRef>, workspaceDir: string, env: LoadEnv)
    ensures LoadAll(a + b, workspaceDir, env) == LoadAll(a, workspaceDir, env) + LoadAll(b, workspaceDir, env)
  {
    if a == [] {
      assert a + b == b;
    } else {
      assert (a + b)[1..] == a[1..] + b;
      LoadAllAppend(a[1..], b, workspaceDir, env);
    }
  }

  /** Whether a reference loads as audio. */
  function Loads(workspaceDir: string, env: LoadEnv): AudioRef -> bool {
    (ref: AudioRef) => LoadAudioFromRef(ref, workspaceDir, env).Some?
  }

  /** The loads are exactly the audio of the references that load, one entry
      each, in reference order. */
  lemma {:induction false} LoadAllKeepsSuccesses(refs: seq<AudioRef>, workspaceDir: string, env: LoadEnv)
    ensures var ok := Filter(Loads(workspaceDir, env), refs);
      && |LoadAll(refs, workspaceDir, env)| == |ok|
      && forall k :: 0 <= k < |ok| ==>
           LoadAudioFromRef(ok[k], workspaceDir, env) == Some(LoadAll(refs, workspaceDir, env)[k])
    ensures (forall i :: 0 <= i < |refs| ==> LoadAudioFromRef(refs[i], workspaceDir, env).None?) ==> LoadAll(refs, workspaceDir, env) == []
  {
    if refs != [] {
      LoadAllKeepsSuccesses(refs[1..], workspaceDir, env);
      var p := Loads(workspaceDir, env);
      var rest := LoadAll(refs[1..], workspaceDir, env);
      var okRest := Filter(p, refs[1..]);
      var loaded := LoadAudioFromRef(refs[0], workspaceDir, env);
      if loaded.Some? {
        assert p(refs[0]);
        var all := LoadAll(refs, workspaceDir, env);
        var ok := Filter(p, refs);
        assert all == [loaded.value] + rest;
        assert ok == [refs[0]] + okRest;
        forall k | 0 <= k < |ok|
          ensures LoadAudioFromRef(ok[k], workspaceDir, env) == Some(all[k])
        {
          if k > 0 {
            assert ok[k] == okRest[k - 1] && all[k] == rest[k - 1];
          }
        }
      } else {
        assert !p(refs[0]);
        assert LoadAll(refs, workspaceDir, env) == rest;
        assert Filter(p, refs) == okRest;
      }
    }
  }

  /** `detectAndLoadPromptAudio`: nothing at all unless the provider is
      "google" (the audio already attached is dropped too); otherwise the
      attached audio followed by each prompt reference that loads. */
  function DetectAndLoadPromptAudio(prompt: string, workspaceDir: string, provider: string,
                                    existingAudio: Option<seq<AudioData>>,
                                    resolveUserPath: string -> string, env: LoadEnv): (r: seq<AudioData>)
    ensures provider != "google" ==> r == []
    ensures provider == "google" ==>
      var existing := existingAudio.GetOr([]);
      && |existing| <= |r| <= |existing| + |DetectAudioReferences(prompt, resolveUserPath)|
      && r[..|existing|] == existing
      && r[|existing|..] == LoadAll(DetectAudioReferences(prompt, resolveUserPath), workspaceDir, env)
  {
    if provider != "google" then []
    else existingAudio.GetOr([]) + LoadAll(DetectAudioReferences(prompt, resolveUserPath), workspaceDir, env)
  }

  /** With the "google" provider and a prompt that names no audio, the
      attached audio is passed through unchanged. */
  lemma GoogleWithoutMarkersKeepsExisting(prompt: string, workspaceDir: string,
                                          existingAudio: Option<seq<AudioData>>,
                                          resolveUserPath: string -> string, env: LoadEnv)
    requires forall p :: 0 <= p <= |prompt| ==> !MatchesAt(MarkerHead, prompt, p)
    ensures DetectAndLoadPromptAudio(prompt, workspaceDir, "google", existingAudio, resolveUserPath, env)
         == existingAudio.GetOr([])
  {
    NoMarkerNoAudio(prompt, resolveUserPath);
  }
}

=== FILE: audio_markers.dfy ===
/** The two regular expressions of `detectAudioReferences`
    (src/agents/pi-embedded-runner/run/audio.ts):

      marker  /\[media attached(?:\s+\d+\/\d+)?:\s*([^\]]+)\]/gi
      path    /^\s*(.+?\.(?:mp3|wav|ogg|m4a|aac|flac|opus))\s*(?:\(|$|\|)/i

    each modelled with the ECMAScript backtracking order it is run with.
    Under the `i` flag without `u`, a character only matches a different
    ASCII letter through its ASCII case, so ASCII lower-casing decides every
    comparison against the lower-case literals below. */
module AudioMarkers {
  import opened Base
  import opened Strings

  /** The audio extensions, in the order of both the extension set and the
      alternation of the path expression. No one is a prefix of another. */
  const AudioExtensions: seq<string> := [".mp3", ".wav", ".ogg", ".m4a", ".aac", ".flac", ".opus"]

  /** The literal head of a marker, compared case-insensitively. */
  const MarkerHead: string := "[media attached"

  /** The ASCII-case-insensitive literal `lit` (lower-case) occurs in `s` at `i`. */
  predicate MatchesAt(lit: string, s: string, i: nat) {
    i + |lit| <= |s| && Lower(s[i..i + |lit|]) == lit
  }

  /** The end of the longest run of characters satisfying `p` starting at `i`:
      a greedy `p*`. */
  function RunEnd(s: string, i: nat, p: char -> bool): (j: nat)
    requires i <= |s|
    ensures i <= j <= |s|
    ensures forall k :: i <= k < j ==> p(s[k])
    ensures j == |s| || !p(s[j])
    decreases |s| - i
  {
    if i < |s| && p(s[i]) then RunEnd(s, i + 1, p) else i
  }

  // ---------------------------------------------------------------------
  // The marker expression
  // ---------------------------------------------------------------------

  /** `(?:\s+\d+\/\d+)` at `q`: its end, if it matches. Every quantifier in it
      meets a character it cannot take, so it has at most one way to match. */
  function Counter(s: string, q: nat): (r: Option<nat>)
    requires q <= |s|
    ensures r.Some? ==> q < r.value <= |s|
  {
    var a := RunEnd(s, q, IsSpace);
    var b := RunEnd(s, a, IsDigit);
    if a == q || b == a || b == |s| || s[b] != '/' then None
    else
      var c := RunEnd(s, b + 1, IsDigit);
      if c == b + 1 then None else Some(c)
  }

  /** The position just after the `:` of a marker whose head ends at `q`:
      the optional counter is tried first, then skipped. */
  function AfterColon(s: string, q: nat): (r: Option<nat>)
    requires q <= |s|
    ensures r.Some? ==> q < r.value <= |s| && s[r.value - 1] == ':'
  {
    var counter := Counter(s, q);
    if counter.Some? && counter.value < |s| && s[counter.value] == ':' then Some(counter.value + 1)
    else if q < |s| && s[q] == ':' then Some(q + 1)
    else None
  }

  /** The first `]` at or after `i`. */
  function CloseAt(s: string, i: nat): (r: Option<nat>)
    requires i <= |s|
    ensures r.Some? ==> i <= r.value < |s| && s[r.value] == ']'
    ensures forall k :: i <= k < |s| && (r.None? || k < r.value) ==> s[k] != ']'
    decreases |s| - i
  {
    if i == |s| then None else if s[i] == ']' then Some(i) else CloseAt(s, i + 1)
  }

  /** One match of the marker expression: where its capture starts, the
      capture, and where the match ends. */
  datatype Marker = Marker(start: nat, content: string, end: nat)

  /** `content` is the text of `s` from `x` up to the `]` at `e`, after a
      marker head at `p`. */
  predicate InsideMarker(s: string, p: nat, x: nat, e: nat, content: string) {
    p + |MarkerHead| < x <= e < |s| && MatchesAt(MarkerHead, s, p) && s[e] == ']' && content == s[x..e]
  }

  /** The marker expression tried at `p`. After the colon, `\s*` first takes
      every white-space character; `([^\]]+)` then runs to the first `]`. When
      nothing but white space precedes that `]`, `\s*` gives back one
      character, which becomes the capture. */
  function MarkerAt(s: string, p: nat): (r: Option<Marker>)
    requires p <= |s|
    ensures r.Some? ==> p < r.value.end <= |s| && s[r.value.end - 1] == ']'
    ensures r.Some? ==> r.value.content != [] && ']' !in r.value.content
    ensures r.Some? ==> MatchesAt(MarkerHead, s, p)
    ensures r.Some? ==> InsideMarker(s, p, r.value.start, r.value.end - 1, r.value.content)
  {
    if !MatchesAt(MarkerHead, s, p) then None
    else match AfterColon(s, p + |MarkerHead|)
      case None => None
      case Some(t) => Capture(s, t)
  }

  /** `\s*([^\]]+)\]` from `t`, just after the colon. */
  function Capture(s: string, t: nat): (r: Option<Marker>)
    requires t <= |s|
    ensures r.Some? ==> t < r.value.end <= |s| && s[r.value.end - 1] == ']'
    ensures r.Some? ==> r.value.content != [] && ']' !in r.value.content
    ensures r.Some? ==> t <= r.value.start < r.value.end - 1 && r.value.content == s[r.value.start..r.value.end - 1]
  {
    var w := RunEnd(s, t, IsSpace);
    match CloseAt(s, t)
    case None => None
    case Some(j) =>
      if w < j then Some(Marker(w, s[w..j], j + 1))
      else if t < j then Some(Marker(j - 1, s[j - 1..j], j + 1))
      else None
  }

  /** The `while (exec)` loop of the global expression: from `from`, the
      leftmost match, then on from where it ended. */
  function Markers(s: string, from: nat): (r: seq<string>)
    requires from <= |s|
    ensures forall i :: 0 <= i < |r| ==> r[i] != [] && ']' !in r[i]
    decreases |s| - from
  {
    if from == |s| then []
    else match MarkerAt(s, from)
      case Some(m) => [m.content] + Markers(s, m.end)
      case None => Markers(s, from + 1)
  }

  /** `c` is text inside a marker whose head is at or after `from`. */
  ghost predicate InsideSomeMarker(s: string, from: nat, c: string) {
    exists p: nat, x: nat, e: nat :: from <= p && InsideMarker(s, p, x, e, c)
  }

  /** Each of `r` is text inside a marker whose head is at or after `from`. */
  ghost predicate AllInsideMarkers(s: string, from: nat, r: seq<string>) {
    forall i :: 0 <= i < |r| ==> InsideSomeMarker(s, from, r[i])
  }

  /** Every content the loop yields is prompt text inside a marker: after a
      head found at or after `from`, up to that marker's `]`. */
  lemma {:induction false} MarkersAreInsideMarkers(s: string, from: nat)
    requires from <= |s|
    ensures AllInsideMarkers(s, from, Markers(s, from))
    decreases |s| - from
  {
    if from < |s| {
      var found := MarkerAt(s, from);
      if found.Some? {
        var m := found.value;
        MarkersAreInsideMarkers(s, m.end);
        MarkersTake(s, from, m);
        InsideCons(s, from, m, Markers(s, m.end));
      } else {
        MarkersAreInsideMarkers(s, from + 1);
        MarkersSkip(s, from);
      }
    }
  }

  /** Prepending the match at `from` keeps every content inside a marker
      found at or after `from`. */
  lemma InsideCons(s: string, from: nat, m: Marker, rest: seq<string>)
    requires from < m.end && InsideMarker(s, from, m.start, m.end - 1, m.content)
    requires AllInsideMarkers(s, m.end, rest)
    ensures AllInsideMarkers(s, from, [m.content] + rest)
  {
    var r := [m.content] + rest;
    forall i | 0 <= i < |r|
      ensures InsideSomeMarker(s, from, r[i])
    {
      if i == 0 {
        assert InsideMarker(s, from, m.start, m.end - 1, r[0]);
      } else {
        assert InsideSomeMarker(s, m.end, rest[i - 1]);
        var p: nat, x: nat, e: nat :| m.end <= p && InsideMarker(s, p, x, e, rest[i - 1]);
        assert from <= p && InsideMarker(s, p, x, e, r[i]);
      }
    }
  }

  /** A match at `from` is the first content, and the scan goes on from its end. */
  lemma MarkersTake(s: string, from: nat, m: Marker)
    requires from < |s| && MarkerAt(s, from) == Some(m)
    ensures Markers(s, from) == [m.content] + Markers(s, m.end)
  {
  }

  /** No match at `from`: the scan goes on from the next position. */
  lemma MarkersSkip(s: string, from: nat)
    requires from < |s| && MarkerAt(s, from).None?
    ensures Markers(s, from) == Markers(s, from + 1)
  {
  }

  /** A prompt in which the marker head never occurs yields no marker. */
  lemma {:induction false} NoHeadNoMarkers(s: string, from: nat)
    requires from <= |s|
    requires forall p :: from <= p <= |s| ==> !MatchesAt(MarkerHead, s, p)
    ensures Markers(s, from) == []
    decreases |s| - from
  {
    if from < |s| {
      NoHeadNoMarkers(s, from + 1);
    }
  }

  /** The text a marker is written as: an optional `index/total` counter,
      then the attachment description. */
  function MarkerText(counter: Option<(string, string)>, description: string): string {
    match counter
    case None => "[media attached: " + description + "]"
    case Some(c) => "[media attached " + c.0 + "/" + c.1 + ": " + description + "]"
  }

  predicate AllDigits(d: string) {
    forall i :: 0 <= i < |d| ==> IsDigit(d[i])
  }

  lemma LowerHead()
    ensures Lower(MarkerHead) == MarkerHead
  {
  }

  /** The common end of both marker forms: `: <description>]` after the head. */
  lemma MarkerFromColon(s: string, h: nat, t: nat, description: string)
    requires h == |MarkerHead| && MatchesAt(MarkerHead, s, 0)
    requires AfterColon(s, h) == Some(t)
    requires t + 2 + |description| == |s| && s[t] == ' ' && s[t + 1..|s| - 1] == description && s[|s| - 1] == ']'
    requires description != [] && ']' !in description && !IsSpace(description[0])
    ensures Markers(s, 0) == [description]
  {
    CaptureOf(s, t, description);
    assert MarkerAt(s, 0) == Some(Marker(t + 1, description, |s|));
  }

  /** ` <description>]` is captured as the description. */
  lemma CaptureOf(s: string, t: nat, description: string)
    requires t + 2 + |description| == |s| && s[t] == ' ' && s[t + 1..|s| - 1] == description && s[|s| - 1] == ']'
    requires description != [] && ']' !in description && !IsSpace(description[0])
    ensures Capture(s, t) == Some(Marker(t + 1, description, |s|))
  {
    assert RunEnd(s, t, IsSpace) == t + 1 by {
      assert s[t + 1] == description[0];
    }
    CloseAfter(s, t, description);
  }

  /** Scanning a single marker without a counter gives back its description,
      when the description is non-empty, holds no `]` and does not start with
      white space. */
  lemma MarkerRoundTrip(description: string)
    requires description != [] && ']' !in description && !IsSpace(description[0])
    ensures Markers(MarkerText(None, description), 0) == [description]
  {
    var s := MarkerText(None, description);
    var h := |MarkerHead|;
    assert s[..h] == MarkerHead;
    LowerHead();
    assert s[h] == ':';
    assert AfterColon(s, h) == Some(h + 1);
    assert s[h + 2..|s| - 1] == description;
    MarkerFromColon(s, h, h + 1, description);
  }

  /** The same with an `index/total` counter made of two runs of digits. */
  lemma CountedMarkerRoundTrip(index: string, total: string, description: string)
    requires description != [] && ']' !in description && !IsSpace(description[0])
    requires index != [] && total != [] && AllDigits(index) && AllDigits(total)
    ensures Markers(MarkerText(Some((index, total)), description), 0) == [description]
  {
    var s := MarkerText(Some((index, total)), description);
    var h := |MarkerHead|;
    assert s[..h] == MarkerHead;
    LowerHead();
    var c := h + 2 + |index| + |total|;
    assert s[h..c + 1] == " " + index + "/" + total + ":";
    CounterOf(s, h, index, total);
    assert AfterColon(s, h) == Some(c + 1);
    assert s[c + 2..|s| - 1] == description;
    MarkerFromColon(s, h, c + 1, description);
  }

  /** ` <index>/<total>` is a counter when a colon follows it. */
  lemma CounterOf(s: string, h: nat, index: string, total: string)
    requires index != [] && total != [] && AllDigits(index) && AllDigits(total)
    requires h + 3 + |index| + |total| <= |s|
    requires s[h..h + 3 + |index| + |total|] == " " + index + "/" + total + ":"
    ensures Counter(s, h) == Some(h + 2 + |index| + |total|)
  {
    var a := h + 1;
    var b := a + |index|;
    var c := b + 1 + |total|;
    var w := " " + index + "/" + total + ":";
    CounterTextParts(index, total);
    SubSlice(s, h, c + 1, 1, 1 + |index|);
    SubSlice(s, h, c + 1, 2 + |index|, c - h);
    assert s[h..c + 1][0] == s[h] && s[h..c + 1][1 + |index|] == s[b] && s[h..c + 1][c - h] == s[c];
    CounterFromParts(s, h, index, total);
  }

  /** Where each part of a counter text sits. */
  lemma CounterTextParts(index: string, total: string)
    ensures var w := " " + index + "/" + total + ":";
      && |w| == 3 + |index| + |total|
      && w[0] == ' ' && w[1..1 + |index|] == index && w[1 + |index|] == '/'
      && w[2 + |index|..2 + |index| + |total|] == total && w[2 + |index| + |total|] == ':'
  {
  }

  lemma SubSlice(s: string, lo: nat, hi: nat, x: nat, y: nat)
    requires lo <= hi <= |s| && x <= y <= hi - lo
    ensures s[lo..hi][x..y] == s[lo + x..lo + y]
  {
    assert forall k :: 0 <= k < y - x ==> s[lo..hi][x..y][k] == s[lo + x + k];
  }

  lemma CounterFromParts(s: string, h: nat, index: string, total: string)
    requires index != [] && total != [] && AllDigits(index) && AllDigits(total)
    requires h + 3 + |index| + |total| <= |s|
    requires s[h] == ' ' && s[h + 1..h + 1 + |index|] == index && s[h + 1 + |index|] == '/'
    requires s[h + 2 + |index|..h + 2 + |index| + |total|] == total && s[h + 2 + |index| + |total|] == ':'
    ensures Counter(s, h) == Some(h + 2 + |index| + |total|)
  {
    var a := h + 1;
    var b := a + |index|;
    var c := b + 1 + |total|;
    assert s[a] == index[0] by {
      assert s[a..b][0] == s[a];
    }
    SingleSpace(s, h);
    assert !IsDigit('/') && !IsDigit(':');
    DigitRun(s, a, index);
    DigitRun(s, b + 1, total);
    CounterFromRuns(s, h, a, b, c);
  }

  /** One space before a character that is not white space. */
  lemma SingleSpace(s: string, h: nat)
    requires h + 1 < |s| && s[h] == ' ' && IsDigit(s[h + 1])
    ensures RunEnd(s, h, IsSpace) == h + 1
  {
    assert RunEnd(s, h, IsSpace) == RunEnd(s, h + 1, IsSpace);
  }

  /** `Counter` read off the ends of its three runs. */
  lemma CounterFromRuns(s: string, h: nat, a: nat, b: nat, c: nat)
    requires h < a <= |s| && RunEnd(s, h, IsSpace) == a
    requires a < b < |s| && RunEnd(s, a, IsDigit) == b && s[b] == '/'
    requires b + 1 < c <= |s| && RunEnd(s, b + 1, IsDigit) == c
    ensures Counter(s, h) == Some(c)
  {
  }

  /** `d` is a run of digits ending before a non-digit. */
  lemma {:induction false} DigitRun(s: string, i: nat, d: string)
    requires AllDigits(d) && i + |d| < |s| && s[i..i + |d|] == d && !IsDigit(s[i + |d|])
    ensures RunEnd(s, i, IsDigit) == i + |d|
    decreases |d|
  {
    if d != [] {
      assert s[i] == d[0];
      assert s[i + 1..i + 1 + |d[1..]|] == d[1..];
      DigitRun(s, i + 1, d[1..]);
    }
  }

  /** In `...: <description>]`, the first `]` after the colon is the last character. */
  lemma CloseAfter(s: string, t: nat, description: string)
    requires t + 2 + |description| == |s| && s[t + 1..|s| - 1] == description && s[|s| - 1] == ']'
    requires s[t] == ' ' && ']' !in description
    ensures CloseAt(s, t) == Some(|s| - 1)
  {
    forall k | t <= k < |s| - 1
      ensures s[k] != ']'
    {
      if k > t {
        assert s[k] == description[k - t - 1];
      }
    }
  }

  // ---------------------------------------------------------------------
  // The path expression
  // ---------------------------------------------------------------------

  /** The index of the first audio extension (with its dot) matching at `k`,
      case-insensitively, trying the alternatives from the `i`-th on. */
  function ExtensionAt(c: string, k: nat, i: nat): (r: Option<nat>)
    requires i <= |AudioExtensions|
    ensures r.Some? ==> i <= r.value < |AudioExtensions| && MatchesAt(AudioExtensions[r.value], c, k)
    ensures r.None? ==> forall j :: i <= j < |AudioExtensions| ==> !MatchesAt(AudioExtensions[j], c, k)
    decreases |AudioExtensions| - i
  {
    if i == |AudioExtensions| then None
    else if MatchesAt(AudioExtensions[i], c, k) then Some(i)
    else ExtensionAt(c, k, i + 1)
  }

  /** What follows `.+?` in the path expression, tried at `k`:
      `\.(?:mp3|...)\s*(?:\(|$|\|)`; its value is the end of the capture. */
  function Tail(c: string, k: nat): (r: Option<nat>)
    ensures r.Some? ==> ExtensionAt(c, k, 0).Some?
    ensures r.Some? ==> r.value == k + |AudioExtensions[ExtensionAt(c, k, 0).value]| <= |c|
  {
    match ExtensionAt(c, k, 0)
    case None => None
    case Some(i) =>
      var e := k + |AudioExtensions[i]|;
      var z := RunEnd(c, e, IsSpace);
      if z == |c| || c[z] == '(' || c[z] == '|' then Some(e) else None
  }

  /** No line terminator in `c[a..k]`: what `.` can take. */
  predicate OneLine(c: string, a: nat, k: nat)
    requires a <= k <= |c|
  {
    forall i :: a <= i < k ==> !IsLineTerminator(c[i])
  }

  /** The lazy `.+?`, having taken everything before `k`: try the rest of the
      pattern (`fits`) at `k`, else take one more character unless it is a
      line terminator. The value is where `.+?` stops. */
  function Lazy(c: string, k: nat, fits: nat -> bool): (r: Option<nat>)
    requires 1 <= k <= |c|
    ensures r.Some? ==> k <= r.value <= |c| && fits(r.value)
    decreases |c| - k
  {
    if fits(k) then Some(k)
    else if k < |c| && !IsLineTerminator(c[k]) then Lazy(c, k + 1, fits)
    else None
  }

  /** `.+?` stops at the first place the rest matches, without crossing a
      line terminator, and fails only when there is no such place. */
  lemma {:induction false} LazyIsFirst(c: string, k: nat, fits: nat -> bool)
    requires 1 <= k <= |c|
    ensures var r := Lazy(c, k, fits);
      && (r.Some? ==> OneLine(c, k, r.value) && forall j :: k <= j < r.value ==> !fits(j))
      && (r.None? ==> forall j :: k <= j <= |c| && OneLine(c, k, j) ==> !fits(j))
    decreases |c| - k
  {
    if !fits(k) && k < |c| && !IsLineTerminator(c[k]) {
      LazyIsFirst(c, k + 1, fits);
      var r := Lazy(c, k + 1, fits);
      if r.Some? {
        assert OneLine(c, k, r.value);
      } else {
        forall j | k <= j <= |c| && OneLine(c, k, j)
          ensures !fits(j)
        {
          if j > k {
            assert OneLine(c, k + 1, j);
          }
        }
      }
    }
  }

  /** The number of leading white-space characters of `c`. */
  function LeadingSpace(c: string): (w: nat)
    ensures w <= |c|
  {
    RunEnd(c, 0, IsSpace)
  }

  /** A way for `^\s*(.+?X)` to match: `\s*` stops at `a`, within the leading
      white space `w`, and `.+?` at `k`, where the rest `X` fits. */
  predicate Fits(c: string, w: nat, fits: nat -> bool, a: nat, k: nat) {
    a <= w && a < k <= |c| && OneLine(c, a, k) && fits(k)
  }

  /** `\s*` backtracking from `a0` down to 0: the first start that lets the
      rest match, and where `.+?` stops for it. */
  function Backtrack(c: string, w: nat, fits: nat -> bool, a0: nat): (r: Option<(nat, nat)>)
    requires a0 <= w <= |c|
    ensures r.Some? ==> r.value.0 <= a0 && r.value.0 < r.value.1 <= |c| && fits(r.value.1)
    decreases a0
  {
    var attempt := if a0 < |c| && !IsLineTerminator(c[a0]) then Lazy(c, a0 + 1, fits) else None;
    match attempt
    case Some(k) => Some((a0, k))
    case None => if a0 == 0 then None else Backtrack(c, w, fits, a0 - 1)
  }

  /** The backtracking finds the largest start that has a match and, from
      it, the first stop; it fails only when no start has a match. */
  lemma {:induction false} BacktrackIsFirst(c: string, w: nat, fits: nat -> bool, a0: nat)
    requires a0 <= w <= |c|
    ensures var r := Backtrack(c, w, fits, a0);
      && (r.Some? ==> Fits(c, w, fits, r.value.0, r.value.1))
      && (r.Some? ==> forall j :: r.value.0 < j < r.value.1 ==> !fits(j))
      && (r.Some? ==> forall a: nat, k: nat :: r.value.0 < a <= a0 ==> !Fits(c, w, fits, a, k))
      && (r.None? ==> forall a: nat, k: nat :: a <= a0 ==> !Fits(c, w, fits, a, k))
    decreases a0
  {
    var ok := a0 < |c| && !IsLineTerminator(c[a0]);
    if ok {
      LazyIsFirst(c, a0 + 1, fits);
    }
    var attempt := if ok then Lazy(c, a0 + 1, fits) else None;
    forall k: nat | Fits(c, w, fits, a0, k)
      ensures attempt.Some?
    {
      assert ok;
      assert OneLine(c, a0 + 1, k);
    }
    if attempt.None? && a0 > 0 {
      BacktrackIsFirst(c, w, fits, a0 - 1);
    }
  }

  /** The rest of the path expression fits at `k`. */
  function TailFits(c: string): nat -> bool {
    (k: nat) => Tail(c, k).Some?
  }

  /** The path expression against a marker's content: where its capture
      starts and where `.+?` stops. */
  function PathMatch(c: string): (r: Option<(nat, nat)>)
    ensures r.Some? ==> Tail(c, r.value.1).Some? && r.value.0 < r.value.1
  {
    Backtrack(c, LeadingSpace(c), TailFits(c), LeadingSpace(c))
  }

  /** The capture of the path expression. */
  function PathGroup(c: string): (g: Option<string>)
  {
    match PathMatch(c)
    case None => None
    case Some((a, k)) => Some(c[a..Tail(c, k).value])
  }

  /** A way for the path expression to match content `c`. */
  predicate Candidate(c: string, a: nat, k: nat) {
    Fits(c, LeadingSpace(c), TailFits(c), a, k)
  }

  /** The path expression matches exactly when some candidate exists; the
      capture then starts at the last start (the longest `\s*`) that has a
      candidate, and is the shortest from that start. */
  lemma PathGroupIffCandidate(c: string)
    ensures PathGroup(c).Some? <==> exists a: nat, k: nat :: Candidate(c, a, k)
    ensures PathGroup(c).Some? ==> exists a: nat, k: nat ::
      && Candidate(c, a, k)
      && PathGroup(c).value == c[a..Tail(c, k).value]
      && (forall j :: a < j < k ==> Tail(c, j).None?)
      && (forall a': nat, k': nat :: a < a' ==> !Candidate(c, a', k'))
  {
    var w := LeadingSpace(c);
    BacktrackIsFirst(c, w, TailFits(c), w);
    var m := PathMatch(c);
    if m.Some? {
      var a, k := m.value.0, m.value.1;
      assert Candidate(c, a, k);
      forall j | a < j < k
        ensures Tail(c, j).None?
      {
        assert !TailFits(c)(j);
      }
    }
  }

  /** `g` ends, case-insensitively, with the audio extension `AudioExtensions[i]`,
      with at least one character before its dot. */
  predicate EndsWithExtension(g: string, i: nat)
    requires i < |AudioExtensions|
  {
    |AudioExtensions[i]| < |g| && Lower(g[|g| - |AudioExtensions[i]|..]) == AudioExtensions[i]
  }

  /** Every capture of the path expression ends with an audio extension and
      has something before it. */
  lemma PathGroupShape(c: string)
    ensures PathGroup(c).Some? ==>
      exists i: nat :: i < |AudioExtensions| && EndsWithExtension(PathGroup(c).value, i)
  {
    if PathGroup(c).None? { return; }
    var m := PathMatch(c).value;
    var a, k := m.0, m.1;
    var g := PathGroup(c).value;
    var i := ExtensionAt(c, k, 0).value;
    assert g == c[a..Tail(c, k).value];
    assert Tail(c, k).value == k + |AudioExtensions[i]|;
    ShapeFromParts(c, a, k, i, g);
  }

  lemma ShapeFromParts(c: string, a: nat, k: nat, i: nat, g: string)
    requires i < |AudioExtensions| && a < k && MatchesAt(AudioExtensions[i], c, k)
    requires k + |AudioExtensions[i]| <= |c| && g == c[a..k + |AudioExtensions[i]|]
    ensures i < |AudioExtensions| && EndsWithExtension(g, i)
  {
    var e := AudioExtensions[i];
    assert g[|g| - |e|..] == c[k..k + |e|];
  }
}

=== FILE: audit_log.dfy ===
/** The `audit_log` table, written by the runtime-config and voice-message
    tools and read by the mission-control queries. */
module AuditLog {
  import opened Base

  /** One row of `audit_log`. The `diff` column is NULL when the writer leaves
      it out, and otherwise holds a JSON document. */
  datatype AuditRow = AuditRow(
    id: string,
    actorId: string,
    action: string,
    resource: string,
    diff: Option<JsonValue>,
    status: string,
    createdAt: int)
}

=== FILE: base.dfy ===
/** Shared vocabulary: optional values, failures, JavaScript truthiness of
    optional strings, and an abstract JSON value for payloads the tools pass
    through without inspecting. */
module Base {

  /** A value that may be absent (`undefined` or `null` in the source). */
  datatype Option<+T> = None | Some(value: T) {
    function GetOr(default: T): T {
      match this
      case Some(v) => v
      case None => default
    }
  }

  /** The outcome of a step that may throw: the thrown error's message, or a value. */
  datatype Result<+T> = Ok(value: T) | Err(error: string)

  /** An optional string is truthy in JavaScript when present and non-empty. */
  predicate Truthy(s: Option<string>) {
    s.Some? && s.value != ""
  }

  /** `a || b` for an optional string `a` and a string fallback `b`. */
  function OrElse(a: Option<string>, b: string): (r: string)
    ensures Truthy(a) ==> r == a.value
    ensures !Truthy(a) ==> r == b
  {
    if a.Some? && a.value != "" then a.value else b
  }

  /** How a template literal renders an optional string: an absent value prints as "undefined". */
  function Show(s: Option<string>): string {
    match s
    case Some(v) => v
    case None => "undefined"
  }

  /** A JSON value, for tool arguments the tools forward without looking inside. */
  datatype JsonValue =
    | JNull
    | JBool(b: bool)
    | JNumber(n: real)
    | JString(s: string)
    | JArray(items: seq<JsonValue>)
    | JObject(fields: map<string, JsonValue>)
}

=== FILE: goal_decomposition.dfy ===
/** Goal decomposition (src/hive/goal-decomposition.ts): turning the
    reasoning service's reply into a task graph, and greedy topological
    batching of that graph into execution tiers. */
module GoalDecomposition {
  import opened Base
  import opened Strings
  import opened Seqs

  datatype Status = Pending | Active | Completed | Failed

  datatype SubTask = SubTask(
    id: string,
    title: string,
    description: string,
    dependencies: seq<string>,
    assignedTo: Option<string>,
    status: Status)

  datatype TaskGraph = TaskGraph(goal: string, tasks: seq<SubTask>)

  // ---------------------------------------------------------------------
  // decompose: the request, and everything after the gateway reply
  // ---------------------------------------------------------------------

  /** The request `decompose` sends through the gateway. */
  datatype AgentRequest = AgentRequest(
    rpc: string,
    message: string,
    lane: string,
    deliver: bool,
    timeout: int,
    timeoutMs: int)

  /** One element of the parsed `tasks` array; `status` is whatever the reply said, if anything. */
  datatype RawTask = RawTask(
    id: string,
    title: string,
    description: string,
    dependencies: seq<string>,
    assignedTo: Option<string>,
    status: Option<string>)

  /** The `tasks` property of the parsed document: falsy (absent, null, ...),
      an array, or a truthy non-array (on which `.map` throws). */
  datatype TasksField = TasksFalsy | TasksArray(items: seq<RawTask>) | TasksNotArray

  /** What `JSON.parse` produced: it threw, it produced `null` (property access
      throws), or some other value whose `goal` and `tasks` properties are read. */
  datatype ParsedDoc =
    | ParseError(message: string)
    | NullDoc
    | Document(goal: Option<string>, tasks: TasksField)

  const JsonFence: string := "```json"
  const Fence: string := "```"
  const EmptyObjectText: string := "{}"

  const PromptHead: string := "Decompose the following goal into a list of sub-tasks with dependencies.\nGoal: "

  const PromptSchemaHead: string := "\n\nReturn a JSON object with this structure:\n{\n  \"goal\": \""
  const PromptSchemaTail: string :=
    "\",\n  \"tasks\": [\n    { \"id\": \"task-id\", \"title\": \"...\", \"description\": \"...\", \"dependencies\": [\"other-task-id\"] }\n  ]\n}\nRespond ONLY with JSON."

  function PromptTail(goal: string): string {
    PromptSchemaHead + goal + PromptSchemaTail
  }

  /** The agent request `decompose` issues: the goal embedded in the prompt,
      on the main lane, not delivered, with a 60 second call deadline. */
  function DecomposeRequest(goal: string): (r: AgentRequest)
    ensures r.rpc == "agent" && r.lane == "main" && !r.deliver
    ensures r.timeout == 30 && r.timeoutMs == 60000
    ensures OccursAt(goal, r.message, |PromptHead|)
  {
    OccursBetween(PromptHead, goal, PromptTail(goal));
    AgentRequest("agent", PromptHead + goal + PromptTail(goal), "main", false, 30, 60000)
  }

  lemma OccursBetween(head: string, s: string, tail: string)
    ensures OccursAt(s, head + s + tail, |head|)
  {
    assert (head + s + tail)[|head|..|head| + |s|] == s;
  }

  /** `text.replace(/```json|```/g, "")`: scanning left to right, a "```json"
      is removed in preference to a bare "```". */
  function StripFences(s: string): string
    decreases |s|
  {
    if IsPrefix(JsonFence, s) then StripFences(s[|JsonFence|..])
    else if IsPrefix(Fence, s) then StripFences(s[|Fence|..])
    else if s == [] then []
    else [s[0]] + StripFences(s[1..])
  }

  lemma {:induction false} StripFencesHead(t: string)
    requires StripFences(t) != [] && StripFences(t)[0] == '`'
    ensures t != [] && t[0] == '`'
    decreases |t|
  {
    if IsPrefix(JsonFence, t) {
      assert t[0] == JsonFence[0];
    } else if IsPrefix(Fence, t) {
      assert t[0] == Fence[0];
    } else {
      assert t != [];
    }
  }

  lemma {:induction false} StripFencesTwoTicks(t: string)
    requires |StripFences(t)| >= 2 && StripFences(t)[..2] == "``"
    ensures IsPrefix("``", t)
    decreases |t|
  {
    if IsPrefix(JsonFence, t) {
      assert t[..2] == JsonFence[..2];
    } else if IsPrefix(Fence, t) {
      assert t[..2] == Fence[..2];
    } else {
      var rest := StripFences(t[1..]);
      assert StripFences(t) == [t[0]] + rest;
      assert StripFences(t)[1] == '`';
      assert rest != [] && rest[0] == '`';
      StripFencesHead(t[1..]);
      assert t[..2] == [t[0], t[1]];
    }
  }

  /** After stripping, no fence marker is left anywhere in the text, even
      where a removal brought back-ticks on both sides together. */
  /** A surviving back-tick followed by two more would have started a fence. */
  lemma NoFenceAcrossHead(s: string)
    requires s != [] && !IsPrefix(Fence, s) && !IsPrefix(JsonFence, s)
    ensures !OccursAt(Fence, [s[0]] + StripFences(s[1..]), 0)
  {
    var rest := StripFences(s[1..]);
    var r := [s[0]] + rest;
    if OccursAt(Fence, r, 0) {
      assert r[0] == '`' && r[1] == '`' && r[2] == '`';
      assert rest[..2] == "``";
      StripFencesTwoTicks(s[1..]);
      assert false;
    }
  }

  /** After stripping, no fence marker is left anywhere in the text, even
      where a removal brought back-ticks on both sides together. */
  lemma {:induction false} StripFencesLeavesNoFence(s: string)
    ensures !IsInfix(Fence, StripFences(s))
    decreases |s|
  {
    if IsPrefix(JsonFence, s) {
      StripFencesLeavesNoFence(s[|JsonFence|..]);
    } else if IsPrefix(Fence, s) {
      StripFencesLeavesNoFence(s[|Fence|..]);
    } else if s != [] {
      var rest := StripFences(s[1..]);
      StripFencesLeavesNoFence(s[1..]);
      var r := [s[0]] + rest;
      assert StripFences(s) == r;
      NoFenceAcrossHead(s);
      forall i | 1 <= i <= |r| - |Fence|
        ensures !OccursAt(Fence, r, i)
      {
        assert r[i..i + 3] == rest[i - 1..i + 2];
        assert !OccursAt(Fence, rest, i - 1);
      }
    }
  }

  /** Text with no fence marker passes through unchanged. */
  lemma {:induction false} StripFencesIdentity(s: string)
    requires !IsInfix(Fence, s)
    ensures StripFences(s) == s
    decreases |s|
  {
    if s != [] {
      assert !IsPrefix(Fence, s) by {
        if IsPrefix(Fence, s) { assert OccursAt(Fence, s, 0); }
      }
      assert !IsPrefix(JsonFence, s);
      assert !IsInfix(Fence, s[1..]) by {
        if IsInfix(Fence, s[1..]) {
          var i :| 0 <= i <= |s[1..]| - |Fence| && OccursAt(Fence, s[1..], i);
          assert s[1..][i..i + 3] == s[i + 1..i + 4];
          assert OccursAt(Fence, s, i + 1);
        }
      }
      StripFencesIdentity(s[1..]);
      assert s == [s[0]] + s[1..];
    }
  }

  /** Stripping fences twice is the same as once. */
  lemma StripFencesIdempotent(s: string)
    ensures StripFences(StripFences(s)) == StripFences(s)
  {
    StripFencesLeavesNoFence(s);
    StripFencesIdentity(StripFences(s));
  }

  lemma TrimmedReplyHasNoFence(t: string)
    ensures !IsInfix(Fence, Trim(StripFences(t)))
  {
    StripFencesLeavesNoFence(t);
    if IsInfix(Fence, Trim(StripFences(t))) {
      InfixOfTrim(Fence, StripFences(t));
    }
  }

  /** `response?.text?.replace(...).trim()`, with a missing text or an empty
      result replaced by "{}" as `jsonText || "{}"` does. */
  function ParserInput(text: Option<string>): (r: string)
    ensures r != ""
    ensures text.Some? ==> !IsInfix(Fence, r)
  {
    match text
    case None => EmptyObjectText
    case Some(t) =>
      var j := Trim(StripFences(t));
      TrimmedReplyHasNoFence(t);
      if j == "" then EmptyObjectText else j
  }

  /** `{ ...t, status: "pending" }`. */
  function AsPending(t: RawTask): (r: SubTask)
    ensures r.status == Pending
    ensures r.id == t.id && r.title == t.title && r.description == t.description
    ensures r.dependencies == t.dependencies && r.assignedTo == t.assignedTo
  {
    SubTask(t.id, t.title, t.description, t.dependencies, t.assignedTo, Pending)
  }

  function AllPending(items: seq<RawTask>): (r: seq<SubTask>)
    ensures |r| == |items|
    ensures forall i :: 0 <= i < |items| ==> r[i] == AsPending(items[i])
  {
    if items == [] then [] else [AsPending(items[0])] + AllPending(items[1..])
  }

  /** The graph built from a parsed document, or the fail-soft `{goal, tasks: []}`
      when reading the document throws. */
  function GraphOf(goal: string, doc: ParsedDoc): TaskGraph {
    match doc
    case ParseError(_) => TaskGraph(goal, [])
    case NullDoc => TaskGraph(goal, [])
    case Document(g, TasksNotArray) => TaskGraph(goal, [])
    case Document(g, TasksFalsy) => TaskGraph(OrElse(g, goal), [])
    case Document(g, TasksArray(items)) => TaskGraph(OrElse(g, goal), AllPending(items))
  }

  /** `decompose` after the prompt is sent: a gateway failure propagates (the
      call sits outside the `try`); otherwise the reply is unfenced, trimmed,
      parsed, and turned into a graph whose tasks are all pending. */
  function Decompose(goal: string, reply: Result<Option<string>>, parse: string -> ParsedDoc): (r: Result<TaskGraph>)
    requires parse(EmptyObjectText) == Document(None, TasksFalsy)
    ensures reply.Err? ==> r == Err(reply.error)
    ensures reply.Ok? ==> r.Ok?
    ensures r.Ok? ==> forall i :: 0 <= i < |r.value.tasks| ==> r.value.tasks[i].status == Pending
    ensures reply.Ok? ==>
      var doc := parse(ParserInput(reply.value));
      && (doc.Document? && !doc.tasks.TasksNotArray? && Truthy(doc.goal) ==> r.value.goal == doc.goal.value)
      && (!(doc.Document? && !doc.tasks.TasksNotArray? && Truthy(doc.goal)) ==> r.value.goal == goal)
      && (!(doc.Document? && doc.tasks.TasksArray?) ==> r.value.tasks == [])
      && (doc.Document? && doc.tasks.TasksArray? ==>
            |r.value.tasks| == |doc.tasks.items|
            && forall i :: 0 <= i < |r.value.tasks| ==>
                 r.value.tasks[i].id == doc.tasks.items[i].id
                 && r.value.tasks[i].dependencies == doc.tasks.items[i].dependencies)
  {
    match reply
    case Err(e) => Err(e)
    case Ok(text) => Ok(GraphOf(goal, parse(ParserInput(text))))
  }

  /** A reply with no text, or with nothing but fences and white space, parses
      as "{}" and yields the input goal with no tasks. */
  lemma EmptyReplyGivesNoTasks(goal: string, text: Option<string>, parse: string -> ParsedDoc)
    requires parse(EmptyObjectText) == Document(None, TasksFalsy)
    requires text.None? || Trim(StripFences(text.value)) == ""
    ensures Decompose(goal, Ok(text), parse) == Ok(TaskGraph(goal, []))
  {
  }

  /** Whatever the reply, a parser failure yields exactly `{goal, tasks: []}`. */
  lemma ParseFailureGivesEmptyGraph(goal: string, text: Option<string>, parse: string -> ParsedDoc)
    requires parse(EmptyObjectText) == Document(None, TasksFalsy)
    requires parse(ParserInput(text)).ParseError?
    ensures Decompose(goal, Ok(text), parse) == Ok(TaskGraph(goal, []))
  {
  }

  // ---------------------------------------------------------------------
  // resolveExecutionOrder
  // ---------------------------------------------------------------------

  /** Every dependency of `t` is already scheduled. */
  predicate Ready(t: SubTask, done: set<string>) {
    forall d :: d in t.dependencies ==> d in done
  }

  function Ids(ts: seq<SubTask>): set<string> {
    set t | t in ts :: t.id
  }

  /** `remaining.filter(t => t.dependencies.every(d => completed.has(d)))`. */
  function ReadyTasks(ts: seq<SubTask>, done: set<string>): (r: seq<SubTask>)
    ensures |r| <= |ts|
    ensures forall t :: t in r ==> t in ts && Ready(t, done)
    ensures forall t :: t in ts && Ready(t, done) ==> t in r
  {
    if ts == [] then []
    else (if Ready(ts[0], done) then [ts[0]] else []) + ReadyTasks(ts[1..], done)
  }

  /** `remaining.filter(t => !completed.has(t.id))`. */
  function Unscheduled(ts: seq<SubTask>, done: set<string>): (r: seq<SubTask>)
    ensures |r| <= |ts|
    ensures forall t :: t in r <==> t in ts && t.id !in done
  {
    if ts == [] then []
    else (if ts[0].id !in done then [ts[0]] else []) + Unscheduled(ts[1..], done)
  }

  lemma {:induction false} UnscheduledShrinks(ts: seq<SubTask>, done: set<string>, t: SubTask)
    requires t in ts && t.id in done
    ensures |Unscheduled(ts, done)| < |ts|
    decreases |ts|
  {
    if ts[0] != t {
      assert t in ts[1..];
      UnscheduledShrinks(ts[1..], done, t);
    }
  }

  /** One loop iteration's tier: the not yet scheduled tasks whose dependencies are all scheduled. */
  function NextTier(ts: seq<SubTask>, done: set<string>): seq<SubTask> {
    ReadyTasks(Unscheduled(ts, done), done)
  }

  /** The loop of `resolveExecutionOrder` from a given `remaining` and `completed`. */
  function ResolveFrom(remaining: seq<SubTask>, done: set<string>): seq<seq<SubTask>>
    decreases |remaining|
  {
    if |remaining| == 0 then []
    else
      var tier := ReadyTasks(remaining, done);
      if |tier| == 0 then []
      else
        var done' := done + Ids(tier);
        UnscheduledShrinks(remaining, done', tier[0]);
        [tier] + ResolveFrom(Unscheduled(remaining, done'), done')
  }

  /** One round of the resolver, as an equation. */
  lemma ResolveStep(remaining: seq<SubTask>, done: set<string>, tier: seq<SubTask>, done': set<string>)
    requires |remaining| > 0 && ReadyTasks(remaining, done) == tier && |tier| > 0 && done' == done + Ids(tier)
    ensures ResolveFrom(remaining, done) == [tier] + ResolveFrom(Unscheduled(remaining, done'), done')
  {
  }

  /** The loop ends when nothing is left or nothing is ready. */
  lemma LoopDone(remaining: seq<SubTask>, done: set<string>)
    requires |remaining| == 0 || |ReadyTasks(remaining, done)| == 0
    ensures ResolveFrom(remaining, done) == []
  {
  }

  function Tiers(tasks: seq<SubTask>): seq<seq<SubTask>> {
    ResolveFrom(tasks, {})
  }

  /** The ids of the tasks in the first `n` tiers. */
  function ScheduledBefore(tiers: seq<seq<SubTask>>, n: nat): set<string>
    requires n <= |tiers|
  {
    if n == 0 then {} else Ids(tiers[0]) + ScheduledBefore(tiers[1..], n - 1)
  }

  /** The tiers of `tasks` are well formed: non-empty, each one exactly the next
      ready batch (so a subsequence of `tasks` whose dependencies are all
      in earlier tiers), and the resolver stopped either with nothing left or
      with nothing ready. */
  ghost predicate TiersFit(tasks: seq<SubTask>, tiers: seq<seq<SubTask>>) {
    && (forall i :: 0 <= i < |tiers| ==>
          |tiers[i]| > 0 && tiers[i] == NextTier(tasks, ScheduledBefore(tiers, i)))
    && var done := ScheduledBefore(tiers, |tiers|);
       Unscheduled(tasks, done) == [] || NextTier(tasks, done) == []
  }

  lemma {:induction false} UnscheduledTwice(ts: seq<SubTask>, d1: set<string>, d2: set<string>)
    requires d1 <= d2
    ensures Unscheduled(Unscheduled(ts, d1), d2) == Unscheduled(ts, d2)
    decreases |ts|
  {
    if ts != [] {
      UnscheduledTwice(ts[1..], d1, d2);
      var u1 := Unscheduled(ts, d1);
      if ts[0].id in d1 {
        assert u1 == Unscheduled(ts[1..], d1);
      } else {
        assert u1 == [ts[0]] + Unscheduled(ts[1..], d1);
        assert u1[1..] == Unscheduled(ts[1..], d1);
      }
    }
  }

  lemma {:induction false} UnscheduledNone(ts: seq<SubTask>)
    ensures Unscheduled(ts, {}) == ts
    decreases |ts|
  {
    if ts != [] {
      UnscheduledNone(ts[1..]);
      assert ts == [ts[0]] + ts[1..];
    }
  }

  /** The tiers `r`, computed from the scheduled set `done`, are each the next
      ready batch, and after them nothing is left or nothing is ready. */
  ghost predicate ShapeFrom(ts: seq<SubTask>, done: set<string>, r: seq<seq<SubTask>>) {
    && (forall i :: 0 <= i < |r| ==>
          |r[i]| > 0 && r[i] == NextTier(ts, done + ScheduledBefore(r, i)))
    && var fin := done + ScheduledBefore(r, |r|);
       Unscheduled(ts, fin) == [] || NextTier(ts, fin) == []
  }

  lemma ShapeCons(ts: seq<SubTask>, done: set<string>, tier: seq<SubTask>, r': seq<seq<SubTask>>)
    requires |tier| > 0 && tier == NextTier(ts, done)
    requires ShapeFrom(ts, done + Ids(tier), r')
    ensures ShapeFrom(ts, done, [tier] + r')
  {
    var r := [tier] + r';
    forall i | 0 <= i < |r|
      ensures |r[i]| > 0 && r[i] == NextTier(ts, done + ScheduledBefore(r, i))
    {
      if i == 0 {
        assert done + ScheduledBefore(r, 0) == done;
      } else {
        ScheduledBeforeCons(tier, r', i - 1);
        assert done + ScheduledBefore(r, i) == (done + Ids(tier)) + ScheduledBefore(r', i - 1);
        assert r[i] == r'[i - 1];
      }
    }
    ScheduledBeforeCons(tier, r', |r'|);
    assert done + ScheduledBefore(r, |r|) == (done + Ids(tier)) + ScheduledBefore(r', |r'|);
  }

  lemma ScheduledBeforeCons(tier: seq<SubTask>, r': seq<seq<SubTask>>, i: nat)
    requires i <= |r'|
    ensures ScheduledBefore([tier] + r', i + 1) == Ids(tier) + ScheduledBefore(r', i)
  {
    assert ([tier] + r')[1..] == r';
  }

  /** The shape of the loop from any state reached by the resolver. */
  lemma {:induction false} ResolveShape(ts: seq<SubTask>, done: set<string>)
    ensures ShapeFrom(ts, done, ResolveFrom(Unscheduled(ts, done), done))
    decreases |Unscheduled(ts, done)|
  {
    var rem := Unscheduled(ts, done);
    var tier := ReadyTasks(rem, done);
    if |rem| == 0 || |tier| == 0 {
      assert ResolveFrom(rem, done) == [];
      assert done + ScheduledBefore([], 0) == done;
    } else {
      var done' := done + Ids(tier);
      UnscheduledShrinks(rem, done', tier[0]);
      UnscheduledTwice(ts, done, done');
      assert ResolveFrom(rem, done) == [tier] + ResolveFrom(Unscheduled(ts, done'), done');
      ResolveShape(ts, done');
      ShapeCons(ts, done, tier, ResolveFrom(Unscheduled(ts, done'), done'));
    }
  }

  /** The resolver's tiers are always well formed. */
  lemma TiersAreWellFormed(tasks: seq<SubTask>)
    ensures TiersFit(tasks, Tiers(tasks))
  {
    UnscheduledNone(tasks);
    ResolveShape(tasks, {});
    var r := Tiers(tasks);
    forall i | 0 <= i <= |r|
      ensures {} + ScheduledBefore(r, i) == ScheduledBefore(r, i)
    {
    }
    assert ShapeFrom(tasks, {}, r);
  }

  /** `resolveExecutionOrder`: greedy topological batching that stops at the
      first iteration that can schedule nothing. */
  method ResolveExecutionOrder(graph: TaskGraph) returns (tiers: seq<seq<SubTask>>)
    ensures tiers == Tiers(graph.tasks)
    ensures TiersFit(graph.tasks, tiers)
  {
    tiers := [];
    var completed: set<string> := {};
    var remaining := graph.tasks;
    while |remaining| > 0
      invariant tiers + ResolveFrom(remaining, completed) == Tiers(graph.tasks)
      decreases |remaining|
    {
      var currentTier := ReadyTasks(remaining, completed);
      if |currentTier| == 0 {
        break;
      }
      var completed' := completed + Ids(currentTier);
      UnscheduledShrinks(remaining, completed', currentTier[0]);
      var remaining' := Unscheduled(remaining, completed');
      ResolveStep(remaining, completed, currentTier, completed');
      var later := ResolveFrom(remaining', completed');
      assert (tiers + [currentTier]) + later == tiers + ([currentTier] + later);
      tiers := tiers + [currentTier];
      completed := completed';
      remaining := remaining';
    }
    LoopDone(remaining, completed);
    TiersAreWellFormed(graph.tasks);
  }

  // ---------------------------------------------------------------------
  // Properties of the tiers
  // ---------------------------------------------------------------------

  lemma {:induction false} ReadyTasksSubseq(ts: seq<SubTask>, done: set<string>)
    ensures IsSubseq(ReadyTasks(ts, done), ts)
    decreases |ts|
  {
    if ts != [] {
      ReadyTasksSubseq(ts[1..], done);
      var r := ReadyTasks(ts, done);
      if Ready(ts[0], done) {
        assert r == [ts[0]] + ReadyTasks(ts[1..], done);
        assert r[1..] == ReadyTasks(ts[1..], done);
      } else {
        assert r == ReadyTasks(ts[1..], done);
      }
    }
  }

  lemma {:induction false} UnscheduledSubseq(ts: seq<SubTask>, done: set<string>)
    ensures IsSubseq(Unscheduled(ts, done), ts)
    decreases |ts|
  {
    if ts != [] {
      UnscheduledSubseq(ts[1..], done);
      var r := Unscheduled(ts, done);
      if ts[0].id !in done {
        assert r == [ts[0]] + Unscheduled(ts[1..], done);
        assert r[1..] == Unscheduled(ts[1..], done);
      } else {
        assert r == Unscheduled(ts[1..], done);
      }
    }
  }

  /** Each tier is non-empty and lists tasks of the graph in the graph's own order. */
  lemma TiersKeepGraphOrder(tasks: seq<SubTask>)
    ensures forall i :: 0 <= i < |Tiers(tasks)| ==> |Tiers(tasks)[i]| > 0
    ensures forall i :: 0 <= i < |Tiers(tasks)| ==> IsSubseq(Tiers(tasks)[i], tasks)
    ensures forall i, t :: 0 <= i < |Tiers(tasks)| && t in Tiers(tasks)[i] ==> t in tasks
  {
    var tiers := Tiers(tasks);
    TiersAreWellFormed(tasks);
    forall i | 0 <= i < |tiers|
      ensures IsSubseq(tiers[i], tasks)
    {
      var done := ScheduledBefore(tiers, i);
      ReadyTasksSubseq(Unscheduled(tasks, done), done);
      UnscheduledSubseq(tasks, done);
      SubseqTrans(tiers[i], Unscheduled(tasks, done), tasks);
    }
  }

  /** Every task in tier `i` has all its dependencies among the ids of tiers `0..i-1`. */
  lemma TiersRespectDependencies(tasks: seq<SubTask>)
    ensures forall i, t :: 0 <= i < |Tiers(tasks)| && t in Tiers(tasks)[i] ==>
              Ready(t, ScheduledBefore(Tiers(tasks), i))
  {
    TiersAreWellFormed(tasks);
  }

  lemma {:induction false} ScheduledBeforeHas(tiers: seq<seq<SubTask>>, i: nat, j: nat)
    requires i < j <= |tiers|
    ensures Ids(tiers[i]) <= ScheduledBefore(tiers, j)
    decreases i
  {
    if i > 0 {
      ScheduledBeforeHas(tiers[1..], i - 1, j - 1);
    }
  }

  /** No id is scheduled in two tiers. */
  lemma TiersDisjoint(tasks: seq<SubTask>)
    ensures forall i, j, t :: 0 <= i < j < |Tiers(tasks)| && t in Tiers(tasks)[j] ==>
              t.id !in Ids(Tiers(tasks)[i])
  {
    var tiers := Tiers(tasks);
    TiersAreWellFormed(tasks);
    forall i, j, t: SubTask | 0 <= i < j < |tiers| && t in tiers[j]
      ensures t.id !in Ids(tiers[i])
    {
      ScheduledBeforeHas(tiers, i, j);
    }
  }

  /** Every dependency names a task of the graph. */
  ghost predicate DepsExist(tasks: seq<SubTask>) {
    forall t, d :: t in tasks && d in t.dependencies ==> d in Ids(tasks)
  }

  /** `rank` strictly decreases along every dependency edge: the graph has no cycle. */
  ghost predicate Ranked(tasks: seq<SubTask>, rank: string -> nat) {
    forall t, d :: t in tasks && d in t.dependencies ==> rank(d) < rank(t.id)
  }

  predicate UniqueIds(tasks: seq<SubTask>) {
    forall i, j :: 0 <= i < j < |tasks| ==> tasks[i].id != tasks[j].id
  }

  /** The ids scheduled by all the tiers. */
  function AllScheduled(tiers: seq<seq<SubTask>>): set<string> {
    ScheduledBefore(tiers, |tiers|)
  }

  lemma {:induction false} MinRanked(ts: seq<SubTask>, rank: string -> nat) returns (m: SubTask)
    requires ts != []
    ensures m in ts && forall u :: u in ts ==> rank(m.id) <= rank(u.id)
    decreases |ts|
  {
    if |ts| == 1 {
      m := ts[0];
    } else {
      var m' := MinRanked(ts[1..], rank);
      m := if rank(ts[0].id) <= rank(m'.id) then ts[0] else m';
      forall u | u in ts
        ensures rank(m.id) <= rank(u.id)
      {
        if u != ts[0] { assert u in ts[1..]; }
      }
    }
  }

  lemma {:induction false} ScheduledBeforeWitness(tiers: seq<seq<SubTask>>, n: nat, x: string) returns (i: nat)
    requires n <= |tiers| && x in ScheduledBefore(tiers, n)
    ensures i < n && x in Ids(tiers[i])
    decreases n
  {
    if x in Ids(tiers[0]) {
      i := 0;
    } else {
      var k := ScheduledBeforeWitness(tiers[1..], n - 1, x);
      i := k + 1;
    }
  }

  /** In an acyclic graph whose dependencies all exist, whatever is left
      unscheduled always contains a task that is ready. */
  lemma AcyclicRemainderHasReadyTask(tasks: seq<SubTask>, rank: string -> nat, done: set<string>)
    requires DepsExist(tasks) && Ranked(tasks, rank)
    ensures Unscheduled(tasks, done) == [] || NextTier(tasks, done) != []
  {
    var left := Unscheduled(tasks, done);
    if left != [] {
      var m := MinRanked(left, rank);
      forall d | d in m.dependencies
        ensures d in done
      {
        assert d in Ids(tasks);
        var u :| u in tasks && u.id == d;
        if d !in done {
          assert false;
        }
      }
      assert m in NextTier(tasks, done);
    }
  }

  /** An acyclic graph whose dependencies all exist is scheduled in full:
      the resolver never stops at a cycle, and with unique ids every task
      appears in some tier. */
  lemma AcyclicGraphFullyScheduled(tasks: seq<SubTask>, rank: string -> nat)
    requires DepsExist(tasks) && Ranked(tasks, rank)
    ensures Unscheduled(tasks, AllScheduled(Tiers(tasks))) == []
    ensures UniqueIds(tasks) ==>
      forall t :: t in tasks ==> exists i :: 0 <= i < |Tiers(tasks)| && t in Tiers(tasks)[i]
  {
    var tiers := Tiers(tasks);
    var fin := AllScheduled(tiers);
    TiersAreWellFormed(tasks);
    TiersKeepGraphOrder(tasks);
    AcyclicRemainderHasReadyTask(tasks, rank, fin);
    if UniqueIds(tasks) {
      forall t | t in tasks
        ensures exists i :: 0 <= i < |tiers| && t in tiers[i]
      {
        assert t.id in fin;
        var i := ScheduledBeforeWitness(tiers, |tiers|, t.id);
        var u: SubTask :| u in tiers[i] && u.id == t.id;
        SameIdSameTask(tasks, u, t);
      }
    }
  }

  lemma SameIdSameTask(tasks: seq<SubTask>, u: SubTask, t: SubTask)
    requires UniqueIds(tasks) && u in tasks && t in tasks && u.id == t.id
    ensures u == t
  {
    var a :| 0 <= a < |tasks| && tasks[a] == u;
    var b :| 0 <= b < |tasks| && tasks[b] == t;
  }

  /** The index of the first tier scheduling `id`, or the number of tiers if none does. */
  function TierIndex(tiers: seq<seq<SubTask>>, id: string): (k: nat)
    ensures k <= |tiers|
    ensures k < |tiers| ==> id in Ids(tiers[k])
    ensures forall j :: 0 <= j < k ==> id !in Ids(tiers[j])
  {
    if tiers == [] then 0
    else if id in Ids(tiers[0]) then 0
    else 1 + TierIndex(tiers[1..], id)
  }

  /** The converse: if the resolver scheduled every task of a graph with unique
      ids, every dependency exists and the tier index ranks the graph, so the
      graph has no cycle. */
  lemma FullyScheduledGraphIsAcyclic(tasks: seq<SubTask>)
    requires UniqueIds(tasks)
    requires Unscheduled(tasks, AllScheduled(Tiers(tasks))) == []
    ensures DepsExist(tasks)
    ensures Ranked(tasks, id => TierIndex(Tiers(tasks), id))
  {
    var tiers := Tiers(tasks);
    var rank := id => TierIndex(tiers, id);
    TiersKeepGraphOrder(tasks);
    TiersRespectDependencies(tasks);
    forall t, d | t in tasks && d in t.dependencies
      ensures d in Ids(tasks) && rank(d) < rank(t.id)
    {
      assert t.id in AllScheduled(tiers);
      var i0 := ScheduledBeforeWitness(tiers, |tiers|, t.id);
      var k := TierIndex(tiers, t.id);
      assert k <= i0;
      var u: SubTask :| u in tiers[k] && u.id == t.id;
      SameIdSameTask(tasks, u, t);
      assert Ready(t, ScheduledBefore(tiers, k));
      var j := ScheduledBeforeWitness(tiers, k, d);
      assert TierIndex(tiers, d) <= j;
      var w: SubTask :| w in tiers[j] && w.id == d;
      assert w in tasks;
    }
  }

  const TaskA := SubTask("A", "", "", [], None, Pending)
  const TaskB := SubTask("B", "", "", ["A"], None, Pending)
  const TaskC := SubTask("C", "", "", ["A"], None, Pending)
  const TaskD := SubTask("D", "", "", ["B", "C"], None, Pending)

  lemma ExampleLastTier()
    ensures ResolveFrom([TaskD], {"A", "B", "C"}) == [[TaskD]]
  {
    var s2: set<string> := {"A", "B", "C"};
    assert Ready(TaskD, s2);
    assert ReadyTasks([TaskD], s2) == [TaskD];
    assert s2 + Ids([TaskD]) == {"A", "B", "C", "D"};
    assert Unscheduled([TaskD], {"A", "B", "C", "D"}) == [];
  }

  lemma ExampleSecondTier()
    ensures ReadyTasks([TaskB, TaskC, TaskD], {"A"}) == [TaskB, TaskC]
  {
    var s1: set<string> := {"A"};
    assert "B" in TaskD.dependencies;
    assert !Ready(TaskD, s1) && Ready(TaskB, s1) && Ready(TaskC, s1);
    assert [TaskB, TaskC, TaskD][1..] == [TaskC, TaskD] && [TaskC, TaskD][1..] == [TaskD];
    assert ReadyTasks([TaskD], s1) == [];
    assert ReadyTasks([TaskC, TaskD], s1) == [TaskC];
  }

  lemma ExampleAfterSecondTier()
    ensures Unscheduled([TaskB, TaskC, TaskD], {"A", "B", "C"}) == [TaskD]
  {
    assert [TaskB, TaskC, TaskD][1..] == [TaskC, TaskD] && [TaskC, TaskD][1..] == [TaskD];
    assert Unscheduled([TaskD], {"A", "B", "C"}) == [TaskD];
    assert Unscheduled([TaskC, TaskD], {"A", "B", "C"}) == [TaskD];
  }

  lemma ExampleMiddleTiers()
    ensures ResolveFrom([TaskB, TaskC, TaskD], {"A"}) == [[TaskB, TaskC], [TaskD]]
  {
    var s1: set<string> := {"A"};
    var s2: set<string> := {"A", "B", "C"};
    assert ResolveFrom([TaskB, TaskC, TaskD], s1) == [[TaskB, TaskC]] + ResolveFrom([TaskD], s2) by {
      ExampleSecondTier();
      assert s1 + Ids([TaskB, TaskC]) == s2;
      ExampleAfterSecondTier();
      ResolveStep([TaskB, TaskC, TaskD], s1, [TaskB, TaskC], s2);
    }
    ExampleLastTier();
  }

  lemma ExampleFirstTier()
    ensures ReadyTasks([TaskA, TaskB, TaskC, TaskD], {}) == [TaskA]
  {
    var ts := [TaskA, TaskB, TaskC, TaskD];
    assert "A" in TaskB.dependencies && "A" in TaskC.dependencies && "B" in TaskD.dependencies;
    assert ts[1..] == [TaskB, TaskC, TaskD];
    assert [TaskB, TaskC, TaskD][1..] == [TaskC, TaskD] && [TaskC, TaskD][1..] == [TaskD];
    assert ReadyTasks([TaskD], {}) == [];
    assert ReadyTasks([TaskC, TaskD], {}) == [];
    assert ReadyTasks([TaskB, TaskC, TaskD], {}) == [];
  }

  lemma ExampleAfterFirstTier()
    ensures Unscheduled([TaskA, TaskB, TaskC, TaskD], {"A"}) == [TaskB, TaskC, TaskD]
  {
    var ts := [TaskA, TaskB, TaskC, TaskD];
    var s1: set<string> := {"A"};
    assert ts[1..] == [TaskB, TaskC, TaskD];
    assert Unscheduled([TaskB, TaskC, TaskD], s1) == [TaskB, TaskC, TaskD] by {
      assert [TaskB, TaskC, TaskD][1..] == [TaskC, TaskD] && [TaskC, TaskD][1..] == [TaskD];
      assert "B" !in s1 && "C" !in s1 && "D" !in s1;
      assert Unscheduled([TaskD], s1) == [TaskD];
      assert Unscheduled([TaskC, TaskD], s1) == [TaskC, TaskD];
    }
  }

  /** The worked example: A; B and C after A; D after B and C gives the tiers [A], [B, C], [D]. */
  lemma ExampleTiers()
    ensures Tiers([TaskA, TaskB, TaskC, TaskD]) == [[TaskA], [TaskB, TaskC], [TaskD]]
  {
    var ts := [TaskA, TaskB, TaskC, TaskD];
    assert Tiers(ts) == [[TaskA]] + ResolveFrom([TaskB, TaskC, TaskD], {"A"}) by {
      var empty: set<string> := {};
      ExampleFirstTier();
      var d := empty + Ids([TaskA]);
      assert d == {"A"};
      ExampleAfterFirstTier();
      ResolveStep(ts, empty, [TaskA], d);
    }
    ExampleMiddleTiers();
  }
}

=== FILE: intelligence_extractor.dfy ===
/** Rule-based memory extraction (src/agents/intelligence-extractor.ts): an
    upsert into the `user_intelligence_memory` table keyed by user, category
    and key, whose confidence starts at 0.5 and grows by 0.1 up to 1. */
module IntelligenceExtractor {
  import opened Base
  import opened Strings

  datatype MemoryRow = MemoryRow(
    id: string,
    userId: string,
    category: string,
    key: string,
    value: string,
    confidence: real,
    source: string,
    lastObservedAt: int,
    createdAt: int,
    updatedAt: int)

  const InitialConfidence: real := 0.5
  const ConfidenceStep: real := 0.1
  const MaxConfidence: real := 1.0
  const ConversationSource: string := "conversation"

  predicate Matches(r: MemoryRow, userId: string, category: string, key: string) {
    r.userId == userId && r.category == category && r.key == key
  }

  /** `SELECT * ... WHERE user_id = ? AND category = ? AND key = ?` then `.get()`:
      the first matching row, if there is one. */
  function FindRow(rows: seq<MemoryRow>, userId: string, category: string, key: string): (r: Option<nat>)
    ensures r.Some? ==> r.value < |rows| && Matches(rows[r.value], userId, category, key)
    ensures r.Some? ==> forall j :: 0 <= j < r.value ==> !Matches(rows[j], userId, category, key)
    ensures r.None? ==> forall j :: 0 <= j < |rows| ==> !Matches(rows[j], userId, category, key)
  {
    if rows == [] then None
    else if Matches(rows[0], userId, category, key) then Some(0)
    else match FindRow(rows[1..], userId, category, key)
      case None => None
      case Some(k) => Some(k + 1)
  }

  function Min(a: real, b: real): real {
    if a <= b then a else b
  }

  /** `Math.min(1, old + 0.1)`. */
  function Raised(confidence: real): (c: real)
    ensures c <= MaxConfidence
    ensures confidence <= MaxConfidence ==> confidence <= c
    ensures confidence + ConfidenceStep <= MaxConfidence ==> c == confidence + ConfidenceStep
    ensures confidence + ConfidenceStep > MaxConfidence ==> c == MaxConfidence
  {
    Min(MaxConfidence, confidence + ConfidenceStep)
  }

  /** `UPDATE ... SET value, confidence_score, last_observed_at, updated_at WHERE id = ?`. */
  function UpdateWhereId(rows: seq<MemoryRow>, id: string, value: string, confidence: real, now: int): (r: seq<MemoryRow>)
    ensures |r| == |rows|
    ensures forall j :: 0 <= j < |rows| && rows[j].id != id ==> r[j] == rows[j]
    ensures forall j :: 0 <= j < |rows| && rows[j].id == id ==>
      r[j] == rows[j].(value := value, confidence := confidence, lastObservedAt := now, updatedAt := now)
  {
    seq(|rows|, j requires 0 <= j < |rows| =>
      if rows[j].id == id
      then rows[j].(value := value, confidence := confidence, lastObservedAt := now, updatedAt := now)
      else rows[j])
  }

  function NewRow(freshId: string, userId: string, category: string, key: string, value: string, now: int): MemoryRow {
    MemoryRow(freshId, userId, category, key, value, InitialConfidence, ConversationSource, now, now, now)
  }

  /** `upsertMemory`, with the fresh UUID and the clock passed in. */
  function Upsert(rows: seq<MemoryRow>, userId: string, category: string, key: string, value: string,
                  now: int, freshId: string): seq<MemoryRow>
  {
    match FindRow(rows, userId, category, key)
    case Some(i) => UpdateWhereId(rows, rows[i].id, value, Raised(rows[i].confidence), now)
    case None => rows + [NewRow(freshId, userId, category, key, value, now)]
  }

  predicate UniqueIds(rows: seq<MemoryRow>) {
    forall i, j :: 0 <= i < j < |rows| ==> rows[i].id != rows[j].id
  }

  predicate UniqueTriples(rows: seq<MemoryRow>) {
    forall i, j :: 0 <= i < j < |rows| ==>
      !Matches(rows[j], rows[i].userId, rows[i].category, rows[i].key)
  }

  /** The table invariant the upsert keeps: no two rows share an id or a (user, category, key). */
  predicate WellFormed(rows: seq<MemoryRow>) {
    UniqueIds(rows) && UniqueTriples(rows)
  }

  predicate ConfidenceInRange(rows: seq<MemoryRow>) {
    forall i :: 0 <= i < |rows| ==> InitialConfidence <= rows[i].confidence <= MaxConfidence
  }

  predicate FreshId(rows: seq<MemoryRow>, id: string) {
    forall i :: 0 <= i < |rows| ==> rows[i].id != id
  }

  /** Upserting an absent triple appends exactly one row, at the baseline
      confidence, from the conversation source, observed, created and updated now. */
  lemma UpsertInsertsWhenAbsent(rows: seq<MemoryRow>, userId: string, category: string, key: string,
                                value: string, now: int, freshId: string)
    requires FindRow(rows, userId, category, key).None?
    ensures Upsert(rows, userId, category, key, value, now, freshId)
         == rows + [MemoryRow(freshId, userId, category, key, value, 0.5, "conversation", now, now, now)]
  {
  }

  /** Upserting a present triple (in a table with unique ids) overwrites the
      value, raises the confidence by 0.1 capped at 1, stamps the observation
      and update times, and leaves every other row as it was: no row is added. */
  lemma UpsertUpdatesWhenPresent(rows: seq<MemoryRow>, userId: string, category: string, key: string,
                                 value: string, now: int, freshId: string, i: nat)
    requires UniqueIds(rows)
    requires i < |rows| && Matches(rows[i], userId, category, key)
    requires UniqueTriples(rows)
    ensures var r := Upsert(rows, userId, category, key, value, now, freshId);
      && |r| == |rows|
      && r[i] == rows[i].(value := value, confidence := Min(1.0, rows[i].confidence + 0.1),
                          lastObservedAt := now, updatedAt := now)
      && forall j :: 0 <= j < |rows| && j != i ==> r[j] == rows[j]
  {
    var f := FindRow(rows, userId, category, key);
    assert f.Some?;
    if f.value != i {
      assert false;
    }
  }

  /** An upsert never touches a row of another (user, category, key). */
  lemma UpsertTouchesOnlyItsTriple(rows: seq<MemoryRow>, userId: string, category: string, key: string,
                                   value: string, now: int, freshId: string)
    requires UniqueIds(rows)
    ensures var r := Upsert(rows, userId, category, key, value, now, freshId);
      forall j :: 0 <= j < |rows| && !Matches(rows[j], userId, category, key) ==> r[j] == rows[j]
  {
    var f := FindRow(rows, userId, category, key);
    if f.Some? {
      var r := Upsert(rows, userId, category, key, value, now, freshId);
      forall j | 0 <= j < |rows| && !Matches(rows[j], userId, category, key)
        ensures r[j] == rows[j]
      {
        assert j != f.value;
      }
    }
  }

  /** The upsert keeps ids and triples unique, given a fresh id for an insert. */
  lemma UpsertKeepsWellFormed(rows: seq<MemoryRow>, userId: string, category: string, key: string,
                              value: string, now: int, freshId: string)
    requires WellFormed(rows) && FreshId(rows, freshId)
    ensures WellFormed(Upsert(rows, userId, category, key, value, now, freshId))
  {
    var r := Upsert(rows, userId, category, key, value, now, freshId);
    var f := FindRow(rows, userId, category, key);
    if f.Some? {
      forall j | 0 <= j < |rows|
        ensures r[j].id == rows[j].id && r[j].userId == rows[j].userId
        ensures r[j].category == rows[j].category && r[j].key == rows[j].key
      {
      }
    } else {
      assert r == rows + [NewRow(freshId, userId, category, key, value, now)];
    }
  }

  /** Confidence stays within [0.5, 1] across upserts. */
  lemma UpsertKeepsConfidenceInRange(rows: seq<MemoryRow>, userId: string, category: string, key: string,
                                     value: string, now: int, freshId: string)
    requires ConfidenceInRange(rows)
    ensures ConfidenceInRange(Upsert(rows, userId, category, key, value, now, freshId))
  {
    var f := FindRow(rows, userId, category, key);
    if f.Some? {
      var c := Raised(rows[f.value].confidence);
      assert InitialConfidence <= c <= MaxConfidence;
    }
  }

  /** After an upsert the triple is present with the new value, and its
      confidence did not decrease and is at most 1. */
  lemma UpsertThenFind(rows: seq<MemoryRow>, userId: string, category: string, key: string,
                       value: string, now: int, freshId: string)
    requires WellFormed(rows) && ConfidenceInRange(rows)
    ensures var r := Upsert(rows, userId, category, key, value, now, freshId);
      var f := FindRow(r, userId, category, key);
      && f.Some?
      && r[f.value].value == value
      && r[f.value].confidence <= MaxConfidence
      && (FindRow(rows, userId, category, key).Some? ==>
            rows[FindRow(rows, userId, category, key).value].confidence <= r[f.value].confidence)
  {
    var r := Upsert(rows, userId, category, key, value, now, freshId);
    var f0 := FindRow(rows, userId, category, key);
    if f0.Some? {
      var i := f0.value;
      UpsertUpdatesWhenPresent(rows, userId, category, key, value, now, freshId, i);
      assert Matches(r[i], userId, category, key);
      var f := FindRow(r, userId, category, key);
      assert f.value == i;
    } else {
      var n := |rows|;
      assert r[n] == NewRow(freshId, userId, category, key, value, now);
      var f := FindRow(r, userId, category, key);
      assert f.value == n;
    }
  }

  const ConcisePhrase: string := "i like concise"
  const MorningPhrase: string := "every morning"

  /** `IntelligenceExtractor.extract`: each phrase found in the lower-cased
      message triggers one upsert, the preference first. */
  function Extract(rows: seq<MemoryRow>, userId: string, message: string,
                   now1: int, id1: string, now2: int, id2: string): seq<MemoryRow>
  {
    var lower := Lower(message);
    var afterPreference :=
      if IsInfix(ConcisePhrase, lower)
      then Upsert(rows, userId, "preference", "response_style", "concise", now1, id1)
      else rows;
    if IsInfix(MorningPhrase, lower)
    then Upsert(afterPreference, userId, "habit", "morning_routine", "active", now2, id2)
    else afterPreference
  }

  /** A message with neither phrase leaves the table unchanged. */
  lemma ExtractWithoutPhrasesIsNoOp(rows: seq<MemoryRow>, userId: string, message: string,
                                    now1: int, id1: string, now2: int, id2: string)
    requires !IsInfix(ConcisePhrase, Lower(message)) && !IsInfix(MorningPhrase, Lower(message))
    ensures Extract(rows, userId, message, now1, id1, now2, id2) == rows
  {
  }

  /** "i like concise" records the concise response style, and "every morning"
      the active morning routine, for the user; the table stays well formed. */
  lemma ExtractRecordsPhrases(rows: seq<MemoryRow>, userId: string, message: string,
                              now1: int, id1: string, now2: int, id2: string)
    requires WellFormed(rows) && ConfidenceInRange(rows)
    requires FreshId(rows, id1) && FreshId(rows, id2) && id1 != id2
    ensures var r := Extract(rows, userId, message, now1, id1, now2, id2);
      && WellFormed(r) && ConfidenceInRange(r)
      && (IsInfix(ConcisePhrase, Lower(message)) ==>
            var f := FindRow(r, userId, "preference", "response_style");
            f.Some? && r[f.value].value == "concise")
      && (IsInfix(MorningPhrase, Lower(message)) ==>
            var f := FindRow(r, userId, "habit", "morning_routine");
            f.Some? && r[f.value].value == "active")
  {
    var lower := Lower(message);
    var r1 := if IsInfix(ConcisePhrase, lower)
      then Upsert(rows, userId, "preference", "response_style", "concise", now1, id1)
      else rows;
    if IsInfix(ConcisePhrase, lower) {
      UpsertKeepsWellFormed(rows, userId, "preference", "response_style", "concise", now1, id1);
      UpsertKeepsConfidenceInRange(rows, userId, "preference", "response_style", "concise", now1, id1);
      UpsertThenFind(rows, userId, "preference", "response_style", "concise", now1, id1);
    }
    assert FreshId(r1, id2) by {
      if IsInfix(ConcisePhrase, lower) {
        UpsertIds(rows, userId, "preference", "response_style", "concise", now1, id1);
      }
    }
    if IsInfix(MorningPhrase, lower) {
      UpsertKeepsWellFormed(r1, userId, "habit", "morning_routine", "active", now2, id2);
      UpsertKeepsConfidenceInRange(r1, userId, "habit", "morning_routine", "active", now2, id2);
      UpsertThenFind(r1, userId, "habit", "morning_routine", "active", now2, id2);
      if IsInfix(ConcisePhrase, lower) {
        PreservesOtherLookup(r1, userId, "habit", "morning_routine", "active", now2, id2,
                             "preference", "response_style");
      }
    }
  }

  /** The ids after an upsert are the old ones plus, on insert, the fresh one. */
  lemma UpsertIds(rows: seq<MemoryRow>, userId: string, category: string, key: string,
                  value: string, now: int, freshId: string)
    ensures var r := Upsert(rows, userId, category, key, value, now, freshId);
      forall j :: 0 <= j < |r| ==> r[j].id == freshId || (j < |rows| && r[j].id == rows[j].id)
  {
  }

  /** An upsert of one triple does not change what a lookup of another finds. */
  lemma PreservesOtherLookup(rows: seq<MemoryRow>, userId: string, category: string, key: string,
                             value: string, now: int, freshId: string, category': string, key': string)
    requires WellFormed(rows)
    requires category != category' || key != key'
    ensures var r := Upsert(rows, userId, category, key, value, now, freshId);
      var before := FindRow(rows, userId, category', key');
      var after := FindRow(r, userId, category', key');
      before.Some? ==> after.Some? && r[after.value] == rows[before.value]
  {
    var r := Upsert(rows, userId, category, key, value, now, freshId);
    var before := FindRow(rows, userId, category', key');
    if before.Some? {
      UpsertTouchesOnlyItsTriple(rows, userId, category, key, value, now, freshId);
      var b := before.value;
      assert r[b] == rows[b];
      var after := FindRow(r, userId, category', key');
      assert after.Some?;
      if after.value < b {
        assert false;
      }
    }
  }
}

=== FILE: mission_control.dfy ===
/** The mission-control gateway queries
    (src/gateway/server-methods/mission-control.ts): `get_data` and
    `get_stats` as pure functions over the tables, each table a sequence of
    rows. */
module MissionControl {
  import opened Base
  import opened Seqs
  import opened Sorting
  import opened AuditLog
  import IntelligenceExtractor
  import SchedulingTools

  /** One row of `mission_tasks`, with the columns the queries read. */
  datatype MissionTaskRow = MissionTaskRow(id: string, status: string, createdAt: int)

  type MemoryRow = IntelligenceExtractor.MemoryRow
  type ScheduledTaskRow = SchedulingTools.ScheduledTaskRow

  /** The four tables the queries read. */
  datatype Tables = Tables(
    missionTasks: seq<MissionTaskRow>,
    memories: seq<MemoryRow>,
    audit: seq<AuditRow>,
    scheduled: seq<ScheduledTaskRow>)

  const TaskLimit: nat := 50
  const IntelLimit: nat := 10
  const AuditLimit: nat := 20
  const TokenUsageAction: string := "token_usage"
  const OnlineAgents: int := 5
  const BusyAgents: int := 2
  const Heartbeat: string := "1m 45s"

  // ---------------------------------------------------------------------
  // `mission_control.get_data`
  // ---------------------------------------------------------------------

  /** `SELECT * FROM mission_tasks ORDER BY created_at DESC LIMIT 50`. */
  function RecentTasks(rows: seq<MissionTaskRow>): (r: seq<MissionTaskRow>)
    ensures |r| == if |rows| < 50 then |rows| else 50
    ensures multiset(r) <= multiset(rows)
    ensures forall i, j :: 0 <= i < j < |r| ==> r[i].createdAt >= r[j].createdAt
  {
    SmallestBy(rows, (t: MissionTaskRow) => -(t.createdAt as real), TaskLimit)
  }

  /** The tasks left out are no newer than any task shown. */
  lemma RecentTasksAreLatest(rows: seq<MissionTaskRow>)
    ensures var r := RecentTasks(rows);
      forall x, i :: x in multiset(rows) - multiset(r) && 0 <= i < |r| ==> x.createdAt <= r[i].createdAt
  {
    SmallestByIsSmallest(rows, (t: MissionTaskRow) => -(t.createdAt as real), TaskLimit);
  }

  /** `SELECT * FROM user_intelligence_memory ORDER BY confidence_score DESC LIMIT 10`. */
  function TopIntel(rows: seq<MemoryRow>): (r: seq<MemoryRow>)
    ensures |r| == if |rows| < 10 then |rows| else 10
    ensures multiset(r) <= multiset(rows)
    ensures forall i, j :: 0 <= i < j < |r| ==> r[i].confidence >= r[j].confidence
  {
    SmallestBy(rows, (m: MemoryRow) => -m.confidence, IntelLimit)
  }

  /** The memories left out are no more confident than any memory shown. */
  lemma TopIntelIsMostConfident(rows: seq<MemoryRow>)
    ensures var r := TopIntel(rows);
      forall x, i :: x in multiset(rows) - multiset(r) && 0 <= i < |r| ==> x.confidence <= r[i].confidence
  {
    SmallestByIsSmallest(rows, (m: MemoryRow) => -m.confidence, IntelLimit);
  }

  /** `SELECT * FROM audit_log ORDER BY created_at DESC LIMIT 20`. */
  function RecentAudit(rows: seq<AuditRow>): (r: seq<AuditRow>)
    ensures |r| == if |rows| < 20 then |rows| else 20
    ensures multiset(r) <= multiset(rows)
    ensures forall i, j :: 0 <= i < j < |r| ==> r[i].createdAt >= r[j].createdAt
  {
    SmallestBy(rows, (a: AuditRow) => -(a.createdAt as real), AuditLimit)
  }

  /** The audit entries left out are no newer than any entry shown. */
  lemma RecentAuditIsLatest(rows: seq<AuditRow>)
    ensures var r := RecentAudit(rows);
      forall x, i :: x in multiset(rows) - multiset(r) && 0 <= i < |r| ==> x.createdAt <= r[i].createdAt
  {
    SmallestByIsSmallest(rows, (a: AuditRow) => -(a.createdAt as real), AuditLimit);
  }

  predicate IsActive(row: ScheduledTaskRow) {
    row.status == SchedulingTools.ActiveStatus
  }

  /** `SELECT * FROM scheduled_tasks WHERE status = 'active' ORDER BY next_run_at ASC`:
      every active task and nothing else, soonest first, with no limit. */
  function ActiveSchedule(rows: seq<ScheduledTaskRow>): (r: seq<ScheduledTaskRow>)
    ensures multiset(r) == multiset(Filter(IsActive, rows))
    ensures forall i, j :: 0 <= i < j < |r| ==> r[i].nextRunAt <= r[j].nextRunAt
  {
    SortBy(Filter(IsActive, rows), (t: ScheduledTaskRow) => t.nextRunAt as real)
  }

  /** The schedule lists exactly the active tasks. */
  lemma ActiveScheduleMembers(rows: seq<ScheduledTaskRow>)
    ensures forall x :: x in ActiveSchedule(rows) <==> x in rows && x.status == "active"
  {
    var active := Filter(IsActive, rows);
    var r := ActiveSchedule(rows);
    forall x
      ensures x in r <==> x in rows && x.status == "active"
    {
      calc {
        x in r;
        x in multiset(r);
        x in multiset(active);
        x in active;
      }
      if x in rows && x.status == "active" {
        var i :| 0 <= i < |rows| && rows[i] == x;
        assert IsActive(rows[i]);
      }
    }
  }

  /** A task just scheduled is listed by `get_data` with the next run it was
      given, and it is gone once cancelled. */
  lemma ScheduledTaskIsListed(rows: seq<ScheduledTaskRow>, args: SchedulingTools.ScheduleArgs,
                              nextRun: string -> Result<int>, taskId: string, now: int, insert: Result<()>)
    requires SchedulingTools.ScheduleSucceeds(args, nextRun, insert)
    ensures var out := SchedulingTools.Schedule(rows, args, nextRun, taskId, now, insert);
      && (exists i :: 0 <= i < |ActiveSchedule(out.rows)| && ActiveSchedule(out.rows)[i].id == taskId
           && ActiveSchedule(out.rows)[i].nextRunAt == out.result.nextRunAt)
      && forall i :: 0 <= i < |ActiveSchedule(SchedulingTools.Cancel(out.rows, taskId, Ok(())).rows)| ==>
           ActiveSchedule(SchedulingTools.Cancel(out.rows, taskId, Ok(())).rows)[i].id != taskId
  {
    var out := SchedulingTools.Schedule(rows, args, nextRun, taskId, now, insert);
    SchedulingTools.ScheduledRowContents(rows, args, nextRun, taskId, now, insert);
    var row := out.rows[|rows|];
    ActiveScheduleMembers(out.rows);
    assert row in ActiveSchedule(out.rows);
    var cancelled := SchedulingTools.Cancel(out.rows, taskId, Ok(())).rows;
    ActiveScheduleMembers(cancelled);
    forall i | 0 <= i < |ActiveSchedule(cancelled)|
      ensures ActiveSchedule(cancelled)[i].id != taskId
    {
      assert ActiveSchedule(cancelled)[i] in ActiveSchedule(cancelled);
    }
  }

  /** The `get_data` response. */
  datatype Data = Data(
    tasks: seq<MissionTaskRow>,
    intel: seq<MemoryRow>,
    audit: seq<AuditRow>,
    scheduled: seq<ScheduledTaskRow>)

  function GetData(t: Tables): (d: Data)
    ensures |d.tasks| <= 50 && |d.intel| <= 10 && |d.audit| <= 20
    ensures multiset(d.tasks) <= multiset(t.missionTasks) && multiset(d.intel) <= multiset(t.memories)
    ensures multiset(d.audit) <= multiset(t.audit)
    ensures forall x :: x in d.scheduled <==> x in t.scheduled && x.status == "active"
  {
    ActiveScheduleMembers(t.scheduled);
    Data(RecentTasks(t.missionTasks), TopIntel(t.memories), RecentAudit(t.audit), ActiveSchedule(t.scheduled))
  }

  // ---------------------------------------------------------------------
  // `mission_control.get_stats`
  // ---------------------------------------------------------------------

  /** The number of tasks with status `s`: `COUNT(*)` of its group. */
  function CountStatus(rows: seq<MissionTaskRow>, s: string): nat {
    if rows == [] then 0
    else (if rows[0].status == s then 1 else 0) + CountStatus(rows[1..], s)
  }

  /** `SELECT status, COUNT(*) FROM mission_tasks GROUP BY status`, as a map
      from each status to its count. */
  function TaskStats(rows: seq<MissionTaskRow>): map<string, nat> {
    if rows == [] then map[]
    else
      var rest := TaskStats(rows[1..]);
      var s := rows[0].status;
      rest[s := (if s in rest then rest[s] else 0) + 1]
  }

  /** The statuses present in `rows`. */
  function Statuses(rows: seq<MissionTaskRow>): set<string> {
    set i | 0 <= i < |rows| :: rows[i].status
  }

  /** One group per status present, counting exactly the tasks with that
      status, so no group is empty. */
  lemma {:induction false} TaskStatsCounts(rows: seq<MissionTaskRow>)
    ensures TaskStats(rows).Keys == Statuses(rows)
    ensures forall s :: s in TaskStats(rows) ==> TaskStats(rows)[s] == CountStatus(rows, s) >= 1
  {
    if rows != [] {
      TaskStatsCounts(rows[1..]);
      var rest := TaskStats(rows[1..]);
      var s := rows[0].status;
      var m := TaskStats(rows);
      StatusesCons(rows);
      if s !in rest {
        CountAbsent(rows[1..], s);
      }
    }
  }

  lemma {:induction false} CountAbsent(rows: seq<MissionTaskRow>, k: string)
    requires k !in Statuses(rows)
    ensures CountStatus(rows, k) == 0
  {
    if rows != [] {
      StatusesCons(rows);
      CountAbsent(rows[1..], k);
    }
  }

  lemma StatusesCons(rows: seq<MissionTaskRow>)
    requires rows != []
    ensures Statuses(rows) == {rows[0].status} + Statuses(rows[1..])
  {
    forall k | k in Statuses(rows)
      ensures k in {rows[0].status} + Statuses(rows[1..])
    {
      var i :| 0 <= i < |rows| && rows[i].status == k;
      if i > 0 {
        assert rows[1..][i - 1].status == k;
      }
    }
    forall k | k in Statuses(rows[1..])
      ensures k in Statuses(rows)
    {
      var i :| 0 <= i < |rows[1..]| && rows[1..][i].status == k;
      assert rows[i + 1].status == k;
    }
  }

  /** `x` truncated toward zero, as `CAST(x AS INTEGER)` does. */
  function Truncate(x: real): (n: int)
    ensures 0.0 <= x ==> n as real <= x < n as real + 1.0
    ensures x < 0.0 ==> n as real - 1.0 < x <= n as real
  {
    if x >= 0.0 then x.Floor else -((-x).Floor)
  }

  /** White space `CAST` skips before a number. */
  predicate IsCastSpace(c: char) {
    c == ' ' || c == '\t' || c == '\n' || c == '\r' || c == '\U{000B}' || c == '\U{000C}'
  }

  /** The value of a run of decimal digits. */
  function DigitsValue(d: string): (n: nat)
    requires forall i :: 0 <= i < |d| ==> '0' <= d[i] <= '9'
  {
    if d == [] then 0 else 10 * DigitsValue(d[..|d| - 1]) + (d[|d| - 1] as int - '0' as int)
  }

  /** The end of the run of digits starting at `i`. */
  function DigitsEnd(s: string, i: nat): (j: nat)
    requires i <= |s|
    ensures i <= j <= |s| && (j == |s| || !('0' <= s[j] <= '9'))
    ensures forall k :: i <= k < j ==> '0' <= s[k] <= '9'
    decreases |s| - i
  {
    if i < |s| && '0' <= s[i] <= '9' then DigitsEnd(s, i + 1) else i
  }

  /** `CAST(text AS INTEGER)`: the longest integer prefix after leading
      white space, or 0 when there is none. */
  function CastText(s: string): int {
    var i := SkipCastSpace(s, 0);
    var negative := i < |s| && s[i] == '-';
    var start := if i < |s| && (s[i] == '-' || s[i] == '+') then i + 1 else i;
    var end := DigitsEnd(s, start);
    var magnitude: int := DigitsValue(s[start..end]);
    if negative then -magnitude else magnitude
  }

  /** A run of digits casts to its value, and to its negation after a minus sign. */
  lemma CastTextOfDigits(d: string)
    requires d != [] && forall i :: 0 <= i < |d| ==> '0' <= d[i] <= '9'
    ensures CastText(d) == DigitsValue(d)
    ensures CastText(['-'] + d) == -(DigitsValue(d) as int)
  {
    CastOfDigitsFrom(d, d, 0);
    CastOfDigitsFrom(['-'] + d, d, 1);
  }

  lemma CastOfDigitsFrom(s: string, d: string, start: nat)
    requires start <= 1 && start < |s| && s[start..] == d
    requires forall i :: 0 <= i < |d| ==> '0' <= d[i] <= '9'
    requires start == 1 ==> s[0] == '-'
    ensures CastText(s) == if start == 1 then -(DigitsValue(d) as int) else DigitsValue(d)
  {
    assert !IsCastSpace(s[0]) by {
      if start == 0 {
        assert s[0] == d[0];
      }
    }
    assert SkipCastSpace(s, 0) == 0;
    var end := DigitsEnd(s, start);
    assert end == |s|;
    assert s[start..end] == d;
  }

  function SkipCastSpace(s: string, i: nat): (j: nat)
    requires i <= |s|
    ensures i <= j <= |s| && (j == |s| || !IsCastSpace(s[j]))
    decreases |s| - i
  {
    if i < |s| && IsCastSpace(s[i]) then SkipCastSpace(s, i + 1) else i
  }

  /** `CAST(json_extract(diff, '$.tokens') AS INTEGER)` for one row: NULL
      when the diff or its `tokens` member is missing or JSON null; `true` and
      `false` are 1 and 0; a number is truncated; a string is cast as text;
      an array or object comes back as JSON text, which casts to 0. */
  function TokensOf(row: AuditRow): (t: Option<int>)
    ensures t.None? <==> row.diff.None? || !row.diff.value.JObject? || "tokens" !in row.diff.value.fields
                         || row.diff.value.fields["tokens"].JNull?
    ensures var m := TokensMember(row);
      && (m == Some(JBool(true)) ==> t == Some(1))
      && (m == Some(JBool(false)) ==> t == Some(0))
      && (m.Some? && m.value.JNumber? ==> t == Some(Truncate(m.value.n)))
      && (m.Some? && m.value.JNumber? && m.value.n == m.value.n.Floor as real ==> t == Some(m.value.n.Floor))
      && (m.Some? && m.value.JString? ==> t == Some(CastText(m.value.s)))
      && (m.Some? && (m.value.JArray? || m.value.JObject?) ==> t == Some(0))
  {
    match row.diff
    case None => None
    case Some(doc) =>
      if !doc.JObject? || "tokens" !in doc.fields then None
      else match doc.fields["tokens"]
        case JNull => None
        case JBool(b) => Some(if b then 1 else 0)
        case JNumber(x) => Some(Truncate(x))
        case JString(s) => Some(CastText(s))
        case JArray(_) => Some(0)
        case JObject(_) => Some(0)
  }

  /** The `tokens` member of a row's diff, when the diff is an object that has one. */
  function TokensMember(row: AuditRow): Option<JsonValue> {
    if row.diff.Some? && row.diff.value.JObject? && "tokens" in row.diff.value.fields
    then Some(row.diff.value.fields["tokens"])
    else None
  }

  /** A `tokens` member that is a string of digits counts as the number it spells. */
  lemma TokensOfDigitString(row: AuditRow, d: string)
    requires TokensMember(row) == Some(JString(d))
    requires d != [] && forall i :: 0 <= i < |d| ==> '0' <= d[i] <= '9'
    ensures TokensOf(row) == Some(DigitsValue(d) as int)
  {
    CastTextOfDigits(d);
  }

  /** SQL `SUM` over the token-usage rows: NULL values are skipped, and the
      sum of no values is NULL. */
  function SumTokens(rows: seq<AuditRow>): Option<int> {
    if rows == [] then None
    else
      var here := if rows[0].action == TokenUsageAction then TokensOf(rows[0]) else None;
      var rest := SumTokens(rows[1..]);
      match (here, rest)
      case (None, _) => rest
      case (Some(x), None) => Some(x)
      case (Some(x), Some(y)) => Some(x + y)
  }

  /** `tokenResult?.total || 0`. */
  function Tokens(rows: seq<AuditRow>): int {
    SumTokens(rows).GetOr(0)
  }

  /** The token count of one row, NULL counting as nothing. */
  function RowTokens(row: AuditRow): int {
    if row.action == TokenUsageAction then TokensOf(row).GetOr(0) else 0
  }

  /** The reported total is the sum of the rows' token counts, NULLs as 0. */
  lemma TokensAreRowSum(rows: seq<AuditRow>)
    ensures Tokens(rows) == if rows == [] then 0 else RowTokens(rows[0]) + Tokens(rows[1..])
  {
  }

  /** The total of two logs is the sum of their totals. */
  lemma {:induction false} TokensAdditive(a: seq<AuditRow>, b: seq<AuditRow>)
    ensures Tokens(a + b) == Tokens(a) + Tokens(b)
  {
    if a == [] {
      assert a + b == b;
    } else {
      assert (a + b)[1..] == a[1..] + b;
      TokensAdditive(a[1..], b);
      TokensAreRowSum(a + b);
      TokensAreRowSum(a);
    }
  }

  predicate IsTokenUsage(row: AuditRow) {
    row.action == TokenUsageAction
  }

  /** Only token-usage rows count. */
  lemma {:induction false} TokensIgnoreOtherActions(rows: seq<AuditRow>)
    ensures Tokens(rows) == Tokens(Filter(IsTokenUsage, rows))
  {
    if rows != [] {
      TokensIgnoreOtherActions(rows[1..]);
      TokensAreRowSum(rows);
      var f := Filter(IsTokenUsage, rows);
      if IsTokenUsage(rows[0]) {
        assert f[0] == rows[0] && f[1..] == Filter(IsTokenUsage, rows[1..]);
        TokensAreRowSum(f);
      }
    }
  }

  /** A log without token-usage rows reports zero tokens. */
  lemma {:induction false} NoUsageNoTokens(rows: seq<AuditRow>)
    requires forall i :: 0 <= i < |rows| ==> rows[i].action != "token_usage"
    ensures Tokens(rows) == 0
  {
    if rows != [] {
      NoUsageNoTokens(rows[1..]);
      TokensAreRowSum(rows);
    }
  }

  /** The `get_stats` response. The estimated cost is left out. */
  datatype Stats = Stats(
    taskStats: map<string, nat>,
    online: int,
    busy: int,
    tokens: int,
    heartbeat: string)

  function GetStats(t: Tables): (s: Stats)
    ensures s.online == 5 && s.busy == 2 && s.heartbeat == "1m 45s"
    ensures s.taskStats.Keys == Statuses(t.missionTasks)
    ensures forall k :: k in s.taskStats ==> s.taskStats[k] == CountStatus(t.missionTasks, k)
    ensures s.tokens == Tokens(t.audit)
    ensures (forall i :: 0 <= i < |t.audit| ==> t.audit[i].action != "token_usage") ==> s.tokens == 0
  {
    TaskStatsCounts(t.missionTasks);
    NoUsageOrTokens(t.audit);
    Stats(TaskStats(t.missionTasks), OnlineAgents, BusyAgents, Tokens(t.audit), Heartbeat)
  }

  lemma NoUsageOrTokens(rows: seq<AuditRow>)
    ensures (forall i :: 0 <= i < |rows| ==> rows[i].action != "token_usage") ==> Tokens(rows) == 0
  {
    if forall i :: 0 <= i < |rows| ==> rows[i].action != "token_usage" {
      NoUsageNoTokens(rows);
    }
  }
}

=== FILE: runtime_config.dfy ===
/** The `modify_config` tool (src/agents/tools/runtime-config-tool.ts): an
    audit row recording the requested change, then a `config.patch` gateway
    call, then a pending-confirmation or error result. */
module RuntimeConfig {
  import opened Base
  import opened Strings
  import opened AuditLog
  import MissionControl

  /** The calls the tool makes, in order. */
  datatype Effect =
    | InsertAudit(row: AuditRow)
    /** `config.patch` with `{ patch: { [key]: value } }`; an undefined value
        is carried as `None`. */
    | PatchConfig(key: string, value: Option<JsonValue>)

  datatype ConfigResult =
    | PendingConfirmation(message: string, auditId: string)
    | ConfigError(error: string)

  /** The audit table after the call, the calls made, and the tool result. */
  datatype ConfigOutcome = ConfigOutcome(audit: seq<AuditRow>, effects: seq<Effect>, result: ConfigResult)

  const ActorAgent: string := "agent"
  const ModifyConfigAction: string := "modify_config"
  const PendingStatus: string := "pending_confirmation"
  const OldValueText: string := "unknown"
  const MessageHead: string := "Configuration change for \""
  const MessageTail: string := "\" has been logged and requires manual approval in Mission Control."

  /** `JSON.stringify({ old: "unknown", new: value, reason })`, read back as
      JSON: a member whose value is undefined is left out. */
  function Diff(value: Option<JsonValue>, reason: string): (d: JsonValue)
    ensures d.JObject? && "old" in d.fields && "reason" in d.fields
    ensures d.fields["old"] == JString(OldValueText) && d.fields["reason"] == JString(reason)
    ensures "new" in d.fields <==> value.Some?
    ensures value.Some? ==> d.fields["new"] == value.value
    ensures d.fields.Keys <= {"old", "new", "reason"}
  {
    var fixed := map["old" := JString(OldValueText), "reason" := JString(reason)];
    JObject(if value.Some? then fixed["new" := value.value] else fixed)
  }

  /** The row the tool inserts for one request. */
  function ConfigAuditRow(key: string, value: Option<JsonValue>, reason: string, id: string, now: int): (row: AuditRow)
    ensures row.id == id && row.actorId == ActorAgent && row.action == ModifyConfigAction
    ensures row.resource == key && row.status == PendingStatus && row.createdAt == now
    ensures row.diff == Some(Diff(value, reason))
  {
    AuditRow(id, ActorAgent, ModifyConfigAction, key, Some(Diff(value, reason)), PendingStatus, now)
  }

  /** The success message, naming the key in double quotes. */
  function PendingMessage(key: string): (m: string)
    ensures IsPrefix(MessageHead, m) && IsSuffix(MessageTail, m)
    ensures |m| == |MessageHead| + |key| + |MessageTail|
  {
    MessageHead + key + MessageTail
  }

  /** The key named by a success message: what lies between its fixed head
      and tail. */
  function KeyOfMessage(m: string): Option<string> {
    if |m| >= |MessageHead| + |MessageTail| && IsPrefix(MessageHead, m) && IsSuffix(MessageTail, m)
    then Some(m[|MessageHead|..|m| - |MessageTail|])
    else None
  }

  /** The message names exactly the key it was built for. */
  lemma KeyOfPendingMessage(key: string)
    ensures KeyOfMessage(PendingMessage(key)) == Some(key)
  {
    var m := PendingMessage(key);
    assert m[|MessageHead|..|m| - |MessageTail|] == key;
  }

  /** The `execute` body. The fresh UUID, the clock, and the outcomes of the
      insert and of the gateway call (the thrown error's message on failure)
      are parameters. */
  function ModifyConfig(audit: seq<AuditRow>, key: string, value: Option<JsonValue>, reason: string,
                        id: string, now: int, insert: Result<()>, patch: Result<()>): (out: ConfigOutcome)
    ensures 1 <= |out.effects| <= 2
    ensures out.effects[0] == InsertAudit(ConfigAuditRow(key, value, reason, id, now))
    ensures |out.effects| == 2 <==> insert.Ok?
    ensures |out.effects| == 2 ==> out.effects[1] == PatchConfig(key, value)
    ensures insert.Err? ==> out.audit == audit && out.result == ConfigError(insert.error)
    ensures insert.Ok? ==> out.audit == audit + [ConfigAuditRow(key, value, reason, id, now)]
    ensures insert.Ok? && patch.Err? ==> out.result == ConfigError(patch.error)
    ensures out.result.PendingConfirmation? <==> insert.Ok? && patch.Ok?
    ensures out.result.PendingConfirmation? ==>
      out.result.auditId == out.audit[|out.audit| - 1].id && KeyOfMessage(out.result.message) == Some(key)
  {
    var row := ConfigAuditRow(key, value, reason, id, now);
    if insert.Err? then
      ConfigOutcome(audit, [InsertAudit(row)], ConfigError(insert.error))
    else
      var effects := [InsertAudit(row), PatchConfig(key, value)];
      if patch.Err? then
        ConfigOutcome(audit + [row], effects, ConfigError(patch.error))
      else
        KeyOfPendingMessage(key);
        ConfigOutcome(audit + [row], effects, PendingConfirmation(PendingMessage(key), id))
  }

  /** Whatever the gateway answers, a successful insert leaves exactly one new
      row, the pending request, at the end of the table; the rows before it
      are untouched. */
  lemma AuditRowSurvivesPatchFailure(audit: seq<AuditRow>, key: string, value: Option<JsonValue>, reason: string,
                                     id: string, now: int, patch: Result<()>)
    ensures var out := ModifyConfig(audit, key, value, reason, id, now, Ok(()), patch);
      && |out.audit| == |audit| + 1 && out.audit[..|audit|] == audit
      && out.audit[|audit|].status == PendingStatus && out.audit[|audit|].resource == key
      && (patch.Err? ==> out.result.ConfigError?)
  {
    var out := ModifyConfig(audit, key, value, reason, id, now, Ok(()), patch);
    assert out.audit[..|audit|] == audit;
  }

  /** The patch carries the requested value exactly as the audit row records
      it as the new value. */
  lemma PatchMatchesAudit(audit: seq<AuditRow>, key: string, value: Option<JsonValue>, reason: string,
                          id: string, now: int, patch: Result<()>)
    ensures var out := ModifyConfig(audit, key, value, reason, id, now, Ok(()), patch);
      var row := out.audit[|out.audit| - 1];
      && out.effects[1].key == row.resource
      && (out.effects[1].value.Some? <==> "new" in row.diff.value.fields)
      && (out.effects[1].value.Some? ==> row.diff.value.fields["new"] == out.effects[1].value.value)
  {
  }

  /** A configuration request never changes the token total mission control
      reports. */
  lemma ModifyConfigKeepsTokens(audit: seq<AuditRow>, key: string, value: Option<JsonValue>, reason: string,
                                id: string, now: int, insert: Result<()>, patch: Result<()>)
    ensures MissionControl.Tokens(ModifyConfig(audit, key, value, reason, id, now, insert, patch).audit)
         == MissionControl.Tokens(audit)
  {
    var row := ConfigAuditRow(key, value, reason, id, now);
    if insert.Ok? {
      MissionControl.TokensAdditive(audit, [row]);
      MissionControl.TokensAreRowSum([row]);
      assert [row][1..] == [];
    }
  }
}

=== FILE: scheduling_tools.dfy ===
/** The scheduling tools (src/agents/tools/scheduling-tools.ts):
    `schedule_task`, `list_scheduled_tasks` and `cancel_scheduled_task` over
    the `scheduled_tasks` table, kept as a sequence of rows. */
module SchedulingTools {
  import opened Base
  import opened Seqs

  /** One row of `scheduled_tasks`. */
  datatype ScheduledTaskRow = ScheduledTaskRow(
    id: string,
    ownerAgentId: string,
    cronExpression: string,
    naturalLanguageSchedule: Option<string>,
    taskPayload: JsonValue,
    status: string,
    nextRunAt: int,
    createdAt: int,
    updatedAt: int)

  /** The arguments of `schedule_task`, as read from the tool call. */
  datatype ScheduleArgs = ScheduleArgs(
    cronExpression: Option<string>,
    naturalLanguageSchedule: Option<string>,
    description: string,
    ownerAgentId: Option<string>)

  /** The tool's answer: the task it scheduled, the error status it returns
      when no schedule is given, or the error thrown by the cron engine or
      the INSERT, which the tool does not catch. */
  datatype ScheduleResult =
    | Scheduled(taskId: string, nextRunAt: int)
    | ScheduleError(error: string)
    | ScheduleThrew(thrown: string)

  datatype ScheduleOutcome = ScheduleOutcome(rows: seq<ScheduledTaskRow>, result: ScheduleResult)

  const DefaultCron: string := "0 9 * * *"
  const DefaultOwner: string := "main"
  const ActiveStatus: string := "active"
  const MissingScheduleError: string := "Provide either cronExpression or naturalLanguageSchedule"

  /** The stored task payload, `JSON.stringify({ description })`. */
  function Payload(description: string): JsonValue {
    JObject(map["description" := JString(description)])
  }

  /** `cronExpression || "0 9 * * *"`: a natural-language schedule alone runs at the default cron. */
  function EffectiveCron(args: ScheduleArgs): (c: string)
    ensures Truthy(args.cronExpression) ==> c == args.cronExpression.value
    ensures !Truthy(args.cronExpression) ==> c == DefaultCron
  {
    OrElse(args.cronExpression, DefaultCron)
  }

  /** A schedule is given, the cron engine accepts the effective cron, and
      the INSERT succeeds. */
  predicate ScheduleSucceeds(args: ScheduleArgs, nextRun: string -> Result<int>, insert: Result<()>) {
    (Truthy(args.cronExpression) || Truthy(args.naturalLanguageSchedule))
    && nextRun(EffectiveCron(args)).Ok? && insert.Ok?
  }

  /** The `schedule_task` body. The cron engine (its error message when it
      rejects the expression), the fresh UUID, the clock and the INSERT's
      outcome are parameters. */
  function Schedule(rows: seq<ScheduledTaskRow>, args: ScheduleArgs, nextRun: string -> Result<int>,
                    taskId: string, now: int, insert: Result<()>): (out: ScheduleOutcome)
    ensures out.result.ScheduleError? <==> !Truthy(args.cronExpression) && !Truthy(args.naturalLanguageSchedule)
    ensures out.result.ScheduleError? ==> out.rows == rows && out.result.error == MissingScheduleError
    ensures out.result.Scheduled? <==> ScheduleSucceeds(args, nextRun, insert)
    ensures !out.result.Scheduled? ==> out.rows == rows
    ensures out.result.ScheduleThrew? && nextRun(EffectiveCron(args)).Err? ==>
      out.result.thrown == nextRun(EffectiveCron(args)).error
    ensures out.result.ScheduleThrew? && nextRun(EffectiveCron(args)).Ok? ==> out.result.thrown == insert.error
    ensures out.result.Scheduled? ==>
      && |out.rows| == |rows| + 1
      && out.rows[..|rows|] == rows
      && out.rows[|rows|].id == out.result.taskId == taskId
      && nextRun(out.rows[|rows|].cronExpression) == Ok(out.result.nextRunAt)
      && out.rows[|rows|].nextRunAt == out.result.nextRunAt
  {
    if !Truthy(args.cronExpression) && !Truthy(args.naturalLanguageSchedule) then
      ScheduleOutcome(rows, ScheduleError(MissingScheduleError))
    else
      var cron := EffectiveCron(args);
      match nextRun(cron)
      case Err(e) => ScheduleOutcome(rows, ScheduleThrew(e))
      case Ok(next) =>
        if insert.Err? then ScheduleOutcome(rows, ScheduleThrew(insert.error))
        else
          var nl := if Truthy(args.naturalLanguageSchedule) then args.naturalLanguageSchedule else None;
          var row := ScheduledTaskRow(
            taskId, OrElse(args.ownerAgentId, DefaultOwner), cron, nl,
            Payload(args.description), ActiveStatus, next, now, now);
          ScheduleOutcome(rows + [row], Scheduled(taskId, next))
  }

  /** The row a successful schedule inserts: an active task owned by the given
      agent (or "main"), at the effective cron, keeping the natural-language
      schedule only when it is non-empty, carrying the description, created
      and updated at the same instant. */
  lemma ScheduledRowContents(rows: seq<ScheduledTaskRow>, args: ScheduleArgs, nextRun: string -> Result<int>,
                             taskId: string, now: int, insert: Result<()>)
    requires ScheduleSucceeds(args, nextRun, insert)
    ensures var row := Schedule(rows, args, nextRun, taskId, now, insert).rows[|rows|];
      && row.status == "active"
      && row.ownerAgentId == (if Truthy(args.ownerAgentId) then args.ownerAgentId.value else "main")
      && row.cronExpression == (if Truthy(args.cronExpression) then args.cronExpression.value else "0 9 * * *")
      && (Truthy(args.naturalLanguageSchedule) ==> row.naturalLanguageSchedule == args.naturalLanguageSchedule)
      && (!Truthy(args.naturalLanguageSchedule) ==> row.naturalLanguageSchedule == None)
      && row.taskPayload == JObject(map["description" := JString(args.description)])
      && row.createdAt == row.updatedAt == now
  {
  }

  /** `list_scheduled_tasks`: every row, whatever its status. */
  function List(rows: seq<ScheduledTaskRow>): (r: seq<ScheduledTaskRow>)
    ensures |r| == |rows|
    ensures forall i :: 0 <= i < |rows| ==> r[i] == rows[i]
  {
    rows
  }

  /** The table after the call, and the status answered or the error the
      DELETE threw. */
  datatype CancelOutcome = CancelOutcome(rows: seq<ScheduledTaskRow>, status: Result<string>)

  /** `cancel_scheduled_task`: `DELETE ... WHERE id = ?`, answering ok
      whether or not a row was deleted. The DELETE's outcome is a parameter;
      its error is not caught. */
  function Cancel(rows: seq<ScheduledTaskRow>, taskId: string, delete: Result<()>): (out: CancelOutcome)
    ensures delete.Err? ==> out.rows == rows && out.status == Err(delete.error)
    ensures delete.Ok? ==> out.status == Ok("ok")
    ensures delete.Ok? ==> forall i :: 0 <= i < |out.rows| ==> out.rows[i].id != taskId
    ensures delete.Ok? ==> forall i :: 0 <= i < |rows| && rows[i].id != taskId ==> rows[i] in out.rows
    ensures forall i :: 0 <= i < |out.rows| ==> out.rows[i] in rows
  {
    if delete.Err? then CancelOutcome(rows, Err(delete.error))
    else CancelOutcome(Filter((row: ScheduledTaskRow) => row.id != taskId, rows), Ok("ok"))
  }

  predicate HasId(rows: seq<ScheduledTaskRow>, id: string) {
    exists i :: 0 <= i < |rows| && rows[i].id == id
  }

  /** Cancelling keeps the surviving rows in their order, and an id that is
      not in the table leaves the table as it was. */
  lemma CancelKeepsOrder(rows: seq<ScheduledTaskRow>, taskId: string, delete: Result<()>)
    ensures IsSubseq(Cancel(rows, taskId, delete).rows, rows)
    ensures !HasId(rows, taskId) ==> Cancel(rows, taskId, delete).rows == rows
  {
    var p := (row: ScheduledTaskRow) => row.id != taskId;
    if delete.Ok? {
      FilterIsSubseq(p, rows);
      if !HasId(rows, taskId) {
        FilterKeepsAll(p, rows);
      }
    } else {
      SubseqRefl(rows);
    }
  }

  /** A successful cancel of a task just scheduled under a fresh id restores
      the table, whether or not the schedule went through. */
  lemma CancelUndoesSchedule(rows: seq<ScheduledTaskRow>, args: ScheduleArgs, nextRun: string -> Result<int>,
                             taskId: string, now: int, insert: Result<()>)
    requires !HasId(rows, taskId)
    ensures var out := Schedule(rows, args, nextRun, taskId, now, insert);
      Cancel(out.rows, taskId, Ok(())).rows == rows
  {
    var out := Schedule(rows, args, nextRun, taskId, now, insert);
    var p := (row: ScheduledTaskRow) => row.id != taskId;
    FilterKeepsAll(p, rows);
    if out.result.Scheduled? {
      var row := out.rows[|rows|];
      assert out.rows == rows + [row];
      FilterAppend(p, rows, [row]);
      assert Filter(p, [row]) == [];
    }
  }

  /** A scheduled task shows up in the listing with the id and next run the
      tool reported, until it is cancelled. */
  lemma ListShowsScheduled(rows: seq<ScheduledTaskRow>, args: ScheduleArgs, nextRun: string -> Result<int>,
                           taskId: string, now: int, insert: Result<()>)
    requires ScheduleSucceeds(args, nextRun, insert)
    ensures var out := Schedule(rows, args, nextRun, taskId, now, insert);
      && (exists i :: 0 <= i < |List(out.rows)| && List(out.rows)[i].id == out.result.taskId
                      && List(out.rows)[i].nextRunAt == out.result.nextRunAt)
      && !HasId(Cancel(out.rows, taskId, Ok(())).rows, taskId)
  {
    var out := Schedule(rows, args, nextRun, taskId, now, insert);
    var i := |rows|;
    assert List(out.rows)[i].id == out.result.taskId;
  }
}

=== FILE: seqs.dfy ===
/** Sequence vocabulary shared by the row stores: order-preserving
    subsequences, SQL-style filtering (`WHERE`) and limiting (`LIMIT`). */
module Seqs {

  /** `a` is `b` with some elements dropped, the rest kept in order. */
  predicate IsSubseq<T(==)>(a: seq<T>, b: seq<T>)
    decreases |b|
  {
    || a == []
    || (&& b != []
        && ((a[0] == b[0] && IsSubseq(a[1..], b[1..])) || IsSubseq(a, b[1..])))
  }

  /** Every sequence is a subsequence of itself. */
  lemma {:induction false} SubseqRefl<T>(s: seq<T>)
    ensures IsSubseq(s, s)
  {
    if s != [] {
      SubseqRefl(s[1..]);
    }
  }

  lemma {:induction false} SubseqTrans<T>(a: seq<T>, b: seq<T>, c: seq<T>)
    requires IsSubseq(a, b) && IsSubseq(b, c)
    ensures IsSubseq(a, c)
    decreases |c|, |b|
  {
    if a != [] {
      assert b != [] && c != [];
      if b[0] == c[0] && IsSubseq(b[1..], c[1..]) {
        if a[0] == b[0] && IsSubseq(a[1..], b[1..]) {
          SubseqTrans(a[1..], b[1..], c[1..]);
        } else {
          SubseqTrans(a, b[1..], c[1..]);
        }
      } else {
        SubseqTrans(a, b, c[1..]);
      }
    }
  }

  /** The elements of `s` satisfying `p`, in their original order. */
  function Filter<T(==)>(p: T -> bool, s: seq<T>): (r: seq<T>)
    ensures |r| <= |s|
    ensures forall i :: 0 <= i < |r| ==> r[i] in s
    ensures forall i :: 0 <= i < |s| && p(s[i]) ==> s[i] in r
    ensures forall i :: 0 <= i < |r| ==> p(r[i])
  {
    if s == [] then []
    else if p(s[0]) then [s[0]] + Filter(p, s[1..])
    else Filter(p, s[1..])
  }

  lemma {:induction false} FilterIsSubseq<T>(p: T -> bool, s: seq<T>)
    ensures IsSubseq(Filter(p, s), s)
  {
    if s != [] {
      FilterIsSubseq(p, s[1..]);
      if p(s[0]) {
        var r := Filter(p, s);
        assert r[0] == s[0] && r[1..] == Filter(p, s[1..]);
      }
    }
  }

  /** Filtering distributes over concatenation. */
  lemma {:induction false} FilterAppend<T>(p: T -> bool, a: seq<T>, b: seq<T>)
    ensures Filter(p, a + b) == Filter(p, a) + Filter(p, b)
  {
    if a == [] {
      assert a + b == b;
    } else {
      assert (a + b)[1..] == a[1..] + b;
      FilterAppend(p, a[1..], b);
    }
  }

  /** Filtering keeps a sequence whose every element passes. */
  lemma {:induction false} FilterKeepsAll<T>(p: T -> bool, s: seq<T>)
    requires forall i :: 0 <= i < |s| ==> p(s[i])
    ensures Filter(p, s) == s
  {
    if s != [] {
      FilterKeepsAll(p, s[1..]);
    }
  }

  /** Filtering a second time with the same test changes nothing. */
  lemma FilterIdempotent<T>(p: T -> bool, s: seq<T>)
    ensures Filter(p, Filter(p, s)) == Filter(p, s)
  {
    FilterKeepsAll(p, Filter(p, s));
  }

  /** `LIMIT n`: the first `n` elements, or all of them when there are fewer. */
  function Take<T>(s: seq<T>, n: nat): (r: seq<T>)
    ensures |r| <= n && |r| <= |s|
    ensures |s| <= n ==> r == s
    ensures |s| >= n ==> |r| == n
    ensures forall i :: 0 <= i < |r| ==> r[i] == s[i]
  {
    if |s| <= n then s else s[..n]
  }
}

=== FILE: sorting.dfy ===
/** `ORDER BY`: a sort of rows by a numeric key. SQL leaves the order of
    rows with equal keys unspecified; the model keeps their input order. */
module Sorting {
  import opened Seqs

  /** `s` is in non-decreasing order of `key`. */
  predicate Ascending<T>(s: seq<T>, key: T -> real) {
    forall i, j :: 0 <= i < j < |s| ==> key(s[i]) <= key(s[j])
  }

  /** `x` placed before the first element of the sorted `s` whose key is larger. */
  function Insert<T(==)>(x: T, s: seq<T>, key: T -> real): (r: seq<T>)
    requires Ascending(s, key)
    ensures |r| == |s| + 1
    ensures multiset(r) == multiset(s) + multiset{x}
    ensures Ascending(r, key)
  {
    if s == [] then [x]
    else if key(x) <= key(s[0]) then [x] + s
    else
      var rest := Insert(x, s[1..], key);
      assert s == [s[0]] + s[1..];
      InsertHeadBound(x, s, key, rest);
      [s[0]] + rest
  }

  /** The head of `s` bounds every key of `rest`, the insertion into its tail. */
  lemma InsertHeadBound<T>(x: T, s: seq<T>, key: T -> real, rest: seq<T>)
    requires s != [] && Ascending(s, key) && key(s[0]) < key(x)
    requires multiset(rest) == multiset(s[1..]) + multiset{x}
    ensures forall i :: 0 <= i < |rest| ==> key(s[0]) <= key(rest[i])
  {
    forall i | 0 <= i < |rest|
      ensures key(s[0]) <= key(rest[i])
    {
      assert rest[i] in multiset(rest);
      if rest[i] != x {
        assert rest[i] in multiset(s[1..]);
        var j :| 0 <= j < |s[1..]| && s[1..][j] == rest[i];
        assert s[j + 1] == rest[i];
      }
    }
  }

  /** The rows of `s` in ascending order of `key`: a permutation of `s`. */
  function SortBy<T(==)>(s: seq<T>, key: T -> real): (r: seq<T>)
    ensures |r| == |s|
    ensures multiset(r) == multiset(s)
    ensures Ascending(r, key)
  {
    if s == [] then []
    else
      assert s == [s[0]] + s[1..];
      Insert(s[0], SortBy(s[1..], key), key)
  }

  /** `ORDER BY key LIMIT n`: the first `n` rows of the sorted table. */
  function SmallestBy<T(==)>(s: seq<T>, key: T -> real, n: nat): (r: seq<T>)
    ensures |r| == if |s| < n then |s| else n
    ensures multiset(r) <= multiset(s)
    ensures Ascending(r, key)
  {
    var sorted := SortBy(s, key);
    assert sorted == sorted[..Min(n, |s|)] + sorted[Min(n, |s|)..];
    Take(sorted, n)
  }

  function Min(a: nat, b: nat): nat {
    if a < b then a else b
  }

  /** No row left out by the limit has a smaller key than a row kept. */
  lemma {:induction false} SmallestByIsSmallest<T>(s: seq<T>, key: T -> real, n: nat)
    ensures var r := SmallestBy(s, key, n);
      forall x, i :: x in multiset(s) - multiset(r) && 0 <= i < |r| ==> key(r[i]) <= key(x)
  {
    var rest := SmallestByRest(s, key, n);
    AfterNotSmaller(SortBy(s, key), SmallestBy(s, key, n), rest, key);
  }

  /** In a sorted sequence cut in two, no key after the cut is smaller than a
      key before it. */
  lemma AfterNotSmaller<T>(sorted: seq<T>, r: seq<T>, rest: seq<T>, key: T -> real)
    requires sorted == r + rest && Ascending(sorted, key)
    ensures forall x, i :: x in multiset(rest) && 0 <= i < |r| ==> key(r[i]) <= key(x)
  {
    forall x, i | x in multiset(rest) && 0 <= i < |r|
      ensures key(r[i]) <= key(x)
    {
      var j :| 0 <= j < |rest| && rest[j] == x;
      assert sorted[|r| + j] == x && sorted[i] == r[i];
    }
  }

  /** The rows the limit leaves out: the rest of the sorted table. */
  lemma SmallestByRest<T>(s: seq<T>, key: T -> real, n: nat) returns (rest: seq<T>)
    ensures SortBy(s, key) == SmallestBy(s, key, n) + rest
    ensures multiset(s) - multiset(SmallestBy(s, key, n)) == multiset(rest)
  {
    var sorted := SortBy(s, key);
    rest := TakeRest(sorted, n);
    DiffOfAppend(Take(sorted, n), rest);
  }

  /** What `Take` leaves behind. */
  lemma TakeRest<T>(s: seq<T>, n: nat) returns (rest: seq<T>)
    ensures s == Take(s, n) + rest
  {
    var t := Take(s, n);
    rest := s[|t|..];
    assert t == s[..|t|];
  }

  lemma DiffOfAppend<T>(a: seq<T>, b: seq<T>)
    ensures multiset(a + b) - multiset(a) == multiset(b)
  {
    assert multiset(a + b) == multiset(a) + multiset(b);
  }

  /** Sorting a sequence that is already sorted changes nothing. */
  lemma {:induction false} SortSorted<T>(s: seq<T>, key: T -> real)
    requires Ascending(s, key)
    ensures SortBy(s, key) == s
  {
    if s != [] {
      SortSorted(s[1..], key);
      assert SortBy(s[1..], key) == s[1..];
      assert s == [s[0]] + s[1..];
      if s[1..] != [] {
        assert key(s[0]) <= key(s[1..][0]);
      }
    }
  }
}

=== FILE: speak.dfy ===
/** The `speak` tool (src/agents/tools/speak-tool.ts): a directive for web
    voice when the target is the user, a delivery message for any other
    target. */
module Speak {
  import opened Base
  import opened Strings
  import VoiceMessage

  const UserTarget: string := "user"
  const OkStatus: string := "ok"
  const SentHead: string := "Voice message sent to "
  const SentTail: string := " via ElevenLabs TTS."

  /** The reply body: a directive, or a message with the text echoed. */
  datatype SpeakBody =
    | DirectiveBody(directive: string)
    | MessageBody(message: string, text: string)

  datatype SpeakReply = SpeakReply(status: string, body: SpeakBody)

  /** `target ?? "user"`: only a missing target defaults; an empty one stays. */
  function EffectiveTarget(target: Option<string>): (t: string)
    ensures target.None? ==> t == UserTarget
    ensures target.Some? ==> t == target.value
  {
    match target
    case None => UserTarget
    case Some(t) => t
  }

  /** The delivery message for a target other than the user. */
  function SentMessage(target: string): (m: string)
    ensures IsPrefix(SentHead, m) && IsSuffix(SentTail, m)
    ensures |m| == |SentHead| + |target| + |SentTail|
  {
    SentHead + target + SentTail
  }

  /** The target a delivery message names. */
  function TargetOfMessage(m: string): Option<string> {
    if |m| >= |SentHead| + |SentTail| && IsPrefix(SentHead, m) && IsSuffix(SentTail, m)
    then Some(m[|SentHead|..|m| - |SentTail|])
    else None
  }

  lemma TargetOfSentMessage(target: string)
    ensures TargetOfMessage(SentMessage(target)) == Some(target)
  {
    var m := SentMessage(target);
    assert m[|SentHead|..|m| - |SentTail|] == target;
  }

  /** The `execute` body: the status is always "ok"; the user gets the voice
      directive without a voice id, any other target a message naming it
      together with the text. */
  function SpeakText(text: string, target: Option<string>): (r: SpeakReply)
    ensures r.status == OkStatus
    ensures r.body.DirectiveBody? <==> EffectiveTarget(target) == UserTarget
    ensures r.body.DirectiveBody? ==> r.body.directive == VoiceMessage.Directive(text, None)
    ensures r.body.MessageBody? ==>
      && r.body.text == text
      && TargetOfMessage(r.body.message) == Some(EffectiveTarget(target))
  {
    var t := EffectiveTarget(target);
    if t != UserTarget then
      TargetOfSentMessage(t);
      SpeakReply(OkStatus, MessageBody(SentMessage(t), text))
    else
      SpeakReply(OkStatus, DirectiveBody(VoiceMessage.TextTag + text + VoiceMessage.AsVoiceTag))
  }

  /** Speaking to the user (named or by default) gives the directive the
      voice-message tool builds without a voice, from which the text is
      recovered. */
  lemma SpeakToUserIsVoiceDirective(text: string, target: Option<string>)
    requires target.None? || target == Some(UserTarget)
    ensures var r := SpeakText(text, target);
      && r.body.DirectiveBody?
      && VoiceMessage.TextOf(r.body.directive, |text|) == text
      && VoiceMessage.VoiceOf(r.body.directive, |text|).None?
  {
    VoiceMessage.DirectiveRoundTrip(text, None);
  }

  /** An empty target is not defaulted: it gets a delivery message. */
  lemma EmptyTargetGetsMessage(text: string)
    ensures SpeakText(text, Some("")).body == MessageBody(SentHead + SentTail, text)
  {
    assert "" != UserTarget;
  }
}

=== FILE: strings.dfy ===
/** String helpers with the semantics of the JavaScript built-ins the tools
    use: `startsWith`, `includes`, ASCII `toLowerCase`, and `trim` over the
    ECMAScript white-space and line-terminator characters. */
module Strings {

  predicate IsPrefix(p: string, s: string) {
    |p| <= |s| && s[..|p|] == p
  }

  predicate IsSuffix(p: string, s: string) {
    |p| <= |s| && s[|s| - |p|..] == p
  }

  /** `sub` occurs in `s` starting at index `i`. */
  predicate OccursAt(sub: string, s: string, i: int) {
    0 <= i && i + |sub| <= |s| && s[i..i + |sub|] == sub
  }

  /** `s.includes(sub)`. */
  predicate IsInfix(sub: string, s: string) {
    exists i :: 0 <= i <= |s| - |sub| && OccursAt(sub, s, i)
  }

  function LowerChar(c: char): char {
    if 'A' <= c <= 'Z' then (c as int + 32) as char else c
  }

  /** `toLowerCase`, restricted to ASCII letters. */
  function Lower(s: string): (r: string)
    ensures |r| == |s|
    ensures forall i :: 0 <= i < |s| ==> r[i] == LowerChar(s[i])
  {
    seq(|s|, i requires 0 <= i < |s| => LowerChar(s[i]))
  }

  /** ECMAScript LineTerminator: LF, CR, LS, PS. `.` in a regular expression does not match these. */
  predicate IsLineTerminator(c: char) {
    c == '\n' || c == '\r' || c == '\U{2028}' || c == '\U{2029}'
  }

  /** ECMAScript WhiteSpace or LineTerminator: the set `\s` matches and `trim` removes. */
  predicate IsSpace(c: char) {
    || c == '\t' || c == '\U{000B}' || c == '\U{000C}' || c == ' ' || c == '\U{00A0}' || c == '\U{FEFF}'
    || c == '\U{1680}' || ('\U{2000}' <= c <= '\U{200A}') || c == '\U{202F}' || c == '\U{205F}' || c == '\U{3000}'
    || IsLineTerminator(c)
  }

  predicate IsDigit(c: char) {
    '0' <= c <= '9'
  }

  function TrimStart(s: string): (r: string)
    ensures IsSuffix(r, s)
    ensures r == [] || !IsSpace(r[0])
    ensures forall i :: 0 <= i < |s| - |r| ==> IsSpace(s[i])
  {
    if |s| > 0 && IsSpace(s[0]) then TrimStart(s[1..]) else s
  }

  function TrimEnd(s: string): (r: string)
    ensures IsPrefix(r, s)
    ensures r == [] || !IsSpace(r[|r| - 1])
    ensures forall i :: |r| <= i < |s| ==> IsSpace(s[i])
  {
    if |s| > 0 && IsSpace(s[|s| - 1]) then TrimEnd(s[..|s| - 1]) else s
  }

  /** `trim`: drop leading and trailing white space. */
  function Trim(s: string): (r: string)
    ensures r == [] || (!IsSpace(r[0]) && !IsSpace(r[|r| - 1]))
  {
    TrimEnd(TrimStart(s))
  }

  /** A string without white space at either end is its own trim. */
  lemma TrimFixed(s: string)
    requires s == [] || (!IsSpace(s[0]) && !IsSpace(s[|s| - 1]))
    ensures Trim(s) == s
  {
  }

  /** Whatever occurs in a trimmed string occurs in the original. */
  lemma InfixOfTrim(sub: string, s: string)
    requires IsInfix(sub, Trim(s))
    ensures IsInfix(sub, s)
  {
    var off, end := TrimIsSlice(s);
    var r := Trim(s);
    var i :| 0 <= i <= |r| - |sub| && OccursAt(sub, r, i);
    InfixOfSlice(sub, s, off, end, i);
  }

  /** The trim of `s` is one of its slices. */
  lemma TrimIsSlice(s: string) returns (off: nat, end: nat)
    ensures off <= end <= |s| && Trim(s) == s[off..end]
  {
    var t := TrimStart(s);
    var r := TrimEnd(t);
    off := |s| - |t|;
    end := off + |r|;
    assert t == s[off..];
    assert r == t[..|r|];
  }

  lemma InfixOfSlice(sub: string, s: string, a: int, b: int, i: int)
    requires 0 <= a <= b <= |s|
    requires OccursAt(sub, s[a..b], i)
    ensures IsInfix(sub, s)
  {
    forall k | 0 <= k < |sub|
      ensures s[a + i + k] == sub[k]
    {
      assert s[a..b][i + k] == sub[k];
    }
    assert s[a + i..a + i + |sub|] == sub;
    assert OccursAt(sub, s, a + i);
  }

  lemma PrefixOfLonger(p: string, q: string, s: string)
    requires IsPrefix(q, s) && IsPrefix(p, q)
    ensures IsPrefix(p, s)
  {
    assert s[..|p|] == q[..|p|];
  }
}

=== FILE: voice_message.dfy ===
/** The `voice_message` tool (src/agents/tools/voice-message-tool.ts): one
    audit row per message, then the text-to-speech directive the reply
    carries. */
module VoiceMessage {
  import opened Base
  import opened Strings
  import opened AuditLog

  const TextTag: string := "[[tts:text]]"
  const VoiceOpen: string := "[[tts:voiceid="
  const VoiceClose: string := "]]"
  const AsVoiceTag: string := "[[tts:audio:as-voice]]"

  const ActorAgent: string := "agent"
  const VoiceMessageAction: string := "voice_message"
  const UserResource: string := "user"
  const OkStatus: string := "ok"

  /** `${voice ? `[[tts:voiceid=${voice}]]` : ""}`. */
  function VoiceSegment(voice: Option<string>): (seg: string)
    ensures seg == [] <==> !Truthy(voice)
  {
    if Truthy(voice) then VoiceOpen + voice.value + VoiceClose else ""
  }

  /** The directive: the text tag, the text, the voice segment when a voice
      is given, and the as-voice tag. */
  function Directive(text: string, voice: Option<string>): (d: string)
    ensures IsPrefix(TextTag, d) && IsSuffix(AsVoiceTag, d)
    ensures |d| == |TextTag| + |text| + |VoiceSegment(voice)| + |AsVoiceTag|
  {
    TextTag + text + VoiceSegment(voice) + AsVoiceTag
  }

  /** The text of a directive whose text is `n` characters long. */
  function TextOf(d: string, n: nat): string
    requires |TextTag| + n <= |d|
  {
    d[|TextTag|..|TextTag| + n]
  }

  /** The voice of a directive whose text is `n` characters long: nothing
      when the text runs straight into the as-voice tag, otherwise what sits
      inside the voice segment. */
  function VoiceOf(d: string, n: nat): Option<string>
    requires |TextTag| + n + |AsVoiceTag| <= |d|
  {
    var seg := d[|TextTag| + n..|d| - |AsVoiceTag|];
    if |seg| >= |VoiceOpen| + |VoiceClose| && IsPrefix(VoiceOpen, seg) && IsSuffix(VoiceClose, seg)
    then Some(seg[|VoiceOpen|..|seg| - |VoiceClose|])
    else None
  }

  /** The directive gives back its text, and its voice exactly when the voice
      is non-empty: an empty or missing voice leaves no trace. */
  lemma DirectiveRoundTrip(text: string, voice: Option<string>)
    ensures var d := Directive(text, voice);
      && TextOf(d, |text|) == text
      && VoiceOf(d, |text|) == (if Truthy(voice) then voice else None)
  {
    var d := Directive(text, voice);
    var seg := VoiceSegment(voice);
    assert d == TextTag + text + seg + AsVoiceTag;
    assert d[|TextTag|..|TextTag| + |text|] == text;
    assert d[|TextTag| + |text|..|d| - |AsVoiceTag|] == seg;
    if Truthy(voice) {
      assert seg[|VoiceOpen|..|seg| - |VoiceClose|] == voice.value;
    }
  }

  /** A missing voice and an empty one give the same directive. */
  lemma EmptyVoiceIsNoVoice(text: string)
    ensures Directive(text, Some("")) == Directive(text, None) == TextTag + text + AsVoiceTag
  {
  }

  datatype VoiceResult = VoiceOk(directive: string) | VoiceError(error: string)

  datatype VoiceOutcome = VoiceOutcome(audit: seq<AuditRow>, result: VoiceResult)

  /** The row logged for one voice message; it has no diff. */
  function VoiceAuditRow(id: string, now: int): (row: AuditRow)
    ensures row.id == id && row.actorId == ActorAgent && row.action == VoiceMessageAction
    ensures row.resource == UserResource && row.diff.None? && row.status == OkStatus && row.createdAt == now
  {
    AuditRow(id, ActorAgent, VoiceMessageAction, UserResource, None, OkStatus, now)
  }

  /** The `execute` body. The fresh UUID, the clock and the insert's outcome
      (the thrown error's message on failure) are parameters. */
  function SendVoiceMessage(audit: seq<AuditRow>, text: string, voice: Option<string>,
                            id: string, now: int, insert: Result<()>): (out: VoiceOutcome)
    ensures out.result.VoiceOk? <==> insert.Ok?
    ensures insert.Ok? ==> out.audit == audit + [VoiceAuditRow(id, now)]
    ensures insert.Ok? ==> out.result.directive == Directive(text, voice)
    ensures insert.Ok? ==> |out.result.directive| >= |TextTag| + |text| + |AsVoiceTag|
    ensures insert.Ok? ==> TextOf(out.result.directive, |text|) == text
    ensures insert.Ok? ==> VoiceOf(out.result.directive, |text|) == (if Truthy(voice) then voice else None)
    ensures insert.Err? ==> out.audit == audit && out.result == VoiceError(insert.error)
  {
    if insert.Err? then VoiceOutcome(audit, VoiceError(insert.error))
    else
      DirectiveRoundTrip(text, voice);
      VoiceOutcome(audit + [VoiceAuditRow(id, now)], VoiceOk(Directive(text, voice)))
  }

  /** Each successful message appends exactly one row, the logged message
      last; a failed one appends nothing. */
  lemma OneRowPerMessage(audit: seq<AuditRow>, text: string, voice: Option<string>,
                         id: string, now: int, insert: Result<()>)
    ensures var out := SendVoiceMessage(audit, text, voice, id, now, insert);
      && |out.audit| == |audit| + (if insert.Ok? then 1 else 0)
      && out.audit[..|audit|] == audit
      && (insert.Ok? ==> out.audit[|audit|].action == VoiceMessageAction && out.audit[|audit|].status == OkStatus)
  {
    var out := SendVoiceMessage(audit, text, voice, id, now, insert);
    assert out.audit[..|audit|] == audit;
  }
}

=== FILE: workspace_manager.dfy ===
/** The workspace store (src/agents/workspace-manager.ts): the `workspaces`
    table as a map from workspace id to its stored configuration. */
module WorkspaceManager {
  import opened Base

  datatype WorkspaceConfig = WorkspaceConfig(
    id: string,
    name: string,
    rootPath: string,
    permissions: map<string, bool>)

  /** One row of `workspaces`: the configuration (stored as JSON text and read
      back with `JSON.parse`, which round-trips it) and its timestamps. */
  datatype WorkspaceRow = WorkspaceRow(name: string, config: WorkspaceConfig, createdAt: int, updatedAt: int)

  type Store = map<string, WorkspaceRow>

  const RootPrefix: string := "./workspaces/"

  const DefaultPermissions: map<string, bool> :=
    map["allow_web_search" := true, "allow_coding" := true, "allow_telephony" := false]

  datatype Created = Created(store: Store, config: WorkspaceConfig)

  /** `createWorkspace`: a workspace under `./workspaces/<id>` with the
      default permissions. The id is a fresh UUID, so it is not yet stored.
      The two clock readings and the outcomes of `fs.mkdir` and of the INSERT
      are parameters; a failing step throws, and nothing is stored. */
  function CreateWorkspace(store: Store, name: string, freshId: string, createdAt: int, updatedAt: int,
                           mkdir: Result<()>, insert: Result<()>): (r: Result<Created>)
    requires freshId !in store
    ensures r.Err? <==> mkdir.Err? || insert.Err?
    ensures mkdir.Err? ==> r.error == mkdir.error
    ensures mkdir.Ok? && insert.Err? ==> r.error == insert.error
    ensures r.Ok? ==>
      var out := r.value;
      && out.config.id == freshId && out.config.name == name
      && out.config.rootPath == RootPrefix + freshId
      && out.config.permissions == DefaultPermissions
      && out.store.Keys == store.Keys + {freshId}
      && out.store[freshId] == WorkspaceRow(name, out.config, createdAt, updatedAt)
      && forall id :: id in store ==> out.store[id] == store[id]
  {
    if mkdir.Err? then Err(mkdir.error)
    else if insert.Err? then Err(insert.error)
    else
      var config := WorkspaceConfig(freshId, name, RootPrefix + freshId, DefaultPermissions);
      Ok(Created(store[freshId := WorkspaceRow(name, config, createdAt, updatedAt)], config))
  }

  /** `getWorkspace`: the stored configuration, or null for an unknown id. */
  function GetWorkspace(store: Store, id: string): (r: Option<WorkspaceConfig>)
    ensures r.Some? <==> id in store
    ensures r.Some? ==> r.value == store[id].config
  {
    if id in store then Some(store[id].config) else None
  }

  /** After creating a workspace, looking it up returns the configuration
      the creation returned. */
  lemma GetAfterCreate(store: Store, name: string, freshId: string, createdAt: int, updatedAt: int,
                       mkdir: Result<()>, insert: Result<()>)
    requires freshId !in store
    ensures var r := CreateWorkspace(store, name, freshId, createdAt, updatedAt, mkdir, insert);
      r.Ok? ==> GetWorkspace(r.value.store, r.value.config.id) == Some(r.value.config)
  {
  }

  /** `{ ...old, ...supplied }`: supplied keys win. */
  function Merge(current: map<string, bool>, supplied: map<string, bool>): (m: map<string, bool>)
    ensures m.Keys == current.Keys + supplied.Keys
    ensures forall k :: k in supplied ==> m[k] == supplied[k]
    ensures forall k :: k in current && k !in supplied ==> m[k] == current[k]
  {
    current + supplied
  }

  /** `setPermissions`: merge the supplied permissions into the stored ones,
      or fail, writing nothing, when the workspace does not exist or the
      UPDATE (whose outcome is a parameter) throws. */
  function SetPermissions(store: Store, id: string, permissions: map<string, bool>, now: int,
                          update: Result<()>): (r: Result<Store>)
    ensures r.Err? <==> id !in store || update.Err?
    ensures id !in store ==> r.error == "Workspace " + id + " not found"
    ensures id in store && update.Err? ==> r.error == update.error
    ensures r.Ok? ==>
      && r.value.Keys == store.Keys
      && (forall other :: other in store && other != id ==> r.value[other] == store[other])
      && r.value[id].config == store[id].config.(permissions := Merge(store[id].config.permissions, permissions))
      && r.value[id].updatedAt == now
      && r.value[id].name == store[id].name && r.value[id].createdAt == store[id].createdAt
  {
    if id !in store then Err("Workspace " + id + " not found")
    else if update.Err? then Err(update.error)
    else
      var row := store[id];
      var config := row.config.(permissions := Merge(row.config.permissions, permissions));
      Ok(store[id := row.(config := config, updatedAt := now)])
  }

  /** Setting permissions keeps the workspace's id, name and root path; a
      supplied key takes the supplied value, an unsupplied one keeps its old value. */
  lemma SetPermissionsMerges(store: Store, id: string, permissions: map<string, bool>, now: int)
    requires id in store
    ensures var r := SetPermissions(store, id, permissions, now, Ok(()));
      var before := store[id].config;
      && r.Ok?
      && var after := GetWorkspace(r.value, id).value;
      && after.id == before.id && after.name == before.name && after.rootPath == before.rootPath
      && after.permissions.Keys == before.permissions.Keys + permissions.Keys
      && (forall k :: k in permissions ==> after.permissions[k] == permissions[k])
      && (forall k :: k in before.permissions && k !in permissions ==> after.permissions[k] == before.permissions[k])
  {
  }

  /** Two permission updates in a row amount to one update with the second
      set of permissions laid over the first. */
  lemma SetPermissionsTwice(store: Store, id: string, p1: map<string, bool>, p2: map<string, bool>, t1: int, t2: int)
    requires id in store
    ensures var once := SetPermissions(store, id, p1, t1, Ok(())).value;
      GetWorkspace(SetPermissions(once, id, p2, t2, Ok(())).value, id)
        == GetWorkspace(SetPermissions(store, id, p1 + p2, t2, Ok(())).value, id)
  {
    var m := store[id].config.permissions;
    assert (m + p1) + p2 == m + (p1 + p2);
  }

  /** `cloneWorkspace`: fails before creating anything when the source is
      missing; otherwise creates a new workspace under the new name, with the
      default permissions rather than the source's. */
  function CloneWorkspace(store: Store, sourceId: string, newName: string, freshId: string,
                          createdAt: int, updatedAt: int, mkdir: Result<()>, insert: Result<()>): (r: Result<Created>)
    requires freshId !in store
    ensures sourceId !in store ==> r == Err("Source workspace " + sourceId + " not found")
    ensures sourceId in store ==> r == CreateWorkspace(store, newName, freshId, createdAt, updatedAt, mkdir, insert)
    ensures r.Err? <==> sourceId !in store || mkdir.Err? || insert.Err?
  {
    match GetWorkspace(store, sourceId)
    case None => Err("Source workspace " + sourceId + " not found")
    case Some(_) => CreateWorkspace(store, newName, freshId, createdAt, updatedAt, mkdir, insert)
  }

  /** A successful clone leaves the source untouched and yields a distinct
      workspace whose permissions are the defaults whatever the source's were. */
  lemma CloneIgnoresSourcePermissions(store: Store, sourceId: string, newName: string, freshId: string,
                                      createdAt: int, updatedAt: int)
    requires freshId !in store && sourceId in store
    ensures var r := CloneWorkspace(store, sourceId, newName, freshId, createdAt, updatedAt, Ok(()), Ok(()));
      && r.Ok?
      && r.value.config.id != sourceId
      && r.value.config.name == newName
      && r.value.config.permissions == DefaultPermissions
      && GetWorkspace(r.value.store, sourceId) == GetWorkspace(store, sourceId)
  {
  }
}
